=== FILE: README.md ===
# happy-puppeteer response cache, in Dafny

A Dafny model of the logic behind happy-puppeteer. The tool drives a
Chrome browser with puppeteer and captures browser responses into a
local cache. The model covers:

- **`Pipeline`** (`pipeline.dfy`): the ordered work queue, as a state
  machine. Its state is the queue, the item whose handler call is
  awaited, the `isWorking` flag and the log of handled items. Pushes,
  handler completions and the reset of `isWorking` are explicit events.
- **The cache store**: `WebsiteCache` in `bin/sqlite3/websiteCache.js` and
  its module-level twin in `bin/sqlite3/index.js`. It is split over five
  files:
  - `cache_row.dfy`: record normalisation (`checkInsertData`);
  - `cache_store.dfy`: select, upsert, insert-only and delete;
  - `upsert_laws.dfy`: the keyed-table laws;
  - `write_buffer.dfy`: `delayInsert`, its timer, the exit flush and the
    one-instance-per-directory registry;
  - `trim.dfy`: `trimResult`.

  The two variants share one definition, parameterised by a `Schema`. The
  schema is the list of defaults (24 columns for the class, 23 for the
  twin) and whether object values are stringified.
- **The statement shapes of `sqlFragment.js`** (`sql_fragment.dfy`): the
  24 columns, the insert and update placeholders, the select, select-all
  and index builders.
- **Capturing a response** (`cache_response.dfy`): `save` with its
  filters, file layout, same-path dedup and trim-on-overflow, and
  `trimCacheData`, `deleteCacheFileByCacheData` and `saveWithCacheRules`,
  which adds the rule gate and the at-most-once guard. `save_guard.dfy`
  models that guard when the adaptor's calls on one response overlap.
- **The adaptor** (`adaptor.dfy`, with the rule matching shared with the
  capture gate in `rules.dfy`): `urlMatcher`, `pageMatcher` with its memo
  table, and the decisions of `request`, `response` and `printConsoleMsg`.
- **Small state machines**:
  - `request_handler.dfy`: the abort/continue flags of a request, for an
    adaptor whose promise resolves or rejects;
  - `intercepter.dfy`: the once-only interception setup, the
    first-request auto-reload, and the order in which requests reach
    `requestHandler` around a reload.
- **The bookkeeping helpers of the hot-reload module** (`hot_mod.dfy`):
  - `isNeedIgnore`;
  - `onReload` and `execReloadHandlers`;
  - `runOnChange`;
  - `addToWatch`;
  - `collectToParentModuleSet`;
  - `searchChildrenModule`, over an abstract module graph.

JavaScript values are the `Js.Value` datatype: `undefined`, `null`,
booleans, integers, strings, objects as maps, and arrays. `Truthy`,
`JsString` and `ArgToArr` model the coercions the code relies on. The
helpers of `bin/utils/index`, which is not part of this model, are taken
to mean:

- `argToArr(x)` is `x` for an array and `[x]` otherwise;
- `merge(def, data)` has the keys of `def` in `def` order, overridden by
  the keys `data` has;
- `isObj` is a plain object.

The environment becomes parameters:

- fingerprints and `md5` are uninterpreted functions `string -> string`;
- the clock is a `now` value;
- URL parsing is a function to `Option<Url>`, with a `Url` of `origin`,
  `host`, `pathname` and `search`;
- regular expressions are indices matched by an abstract predicate;
- `JSON.stringify` is a function;
- the file system is a function from paths to `Missing | File | Directory`.

The table is a sequence of rows in insertion order, not a map from
`url_hash` to a row. No index is `UNIQUE`, and `insertOnly` appends
without looking, so two rows under one key can exist. The predicate
`UpsertLaws.Keyed` states when the sequence behaves like that map, and the
upsert, delete and capture lemmas prove that they keep it.

Asynchronous steps become explicit events or outcomes:

- `Pipeline`: `Complete(outcome)` and `Settle`;
- the write buffer: `armed` plus `Fire` and `Exit`;
- overlapping `saveWithCacheRules` calls: `Enter`, `Resume` and `Settle`;
- the auto-reload: `ReloadSettled`, resolved or rejected;
- `saveWithCacheRules`: a `Verdict` of `Pass`, `Fail` or `Hang`, where
  `Hang` is a promise that never settles.

## Model

| member | source | states |
|---|---|---|
| Pipeline.Construct | bin/Pipeline.js:28-37 | The instance is usable (has a queue) iff the handler is a function; a usable one starts empty and idle. |
| Pipeline.StartPass | bin/Pipeline.js:51-55 | A pass takes the queue's head in flight and keeps the rest pending, in order. |
| Pipeline.OnPush | bin/Pipeline.js:83-86 | A push appends at the tail of the pending items and leaves the log alone; if a drain is running it does not start a second one (the item in flight is unchanged). |
| Pipeline.OnComplete | bin/Pipeline.js:54-62 | A settled handler call logs its item with the outcome; unless the outcome aborts the pass (a non-promise result), the next item is taken exactly when the queue is non-empty. |
| Pipeline.OnSettle | bin/Pipeline.js:68-76 | As written, the end of `_handler` always clears `isWorking`; corrected, it clears it only when nothing is queued. |
| Pipeline.Run | bin/Pipeline.js:44-86 | Any sequence of events keeps the state invariant (an item is in flight only during a drain, within the pass count). |
| Pipeline.PushToHandler | bin/Pipeline.js:83-86 | On an instance built with a non-function handler `push` throws; otherwise the item joins the pending items at the tail. |
| Pipeline.Conservation | bin/Pipeline.js:53-55 | The handled items followed by the pending ones are always the initial ones followed by everything pushed since. |
| Pipeline.HandledInPushOrder | bin/Pipeline.js:53-55 | From a fresh instance, handled plus pending items are exactly the pushes, in push order: each item reaches the handler once. |
| Pipeline.FixedNeverStrands | bin/Pipeline.js:64-76 | With the corrected completion and reset, `isWorking` is false only when nothing is pending, in every reachable state. |
| Pipeline.NotThenableStrands | bin/Pipeline.js:55-61 | As written, a handler returning a non-promise ends the drain with a later item still queued and `isWorking` false. |
| Pipeline.LatePushStrands | bin/Pipeline.js:68-76 | As written, a push between the last look at the queue and the reset of `isWorking` stays queued with no drain running. |
| Rules.AnyMatch | bin/pptr/cacheResponse.js:168-178 | The first-match loop over url rules is true iff some rule matches: a string as a substring, a regular expression by its test. |
| SqlFragment.InsertArity | bin/sqlite3/sqlFragment.js:33-37 | The insert statement's list, as written, has exactly 24 markers, one per declared column. |
| SqlFragment.JoinBinds | bin/sqlite3/sqlFragment.js:33-60 | Pieces with one marker each, joined by a separator without one, bind one value per piece. |
| SqlFragment.AssignmentBinds | bin/sqlite3/sqlFragment.js:58 | `col = ?` binds exactly one value when the column name has no `?`. |
| SqlFragment.UpdateAssignsColumns | bin/sqlite3/sqlFragment.js:4-60 | The update's `SET` list, as written, assigns the 24 declared columns in declaration order, each to its own marker. |
| SqlFragment.ColumnsHaveNoMarks | bin/sqlite3/sqlFragment.js:4-30 | No column name contains a `?`, so the update's markers are exactly its placeholders. |
| SqlFragment.UpdateArity | bin/sqlite3/sqlFragment.js:56-60 | The update binds the 24 columns in table order plus one trailing `url_hash` key: 25 values. |
| SqlFragment.WhereBindsKey | bin/sqlite3/sqlFragment.js:59 | The `WHERE url_hash=?` clause binds exactly one value. |
| SqlFragment.OrDefault | bin/sqlite3/sqlFragment.js:41 | `x || d` on a number: the default for an absent or zero value, the value otherwise. |
| SqlFragment.CreateSelectCode | bin/sqlite3/sqlFragment.js:39-43 | The select filters on the given column, with limit 1000 and offset 0 unless truthy ones are given. |
| SqlFragment.SplitJoin | bin/sqlite3/sqlFragment.js:48 | Joining names without commas with `,` and splitting the result gives the names back. |
| SqlFragment.CreateSelectAllCode | bin/sqlite3/sqlFragment.js:45-54 | The projection is `*` without a non-empty column array; the limit and offset default to 1000 and 0. |
| SqlFragment.SelectAllProjection | bin/sqlite3/sqlFragment.js:47-49 | A non-empty column array comes back out of the projection name by name. |
| SqlFragment.CreateIndexCode | bin/sqlite3/sqlFragment.js:66-71 | The index is named `<column>_index`, is on that column, and is UNIQUE iff `unique` is truthy. |
| CacheRow.Normalize | bin/sqlite3/websiteCache.js:79-145 | The record has exactly the schema's columns: supplied values (objects as JSON text when sanitising), the old `create_time` kept, `last_accessed` now, and `url_hash` the url's fingerprint unless a truthy one is supplied. The twin (bin/sqlite3/index.js:42-82) is the non-sanitising schema. |
| CacheRow.CheckInsertData | bin/sqlite3/websiteCache.js:79-80 | `false` for anything but a plain object; otherwise a record over all 24 columns. |
| CacheRow.Values | bin/sqlite3/websiteCache.js:292 | `Object.values` binds the record's values in schema order, one per column. |
| CacheRow.MergeComplete | bin/sqlite3/websiteCache.js:133-138 | Merging a record that already holds every column and no object value changes nothing. |
| CacheRow.NormalizeIdempotent | bin/sqlite3/websiteCache.js:79-145 | Normalising an already-normalised record again, at any later time and against any prior row, gives the same record. |
| CacheRow.InstanceArity | bin/sqlite3/websiteCache.js:83-108 | The class's defaults bind as many values as the insert statement has placeholders. |
| CacheRow.InfoOnlyAt22 | bin/sqlite3/sqlFragment.js:28 | `info` is the 23rd column and no other. |
| CacheRow.LegacyArity | bin/sqlite3/index.js:44-68 | The twin's defaults bind 23 values into 24 placeholders, and `info` is the missing one. |
| CacheStore.NoUniqueIndex | bin/sqlite3/websiteCache.js:34-45 | The seven indexes made at construction are on the indexed columns and none is UNIQUE. |
| CacheStore.ParamsMatchStatements | bin/sqlite3/sqlFragment.js:33-60 | The insert binds 24 values and the update 25. |
| CacheStore.Matching | bin/sqlite3/websiteCache.js:182 | The rows a statement finds are exactly the table's rows holding the value in that column, in table order. |
| CacheStore.Page | bin/sqlite3/sqlFragment.js:41 | `LIMIT`/`OFFSET` keep at most `limit` rows, all from the input, and everything when unbounded. |
| CacheStore.Select | bin/sqlite3/websiteCache.js:157-184 | `[]` for a falsy search value or a column that is not indexed; the array or transaction form returns `[]`; otherwise at most 1000 of the matching rows, all when there are no more. |
| CacheStore.ConcatContains | bin/sqlite3/websiteCache.js:175-179 | A row found by one part is in the concatenation of the parts. |
| CacheStore.SelectCorrected | bin/sqlite3/websiteCache.js:173-180 | Like `select`, with the batch form keeping what it finds; the single-value form is unchanged. |
| CacheStore.SelectCorrectedFindsAll | bin/sqlite3/websiteCache.js:173-180 | The corrected batch form returns every row that any of its values finds on its own. |
| CacheStore.SelectBatchDropsRows | bin/sqlite3/websiteCache.js:177 | As written, a stored key is found on its own but not inside an array; the corrected form finds it. |
| CacheStore.SelectByUrl | bin/sqlite3/websiteCache.js:220-222 | The first row stored under the url's fingerprint; found whenever such a row exists and the fingerprint is not empty. |
| CacheStore.SelectByUrls | bin/sqlite3/websiteCache.js:225-240 | One lookup per url in input order; a string is wrapped; `[]` for a falsy argument. |
| CacheStore.SelectByUrlInCache | bin/sqlite3/websiteCache.js:247-262 | The first buffered record whose `url_hash` is the url's fingerprint, `null` when there is none; reading a `null` or `undefined` entry first throws. |
| CacheStore.UpdateWhere | bin/sqlite3/sqlFragment.js:56-60 | The update rewrites every row stored under the key and no other. |
| CacheStore.Record | bin/sqlite3/websiteCache.js:284-290 | The record an upsert writes holds exactly the schema's columns. |
| CacheStore.Bound | bin/sqlite3/websiteCache.js:292-300 | The statement gets one value per column, plus the key for an update. |
| CacheStore.Bind | bin/sqlite3/websiteCache.js:292-300 | The model's binding rule: succeeds iff the count matches and every value is a number, text, `null` or `undefined`, and then passes the values on (arrays, `Buffer` and `BigInt` are under Left out). |
| CacheStore.RowError | bin/sqlite3/websiteCache.js:292-300 | Writing a record throws nothing iff it binds and its `NOT NULL` columns hold values. |
| CacheStore.InsertOne | bin/sqlite3/websiteCache.js:282-304 | A non-object element is skipped; an object commits iff the schema binds as many values as the statement has placeholders, every value binds and the row written fills the `NOT NULL` columns; then the table is the upsert's result. |
| CacheStore.InsertItems | bin/sqlite3/websiteCache.js:280-306 | A batch grows the table by at most one row per element, and throws only on an object. |
| CacheStore.Insert | bin/sqlite3/websiteCache.js:269-307 | Neither object nor array is rejected; otherwise the batch runs element by element, and the first error aborts it. |
| CacheStore.InsertSkipsNonObjects | bin/sqlite3/websiteCache.js:302-304 | An array with no object in it commits and leaves the table as it was. |
| CacheStore.SkipsNonObjects | bin/sqlite3/websiteCache.js:283 | Elements that are not objects leave the table unchanged. |
| CacheStore.InsertItemsAppend | bin/sqlite3/websiteCache.js:280-306 | A batch split in two is its first half, then its second on the table the first left: later items see earlier ones. |
| CacheStore.AppendedAt | bin/sqlite3/websiteCache.js:348-358 | The `k`-th appended row is the `k`-th object normalised with no prior row. |
| CacheStore.InsertRows | bin/sqlite3/websiteCache.js:348-358 | Rows are appended in order, all of them iff each one is insertable. |
| CacheStore.InsertOnlyItems | bin/sqlite3/websiteCache.js:348-358 | `insertOnly` appends exactly one normalised row per object item, in order, and commits iff every such row is insertable. |
| CacheStore.InsertOnly | bin/sqlite3/websiteCache.js:338-359 | Neither object nor array is rejected; an applied batch is the old table followed by one normalised row per object; it throws iff some such row is not insertable. |
| CacheStore.InsertOnlyDuplicates | bin/sqlite3/websiteCache.js:338-359 | Inserting the same record twice with `insertOnly` stores two rows under one key. |
| CacheStore.Without | bin/sqlite3/sqlFragment.js:62-64 | The delete removes exactly the rows stored under the key and keeps the others. |
| CacheStore.DeleteByUrl | bin/sqlite3/websiteCache.js:362-364 | The table without the url's fingerprint, and the number of rows removed. |
| CacheStore.DeleteEach | bin/sqlite3/websiteCache.js:374-379 | After deleting each url in turn no row remains under any of their keys, and every other row remains. |
| CacheStore.DeleteByUrls | bin/sqlite3/websiteCache.js:367-382 | One result per url in input order; a string is wrapped; a falsy argument changes nothing; exactly the rows under the given urls' keys are removed and every other row is kept. |
| UpsertLaws.ColumnsSound | bin/sqlite3/sqlFragment.js:4-37 | Any schema over the 24 columns names every column the upsert relies on and fills the insert statement. |
| UpsertLaws.InstanceValid | bin/sqlite3/websiteCache.js:83-108 | The class's schema, and the twin with `info` added, are sound. |
| UpsertLaws.NormalizedKey | bin/sqlite3/websiteCache.js:140-142 | A record with a url and no conflicting `url_hash` is stored under the url's fingerprint. |
| UpsertLaws.RecordKey | bin/sqlite3/websiteCache.js:284-285 | The upserted record keeps the item's url and its fingerprint as key. |
| UpsertLaws.UpsertKeepsKeyed | bin/sqlite3/websiteCache.js:280-306 | An upsert of a well-formed record commits, keeps the table keyed, stores the key, adds a row only when the key was new, and leaves rows under other keys alone. |
| UpsertLaws.RecordBinds | bin/sqlite3/websiteCache.js:282-300 | Under the 24-column schema, a binding object against a stored table gives a record whose every value binds and whose `NOT NULL` columns hold values. |
| UpsertLaws.UpsertCommits | bin/sqlite3/websiteCache.js:282-300 | Under the 24-column schema, upserting a binding object commits and the table still holds only storable values. |
| UpsertLaws.UpdateKeepsKeyed | bin/sqlite3/websiteCache.js:286-297 | Rewriting the rows under a stored key keeps the table keyed and its length. |
| UpsertLaws.AppendKeepsKeyed | bin/sqlite3/websiteCache.js:298-300 | Appending a row under a new key keeps the table keyed. |
| UpsertLaws.RecordOnUpdate | bin/sqlite3/websiteCache.js:284-290 | On an update the record counts one more update than the prior row, whatever count the item supplies; it keeps a truthy prior `create_time`, and stamps `last_accessed` now unless the item supplies one. |
| UpsertLaws.UpsertUpdatesInPlace | bin/sqlite3/websiteCache.js:286-297 | The rewritten row keeps its place and counts one more update; it keeps a truthy prior `create_time`, and its `last_accessed` is now unless the item supplies one. |
| UpsertLaws.UpsertCountsUpdate | bin/sqlite3/websiteCache.js:290 | An upsert on a stored key bumps that row's update count by one. |
| UpsertLaws.BatchKeepsKeyed | bin/sqlite3/websiteCache.js:280-306 | A batch of well-formed records keeps a keyed table keyed and never throws. |
| UpsertLaws.InstanceBatchKeyed | bin/sqlite3/websiteCache.js:269-307 | The class's insert of well-formed records into an empty table commits and leaves it keyed. |
| UpsertLaws.InsertItemsCons | bin/sqlite3/websiteCache.js:281-305 | A batch continues from the table its first element left. |
| UpsertLaws.FirstCapture | bin/sqlite3/websiteCache.js:107 | A first capture stores one row, keyed by its url, with update count 0. |
| UpsertLaws.NextCapture | bin/sqlite3/websiteCache.js:284-297 | Capturing again the one page a table holds keeps one row under that key. |
| UpsertLaws.ThreeCapturesOneRow | bin/sqlite3/websiteCache.js:280-306 | The same page captured three times into an empty table leaves one row with update count 2. |
| UpsertLaws.LegacyInsertThrows | bin/sqlite3/index.js:182-203 | The twin's insert throws for every object it is given. |
| UpsertLaws.LegacyValid | bin/sqlite3/index.js:44-68 | The twin names every column the upsert relies on but holds only 23 defaults. |
| UpsertLaws.SoundBatchCommits | bin/sqlite3/websiteCache.js:280-306 | With a sound schema every batch commits. |
| UpsertLaws.LegacyCorrectedNeverThrows | bin/sqlite3/index.js:44-68 | With `info` among its defaults the twin's insert applies every object or array. |
| UpsertLaws.WithoutKeepsKeyed | bin/sqlite3/websiteCache.js:362-364 | Deleting under one key keeps a keyed table keyed. |
| UpsertLaws.TailKeyed | bin/sqlite3/websiteCache.js:362-364 | Dropping the first row of a keyed table keeps it keyed. |
| UpsertLaws.ConsKeyed | bin/sqlite3/websiteCache.js:298-300 | A self-keyed row under a fresh key, put in front of a keyed table, keeps it keyed. |
| UpsertLaws.DeleteEachKeepsKeyed | bin/sqlite3/websiteCache.js:367-382 | `deleteByUrls` keeps a keyed table keyed. |
| WriteBuffer.DelayInsert | bin/sqlite3/websiteCache.js:315-331 | An empty buffer is a no-op returning true; with `writNow` or more than 100 records the whole buffer goes through `insert` in order and is emptied; otherwise it is kept and the timer re-armed; a throwing insert leaves the buffer and clears the timer. |
| WriteBuffer.DelayInsertKeepsInv | bin/sqlite3/websiteCache.js:315-331 | With a sound schema, a stored table and binding records, `delayInsert` never throws, keeps at most 100 records waiting, and the timer is armed exactly when records wait. |
| WriteBuffer.DeferralTransparent | bin/sqlite3/websiteCache.js:309-331 | Deferring is invisible: the table after writing everything equals inserting the new data after everything buffered before. |
| WriteBuffer.Fire | bin/sqlite3/websiteCache.js:327-329 | The timer firing disarms it; an armed non-empty buffer is written through `insert` and emptied, or kept when the insert throws. |
| WriteBuffer.Exit | bin/sqlite3/websiteCache.js:60-63 | The exit hook does nothing for an empty buffer; otherwise it writes the buffer through `insert`, emptying it unless the insert throws. |
| WriteBuffer.PendingSubset | bin/pptr/cacheResponse.js:64-66 | Dropping records from the buffer keeps the rest well formed and binding. |
| WriteBuffer.DelayInsertKeepsKeyed | bin/sqlite3/websiteCache.js:315-331 | Buffering a well-formed record keeps the store keyed and the buffer well formed. |
| WriteBuffer.DelayInsertStores | bin/sqlite3/websiteCache.js:315-331 | Once the buffer is written, a buffered well-formed record is stored under its url's fingerprint. |
| WriteBuffer.FlushKeepsKeyed | bin/sqlite3/websiteCache.js:322-325 | Writing well-formed, binding buffered records into a keyed table commits and keeps it keyed. |
| WriteBuffer.UpsertOneStores | bin/sqlite3/websiteCache.js:280-306 | Upserting one well-formed record stores a row under its url's fingerprint. |
| WriteBuffer.ExitDrains | bin/sqlite3/websiteCache.js:60-63 | The exit hook empties the buffer into the table. |
| WriteBuffer.FireDrains | bin/sqlite3/websiteCache.js:327-329 | The armed timer's firing empties the buffer into the table and disarms. |
| WriteBuffer.LegacyFlushStrands | bin/sqlite3/index.js:217-232 | The twin's flush throws, keeps the record buffered, and clears the timer, so nothing reaches the table. |
| WriteBuffer.Construct | bin/sqlite3/websiteCache.js:15-25 | Instances are keyed by the md5 of `cacheDir \|\| configured`: an existing one is returned, otherwise the new one is registered. |
| WriteBuffer.ConstructOncePerDirectory | bin/sqlite3/websiteCache.js:20-25 | Constructing twice for one directory yields the first instance and leaves the registry as it was. |
| Trim.StampsCons | bin/sqlite3/websiteCache.js:409-416 | The timestamps of a list are the first one's plus the rest's. |
| Trim.ScanFrom | bin/sqlite3/websiteCache.js:408-416 | The first loop maps every timestamp, keeps earlier representatives, and only appends to the trimmed list. |
| Trim.StepCounts | bin/sqlite3/websiteCache.js:411-415 | Each record becomes a representative or a duplicate, never both. |
| Trim.ScanFromCounts | bin/sqlite3/websiteCache.js:409-416 | Representatives and duplicates together count every record once. |
| Trim.ScanCounts | bin/sqlite3/websiteCache.js:404-416 | Every timestamp gets one representative; the other records are duplicates. |
| Trim.FirstWith | bin/sqlite3/websiteCache.js:409-416 | The place of the earliest record with a timestamp. |
| Trim.RepresentativeIsFirst | bin/sqlite3/websiteCache.js:406-416 | Each timestamp's representative is its earliest record. |
| Trim.Max | bin/sqlite3/websiteCache.js:419 | The largest timestamp of a non-empty set. |
| Trim.Desc | bin/sqlite3/websiteCache.js:418-419 | The sort lists every timestamp once, newest first, strictly decreasing. |
| Trim.DescStrict | bin/sqlite3/websiteCache.js:419 | Any earlier place of the sorted keys holds a newer timestamp. |
| Trim.DescHas | bin/sqlite3/websiteCache.js:419 | Every timestamp has a place in the sorted keys. |
| Trim.DescRank | bin/sqlite3/websiteCache.js:419-426 | The timestamp at place `i` has exactly `i` newer ones. |
| Trim.Skip | bin/sqlite3/websiteCache.js:421-427 | The places `j` with `j + 1 > reservedCount`: none without a count. |
| Trim.TrimmedIffNewer | bin/sqlite3/websiteCache.js:421-427 | A representative is trimmed iff `reservedCount` or more timestamps are newer. |
| Trim.Filter | bin/sqlite3/websiteCache.js:396-402 | A custom rule trims exactly the records for which it returns `true`. |
| Trim.Dropped | bin/sqlite3/websiteCache.js:422-427 | The representatives of the dropped timestamps, in sorted order. |
| Trim.Pick | bin/sqlite3/websiteCache.js:390-428 | `false` for a non-array or fewer records than the count; otherwise only records of the input, and with a custom rule exactly the records it accepts. |
| Trim.DefaultKeepsNewest | bin/sqlite3/websiteCache.js:404-427 | The default rule keeps as many records as there are distinct timestamps, capped at `reservedCount`. |
| Trim.DefaultTrimsByRank | bin/sqlite3/websiteCache.js:404-427 | The default rule trims the duplicates, then the representatives of timestamps with `reservedCount` or more newer ones. |
| Trim.NoCountTrimsDuplicatesOnly | bin/sqlite3/websiteCache.js:404-427 | Without a count the default rule trims only the later records of a shared timestamp. |
| Trim.UrlsOf | bin/sqlite3/websiteCache.js:431 | The urls of the trimmed records, in order. |
| Trim.TrimResult | bin/sqlite3/websiteCache.js:390-434 | Returns the selection; nothing is deleted when it is `false`; otherwise exactly the rows under the trimmed urls' keys are removed and every other row is kept. |
| Trim.TrimDeletes | bin/sqlite3/websiteCache.js:431 | Deleting the trimmed urls removes exactly the rows under their keys. |
| CacheResponse.FilesOf | bin/pptr/cacheResponse.js:129-138 | The removals issued for a list of records: each record's query path, in order, up to the first url that does not parse; it completes iff every url parses. |
| CacheResponse.WithField | bin/pptr/cacheResponse.js:54 | The records whose field is exactly the value, in order. |
| CacheResponse.WithoutKeys | bin/pptr/cacheResponse.js:64-66 | The buffered records whose key is not among the removed keys. |
| CacheResponse.AsValues | bin/pptr/cacheResponse.js:47 | Selected rows as plain objects, in order. |
| CacheResponse.Picked | bin/pptr/cacheResponse.js:118-123 | The records picked for trimming are among the records sharing the path. |
| CacheResponse.TrimCacheData | bin/pptr/cacheResponse.js:118-123 | Exactly the stored rows under the picked records' urls are deleted and the buffer is kept, whether the removals complete or throw; the files removed are those issued before the first url that does not parse. |
| CacheResponse.DeleteRecords | bin/pptr/cacheResponse.js:54-58 | Deleting records by url and removing their files: exactly the rows under their keys go, the buffer stays, the removals issued are recorded, and it completes iff every url parses. |
| CacheResponse.DropSameRows | bin/pptr/cacheResponse.js:54-58 | Exactly the stored rows under the same-content rows' urls are deleted and the buffer kept, whether the removals complete or throw; nothing happens when there are none. |
| CacheResponse.DropSameBuffered | bin/pptr/cacheResponse.js:61-68 | Exactly the buffered records sharing a key with a same-content record leave the buffer and the table is kept, whether the removals complete or throw. |
| CacheResponse.Trimmed | bin/pptr/cacheResponse.js:50-51 | Trimming only when more than 20 records share the path: then exactly the rows under the picked urls go, else nothing changes; the buffer is kept either way. |
| CacheResponse.Dedup | bin/pptr/cacheResponse.js:43-69 | The dedup branch keeps the store's schema. |
| CacheResponse.RecordOf | bin/pptr/cacheResponse.js:83-109 | The record is keyed by the url's fingerprint, with the path's and the body's fingerprints. |
| CacheResponse.RecordOfDescribes | bin/pptr/cacheResponse.js:83-109 | The record carries the url's host and a `url_length` equal to the url's length. |
| CacheResponse.RecordOfBinds | bin/pptr/cacheResponse.js:83-109 | Under a schema that turns objects into JSON text, every value the record carries binds: text, numbers, objects, and `undefined` only in nullable columns. |
| CacheResponse.HeaderColumnsNullable | bin/sqlite3/sqlFragment.js:12-27 | The columns filled from optional headers, and `server_ip_address`, are not declared `NOT NULL`. |
| CacheResponse.TargetPath | bin/pptr/cacheResponse.js:39-73 | The file is under the cache directory and the host: `pathname_<url fingerprint>` for a query url whose base path exists, otherwise the pathname, or `/host` for an empty or root pathname. |
| CacheResponse.Prepare | bin/pptr/cacheResponse.js:43-45 | The dedup branch runs only for a query url whose base path is a file. |
| CacheResponse.Commit | bin/pptr/cacheResponse.js:76-111 | The outcome names the file written, the files removed and the record; it is a rejection exactly when `delayInsert` flushes and `insert` throws, and then the record stays buffered and the table is unchanged. |
| CacheResponse.CommitSaves | bin/sqlite3/websiteCache.js:315-327 | A keyed store whose buffered records bind takes a binding record without `insert` throwing, so the commit saves. |
| CacheResponse.Save | bin/pptr/cacheResponse.js:15-112 | Non-200 and `data:` responses are skipped unchanged; a response reaches the commit (saved, or rejected by a flush that throws) iff its url parses, its body is readable and non-empty, and the dedup branch completes; a dedup that throws leaves its store and the files it had removed. |
| CacheResponse.SaveSaves | bin/pptr/cacheResponse.js:15-112 | From a keyed store whose buffered records bind, no flush throws: a response is saved iff its url parses, its body is readable and non-empty, and the dedup branch completes. |
| CacheResponse.SavedFileIsDeletable | bin/pptr/cacheResponse.js:43-72 | For a query url whose base path exists, the file written is exactly the one `deleteCacheFileByCacheData` removes for the record buffered. |
| CacheResponse.DedupOnlyRemoves | bin/pptr/cacheResponse.js:43-69 | Dedup removes exactly the stored rows under the trimmed or same-content urls and the buffered records sharing a key with a same-content record; every other row and record stays. |
| CacheResponse.OutsideSameRows | bin/pptr/cacheResponse.js:47-56 | A keyed row at the path that is not under a same-content url has different content. |
| CacheResponse.DedupLeavesNoDuplicateRow | bin/pptr/cacheResponse.js:53-58 | After dedup no stored row at the path has the new content. |
| CacheResponse.DedupLeavesNoDuplicateBuffered | bin/pptr/cacheResponse.js:60-68 | After dedup no buffered record at the path has the new content. |
| CacheResponse.AtPathIsSelected | bin/pptr/cacheResponse.js:47 | Every stored row at the path is among `cacheData` while the path holds at most 1000 rows. |
| CacheResponse.DedupFreshContentKeepsStore | bin/pptr/cacheResponse.js:43-69 | New content at a path holding at most 20 records leaves the store as it was. |
| CacheResponse.DeleteKeepsStoreOk | bin/pptr/cacheResponse.js:56 | Deleting by url keeps the store keyed. |
| CacheResponse.TrimmedKeepsStoreOk | bin/pptr/cacheResponse.js:50-51 | The trim step keeps the store keyed, whether it completes or throws. |
| CacheResponse.DropSameRowsKeepsStoreOk | bin/pptr/cacheResponse.js:54-58 | Dropping same-content rows keeps the store keyed, whether it completes or throws. |
| CacheResponse.DedupKeepsStoreOk | bin/pptr/cacheResponse.js:43-69 | The dedup branch keeps the store keyed, whether it completes or throws. |
| CacheResponse.DropSameBufferedKeepsStoreOk | bin/pptr/cacheResponse.js:60-68 | Dropping buffered records keeps the buffer well formed, whether it completes or throws. |
| CacheResponse.CommitKeepsStoreOk | bin/pptr/cacheResponse.js:111 | Buffering a well-formed record keeps the store keyed. |
| CacheResponse.CommitStoresRecord | bin/pptr/cacheResponse.js:111 | Once the buffer is written, the record is stored under its url's fingerprint. |
| CacheResponse.SaveKeepsStoreOk | bin/pptr/cacheResponse.js:15-112 | `save` keeps the store keyed, and a saved response ends up stored under its url's fingerprint. |
| CacheResponse.SavedIsCommit | bin/pptr/cacheResponse.js:39-111 | On the committing branch the outcome names the target file, the files dedup removed and the record built from the response, and the store is dedup's store after `delayInsert` of that record. |
| CacheResponse.SaveCommits | bin/pptr/cacheResponse.js:76-111 | When dedup leaves a keyed store, the committing branch of `save` keeps it keyed. |
| CacheResponse.PreparedStoresRecord | bin/pptr/cacheResponse.js:83-111 | Buffering the response's record after dedup leaves a writable buffer, and once it is written the table holds the url's fingerprint. |
| CacheResponse.Gate | bin/pptr/cacheResponse.js:154-193 | Fails iff the type or url rule rejects the response or an async match function resolves to anything but `true`; hangs iff both rules admit it and the match function is plain or its promise rejects; passes otherwise. |
| CacheResponse.GateCorrected | bin/pptr/cacheResponse.js:157-193 | Never hangs; passes iff each configured rule admits the response (absent rules admit all) and the match function, plain or async, yields exactly `true`. |
| CacheResponse.GateCorrectedAgrees | bin/pptr/cacheResponse.js:157-193 | With both rules configured and no plain match function, the corrected gate is the original, except that a rejecting async match function fails where the original hangs once the rules admit the response. |
| CacheResponse.AbsentRulesRejectAll | bin/pptr/cacheResponse.js:157-183 | As written a rule without `resourceType` and `url` admits nothing; corrected it admits everything. |
| CacheResponse.SaveWithCacheRules | bin/pptr/cacheResponse.js:146-208 | A stuck earlier call makes this one wait; a saved response returns `true` untouched; the store changes only on a passing gate, which runs `save` and returns whether it was not rejected; `_saved_` is set iff a passing save was not rejected. |
| CacheResponse.Session | bin/pptr/cacheResponse.js:146-208 | A sequence of calls on one response gives one reply per call. |
| CacheResponse.SavedAtMostOnce | bin/pptr/cacheResponse.js:147-152 | Over any sequence of calls on one response the record is saved at most once, never after `_saved_`. |
| CacheResponse.StuckStaysStuck | bin/pptr/cacheResponse.js:147-149 | Once a call's promise never settles, every later call waits and nothing is stored. |
| CacheResponse.MatchStrands | bin/pptr/cacheResponse.js:186-193 | As written, a plain match function, or an async one whose promise rejects, reached by the gate strands the response: this and every later call wait and nothing is stored. |
| CacheResponse.NoHangNeverWaits | bin/pptr/cacheResponse.js:146-152 | Calls whose gates never hang, on a response that is not stranded, never wait and leave it unstranded. |
| CacheResponse.CorrectedNeverStrands | bin/pptr/cacheResponse.js:146-208 | With the corrected gate no call ever waits forever. |
| SaveGuard.Begin | bin/pptr/cacheResponse.js:150-203 | A call past its `await` returns `true` once the response is saved; otherwise it starts `save` iff its gate passes; no other call moves. |
| SaveGuard.Finish | bin/pptr/cacheResponse.js:196-202 | A resolving `save` sets `_saved_` and counts one success; a rejecting one leaves both. |
| SaveGuard.Step | bin/pptr/cacheResponse.js:146-208 | As written, each event keeps `_saved_` once set and never takes back an entry or a success. |
| SaveGuard.Run | bin/pptr/cacheResponse.js:146-208 | The same over any sequence of events. |
| SaveGuard.DoubleSave | bin/pptr/adaptor.js:194-205 | As written, a configuration whose gate fails followed by two calls whose gates pass, both awaiting the first call's promise, saves the response twice. |
| SaveGuard.ChainedStep | bin/pptr/cacheResponse.js:146-208 | With each entering call taking `_saveing_` at once, each event keeps `_saved_` once set and never takes back an entry or a success. |
| SaveGuard.ChainedRun | bin/pptr/cacheResponse.js:146-208 | The same over any sequence of events. |
| SaveGuard.ChainedStepKeepsInv | bin/pptr/cacheResponse.js:146-152 | With the chained guard every event keeps calls in entry order, each past its `await` only after all earlier calls returned, no `save` running once saved, and one success iff saved. |
| SaveGuard.ChainedSavesOnce | bin/pptr/cacheResponse.js:146-152 | With the chained guard, under any interleaving of the calls, `save` resolves at most once, at most one `save` runs at a time, and none runs once the response is saved. |
| Adaptor.UrlMatcher | bin/pptr/adaptor.js:69-92 | False for falsy rules; otherwise true iff some wrapped rule matches, a string as a substring, a regular expression by its test. |
| Adaptor.MatchAll | bin/pptr/adaptor.js:118-123 | Exactly the configurations not disabled with `false` whose rules match the url. |
| Adaptor.MatchAllAppend | bin/pptr/adaptor.js:119-123 | Matching keeps configuration order. |
| Adaptor.PageMatcher | bin/pptr/adaptor.js:102-129 | `[]` for a page without a url; the memo's result unless disabled; otherwise the fresh match, remembered even when empty. |
| Adaptor.MemoTransparent | bin/pptr/adaptor.js:112-128 | While the configurations do not change, the memo returns what matching computes and stays sound. |
| Adaptor.FirstResultSticks | bin/pptr/adaptor.js:94-100 | The first result for a url is what later cached calls return, whatever the configurations become. |
| Adaptor.RequestHook | bin/pptr/adaptor.js:151-178 | `abortReq` is called iff a matched configuration intercepts the request's type; the result is awaited iff some `onRequest` is async. |
| Adaptor.CapturesFrom | bin/pptr/adaptor.js:185-200 | One capture per matched configuration with `cacheRules`, in order. |
| Adaptor.ResponseCaptures | bin/pptr/adaptor.js:181-212 | A configuration is captured iff it has `cacheRules`; the global capture happens iff `cacheDir` and `cacheRules` are both set, after the page captures. |
| Adaptor.CapturedOnce | bin/pptr/adaptor.js:196-205 | No capture happens twice for one response. |
| Adaptor.IndexNamed | bin/pptr/adaptor.js:235 | The array index whose decimal name is the key, if there is one. |
| Adaptor.KeepUnlisted | bin/pptr/adaptor.js:235 | As written, the local types kept are those whose `globalConf[item]` is falsy. |
| Adaptor.KeepUnlistedCorrected | bin/pptr/adaptor.js:232-235 | The local types the global list does not include. |
| Adaptor.Prints | bin/pptr/adaptor.js:219-246 | No global: a local array prints its types and local `true` prints nothing; global array and local `true`: everything outside a non-empty global list; both arrays: local types with falsy `globalConf[type]`; any other truthy global: nothing. |
| Adaptor.PrintsCorrected | bin/pptr/adaptor.js:232-235 | With both lists, a type prints iff the local list has it and the global does not; otherwise as written. |
| Adaptor.SharedTypePrintedTwice | bin/pptr/adaptor.js:235 | As written, a type in both lists is printed again locally; corrected, it is not. |
| Adaptor.PrintConsoleMsg | bin/pptr/adaptor.js:215-248 | Global `true` suppresses per-page printing; otherwise one decision per matched configuration. |
| RequestHandler.DoAbort | bin/pptr/requestHandler.js:7-12 | `abort()` happens at most once and sets the flag. |
| RequestHandler.DoContinue | bin/pptr/requestHandler.js:15-19 | A no-op once aborted; otherwise `continue()` is logged. |
| RequestHandler.Apply | bin/pptr/requestHandler.js:27-28 | Handler calls keep the flag consistent, and nothing follows an abort. |
| RequestHandler.Start | bin/pptr/requestHandler.js:21-24 | A request is aborted before the adaptor runs iff its type is globally intercepted. |
| RequestHandler.Handle | bin/pptr/requestHandler.js:1-31 | A globally intercepted request is aborted once and never continued; the adaptor's calls follow; `continueReq` runs only when the adaptor's promise resolves. |
| RequestHandler.ExactlyOneOutcome | bin/pptr/requestHandler.js:28-30 | When the adaptor's promise resolves, every request ends in exactly one of abort or continue. |
| RequestHandler.RejectionStalls | bin/pptr/adaptor.js:163-174 | As written, when an `onRequest` handler throws or rejects, a request no configuration aborts is neither aborted nor continued. |
| RequestHandler.HandleCorrected | bin/pptr/requestHandler.js:28-30 | With `continueReq` run however the adaptor ends, the request ends as when the adaptor's promise resolves. |
| RequestHandler.CorrectedExactlyOneOutcome | bin/pptr/requestHandler.js:28-30 | Corrected, every request is aborted once or continued once, whether the adaptor resolves or rejects. |
| RequestHandler.OnlyAborts | bin/pptr/requestHandler.js:7-12 | Any number of `abortReq` calls aborts once iff there is one and the request was not aborted already. |
| RequestHandler.AdaptorActions | bin/pptr/adaptor.js:158-161 | The adaptor calls `abortReq` once per matched configuration that intercepts the type. |
| RequestHandler.AbortedIffIntercepted | bin/pptr/requestHandler.js:22-30 | When the adaptor's promise resolves, a request is aborted, once, iff its type is intercepted globally or by a matched configuration; otherwise it is continued once. |
| Intercepter.SetIntercepter | bin/pptr/intercepter.js:19-26 | Interception and its listener are installed only when supported and not yet installed. |
| Intercepter.OnRequest | bin/pptr/intercepter.js:32-58 | Before the first request is recorded, a reload happens iff the type is not `document`, the urls differ and fewer than 2 reloads happened; otherwise the request is recorded with the lifecycle listeners. Afterwards nothing changes. |
| Intercepter.RequestsOf | bin/pptr/intercepter.js:26 | The requests among a page's events, in order. |
| Intercepter.Advance | bin/pptr/intercepter.js:26-61 | A request that reloads the page waits for the reload; any other reaches `requestHandler` at once; a settled reload hands its request on, or drops it when the reload rejects; nothing handled or dropped is undone. |
| Intercepter.Run | bin/pptr/intercepter.js:26-61 | Over any events the handled and dropped requests only grow, and every intercepted request is counted once. |
| Intercepter.RunKeepsInv | bin/pptr/intercepter.js:19-61 | Over any events: at most 2 reloads, no more requests waiting than reloads, listeners installed at most once, and each intercepted request is exactly once waiting, handled or dropped. |
| Intercepter.RecordedInOrder | bin/pptr/intercepter.js:32-61 | Once a first request is recorded and none waits on a reload, every later request reaches `requestHandler` in arrival order, and the first request and reload count stay. |
| Intercepter.ReloadReorders | bin/pptr/intercepter.js:38-61 | A request that reloads the page reaches `requestHandler` after a document request that arrives during the reload. |
| Intercepter.ReloadRejectDrops | bin/pptr/intercepter.js:38-61 | A request whose reload rejects never reaches `requestHandler`. |
| HotMod.IsNeedIgnore | bin/hotMod.js:65-92 | True iff the path is empty, built in, or hit by a wrapped rule: a regular expression that tests true, a function returning exactly `true`, or an equal string. |
| HotMod.OnReload | bin/hotMod.js:121-126 | Appends a function not yet registered; anything else leaves the list as it was. |
| HotMod.RegisterAllDistinct | bin/hotMod.js:121-126 | Any sequence of registrations keeps the handlers distinct, holding exactly the functions offered. |
| HotMod.Callables | bin/hotMod.js:322-324 | The functions among the handlers, no more than there are handlers. |
| HotMod.CallablesMembers | bin/hotMod.js:322-324 | A function is run iff it is registered. |
| HotMod.ExecReloadHandlers | bin/hotMod.js:318-338 | Every registered function runs, in order; the result is true iff some function returned exactly `true`; a thrower does not cancel. |
| HotMod.RunHandlers | bin/hotMod.js:322-334 | The loop runs the functions in order and reports whether some one cancels. |
| HotMod.AnyCancels | bin/hotMod.js:326-329 | True iff some handler returned exactly `true`. |
| HotMod.HandlerStep | bin/hotMod.js:322-334 | One loop step runs the handler if it is a function and adds its vote. |
| HotMod.RunOnChange | bin/hotMod.js:139-168 | Bad arguments are rejected iff the path is falsy or the callback is not a function; a duplicate by the functions' `id` property changes nothing; otherwise the callback is pushed onto its path's entry. |
| HotMod.RunOnChangeCorrected | bin/hotMod.js:134-157 | A registration is a duplicate iff an earlier callback on the path was registered under the same truthy id. |
| HotMod.CorrectedKeepsIdsUnique | bin/hotMod.js:148 | With the corrected test no two callbacks on a path share a truthy id. |
| HotMod.SameIdRegisteredTwice | bin/hotMod.js:149-151 | As written, two registrations under one id both stay; corrected, the second is a duplicate. |
| HotMod.AddToWatch | bin/hotMod.js:180-211 | No module: `false`; the same module, an ignored path or the module's own file: skipped unchanged; otherwise registered and watched when the entry was new and watching is on; a TypeError iff the entry is missing and watching is off. |
| HotMod.AddToWatchCorrected | bin/hotMod.js:180-211 | Never throws; same skips; the path is watched iff the entry was new and watching is on. |
| HotMod.AddToWatchSettles | bin/hotMod.js:196-197 | Registering a module twice: the second call finds it and changes nothing. |
| HotMod.AddToWatchCorrectedSettles | bin/hotMod.js:196-197 | The same for the corrected registration. |
| HotMod.DisabledWatchThrows | bin/hotMod.js:200-210 | As written, with `disableWatch` true a fresh module throws a TypeError; corrected, it is registered and nothing is watched. |
| HotMod.CollectParent | bin/hotMod.js:223-233 | Skipped loads change nothing; otherwise the parent's `filename \|\| id` joins the path's set and no other entry changes. |
| HotMod.CollectAllGrows | bin/hotMod.js:213-217 | Parent sets only grow, and every recorded parent is present at the end. |
| HotMod.Below | bin/hotMod.js:256-270 | The modules reachable through children within a number of steps. |
| HotMod.BelowStep | bin/hotMod.js:262-268 | A listed child is reachable in one step, and what it reaches in `k - 1` steps is reachable in `k`. |
| HotMod.Traverse | bin/hotMod.js:256-270 | Beyond depth 20 nothing is added; every key found belongs to a module reachable within the remaining depth; each child outside `node_modules` is found. |
| HotMod.Visit | bin/hotMod.js:262-269 | The loop over a module's children finds each child outside `node_modules`, and only reachable keys. |
| HotMod.SearchChildren | bin/hotMod.js:241-274 | Nothing without a module; otherwise only keys of modules reachable within 21 steps, including each direct child outside `node_modules`. |

## Left out

- The SQLite engine, transactions and prepared-statement caching. A batch is one function on the table, statements are their shapes, and the 1000-row `LIMIT` of `selectByUrl` is modelled but not the rows' storage order beyond insertion order.
- File system effects (`fs.outputFile`, `fs.remove`, `ensureDirSync`, `deleteDatabase`). The model returns the paths written and removed; a failed write or removal, which the code only logs, is not modelled.
- Hashing (`crypto`, `md5`) and `JSON.stringify` are parameters. No collision-freedom is assumed.
- Real timers, `process.on('exit')` and the promise scheduler. They are explicit events: `Fire`, `Exit`, `Complete`, `Settle`, and a `Verdict` for the gate's promise.
- Puppeteer and Chrome plumbing: browser launch, page navigation, the reload handler the adaptor registers (bin/pptr/adaptor.js:23-57), the `target.page()` unwrapping in `setIntercepter`, `setCacheEnabled`, and the response listener. `responseHandler.js` is not part of this model.
- The adaptor's `domcontentloaded`, `load` and `console` hooks and the `onRequest`/`onResponse` calls themselves. They only call configured functions on the matched configurations, and `pageMatcher` is modelled.
- The hot-reload module's loader patching: `Module._load`, `addHotHooks` beyond `onReload` and `runOnChange`, `getParents`, `purgeCache`, `updateModule`, the chokidar watcher and `require.cache` edits. The `require` and `onChange` calls of `runOnChange` are reported as a flag.
- Ignore functions and trim rules that throw are not modelled. Reload handlers that throw are modelled, and so is every match function: a plain one hangs the gate whether it returns or throws, and an async one hangs it when its promise rejects.
- JavaScript `===` on objects and functions is structural equality on the model's values; functions are identified by an index.
- `Object.keys` order: `SearchChildren` returns a set, not the ordered key list.
- Inherited properties: `globalConf[item]` reads only array indices and `length`, and `pageMatCache` has no prototype keys.
- `update_count` as text: `Number(old) + 1` is modelled on integers, with a non-number giving NaN, stored as NULL.
- HotMod.SearchChildren: states which keys can be found and that each direct child outside `node_modules` is found, but not that a visited id is never traversed twice. The skip test reads `child.id` while the record is under `filename || id`, so it prevents re-traversal only for modules whose filename equals their id.
- Trim.Pick: the default rule requires every record to carry a numeric `last_accessed`. NaN timestamps give an implementation-defined sort order; `CacheResponse` takes that order as the `unorderedPick` parameter.
- Trim.TrimResult: carries the same requirement as `Trim.Pick` for the default rule.
- Pipeline.Run: only one instance is modelled, with the handler's and `onerror`'s behaviour given as each completion's outcome.
- RequestHandler.ExactlyOneOutcome: stated for an adaptor whose promise resolves (a rejecting one is `RejectionStalls`) and for `onRequest` handlers that call only `abortReq`. A handler that calls `continueReq` itself makes the final `continueReq` continue a second time, and that case is not stated.
- CacheStore.Bind: `Buffer` and `BigInt` values, which SQLite also binds, are not among the model's values. better-sqlite3 spreads an array argument into its items, so an array of scalars binds in their place; the model refuses every array.
- CacheStore.Select: better-sqlite3 throws a `TypeError` for a boolean or object search value, and for such an element in the array or transaction form; the model returns `[]` or the matching rows instead. SQLite's TEXT affinity makes a number match the text of its digits (`select(5, col)` finds a stored `'5'`); the model matches equal values only.
- CacheRow.Normalize, `CacheStore.InsertItems` and `WriteBuffer.DelayInsert` read the clock once per call (`env.now`), where `checkInsertData` reads `Date.now()` for each record and each default (bin/sqlite3/websiteCache.js:91-93). The records of one batch therefore share a `last_accessed`, which is what `Trim.Pick` collapses equal timestamps on.
- CacheResponse.SavedAtMostOnce: holds for calls that run one after another. Overlapping calls are the `SaveGuard` module, where the guard as written saves twice.
- CacheResponse.SaveOf: a store whose schema is not the 24-column one is left alone with a failed save. The class's store always has that schema.
- UpsertLaws.UpsertKeepsKeyed, `BatchKeepsKeyed`, `InstanceBatchKeyed`, `SoundBatchCommits`, `LegacyCorrectedNeverThrows` and `WriteBuffer.DelayInsertKeepsInv` promise a commit only for objects whose values bind (`UpsertLaws.Binding`) into a table of storable values. Other objects make `insert` throw, as `CacheStore.InsertOne` states.
- The entry of bin/pptr/cacheResponse.js (lines 7-12 and 212): its early return without `cacheRules` and the per-call `WebsiteCache`. The adaptor calls it only with `cacheRules` set, which `Adaptor.ResponseCaptures` states.
- Intercepter.Run: any waiting request's reload may settle next. The requests a reload itself sends are ordinary `Intercepted` events.

## Findings

| source | as written | input that shows it | evidently intended | confidence | as-written member | corrected member |
|---|---|---|---|---|---|---|
| bin/Pipeline.js:55-61 | `t.handler(item).catch(...)` assumes the handler returns a promise | A handler that returns a non-promise, with items `a` and `b` pushed: the `.catch` call throws, the pass is abandoned, `isWorking` is reset, and `b` stays queued until another push | Every pushed item is handled whether the handler is sync or async (the class comment at lines 14-20) | medium, not executed | Pipeline.NotThenableStrands | Pipeline.FixedNeverStrands |
| bin/Pipeline.js:68-76 | The queue is last checked inside `handle`, and `isWorking` is reset only after `handle` settles | A push that lands between the final `dataQueue.length` check and `isWorking = false` is queued while no drain runs | The drain ends only when the queue is observed empty | low, not executed | Pipeline.LatePushStrands | Pipeline.FixedNeverStrands |
| bin/sqlite3/index.js:44-68 | 23 defaults, without `info`, against an insert statement with 24 placeholders | Any object given to `insert` or flushed by `delayInsert`: binding 23 values throws, and the buffer is kept. This reads `merge(def, data)` as keeping only `def`'s keys, in `def` order; if it kept `data`'s other keys, an object carrying `info` would bind 24 values instead, misaligned with the columns | The 24 defaults of bin/sqlite3/websiteCache.js:83-108 | medium, not executed | UpsertLaws.LegacyInsertThrows | UpsertLaws.LegacyCorrectedNeverThrows |
| bin/sqlite3/websiteCache.js:173-180 | `result.concat(...)` discards its value | `select([h], 'url_hash')` with a row stored under `h` returns `[]`, while `select(h, 'url_hash')` finds it | The batch form returns the rows each value finds | high, not executed | CacheStore.SelectBatchDropsRows | CacheStore.SelectCorrectedFindsAll |
| bin/pptr/adaptor.js:235 | `globalConf[item]` indexes the global array by the type name | Global `['log']` and local `['log']`: `globalConf['log']` is `undefined`, so `log` prints again per page | Drop the types the global list already prints (the comment at line 234) | high, not executed | Adaptor.SharedTypePrintedTwice | Adaptor.PrintsCorrected |
| bin/pptr/cacheResponse.js:186-193 | `await matchRule(res).catch(...)` assumes an async match function, and its callback assigns `matchRuleResult` inside the `let` that declares it | A plain `match` function returning `true`: `.catch` throws inside the async executor. An async one that rejects: the callback's assignment throws a `ReferenceError`. Either way the promise stored in `_saveing_` never settles, and every later call on that response waits on it | A match function passes iff it yields exactly `true`, and a rejection fails the gate | medium, not executed | CacheResponse.MatchStrands | CacheResponse.CorrectedNeverStrands |
| bin/pptr/cacheResponse.js:146-152 | A call that waited on `_saveing_` tests `_saved_` once, then saves without looking at `_saveing_` again | Calls started without awaiting (bin/pptr/adaptor.js:194-205) for a configuration whose gate fails and for two whose gates pass: the later two both await the first's promise, both find `_saved_` false, and both save | A response is saved at most once (the comment at line 151) | medium, not executed | SaveGuard.DoubleSave | SaveGuard.ChainedSavesOnce |
| bin/pptr/requestHandler.js:28-30 | `req.continueReq()` runs only after `await adaptor.request` resolves | An async `onRequest` that rejects, or a plain one that throws (bin/pptr/adaptor.js:163-174), on a request no configuration intercepts: `continueReq` is skipped, and the request is neither aborted nor continued | Every request is continued unless it was aborted, which is what `continueReq` (lines 15-19) is written for | medium, not executed | RequestHandler.RejectionStalls | RequestHandler.CorrectedExactlyOneOutcome |
| bin/pptr/cacheResponse.js:157-183 | `argToArr(undefined)` is `[undefined]`, a non-empty rule list | A rule without `resourceType` or `url` admits no response | An absent url rule matches everything (the comment at line 180), and so does an absent type list | low, not executed (depends on `argToArr`, which is not part of this model) | CacheResponse.AbsentRulesRejectAll | CacheResponse.GateCorrected |
| bin/hotMod.js:149-151 | The duplicate test reads `item.id` of each registered function, which no caller sets | Two `runOnChange` calls on one path with id `"page"` and two different callbacks: both are pushed | One callback per id, since reloads create new function objects (the comments at lines 134-135 and 148) | medium, not executed | HotMod.SameIdRegisteredTwice | HotMod.CorrectedKeepsIdsUnique |
| bin/hotMod.js:200-210 | The entry is created only when `disableWatch === false`, but line 210 always writes into it | `disableWatch: true` and a fresh, non-ignored module: `hotModuleSet[path].module = module` throws a TypeError | Disabling watch does not affect other initialisation (the option comment at lines 46-49) | high, not executed | HotMod.DisabledWatchThrows | HotMod.AddToWatchCorrectedSettles |

=== FILE: adaptor.dfy ===
/**
 * The adaptor (bin/pptr/adaptor.js): which page configurations apply to a
 * page, memoised per page url, and what the request, response and console
 * hooks decide from them. User callbacks are not run; the model reports
 * which ones would be called and which are awaited.
 */
module Adaptor {
  import opened Js
  import opened Rules

  /** A configuration callback: absent (or not a function), a plain function, or an async one. */
  datatype Handler = NotFunction | Plain | Async

  /** The fields of a page configuration the adaptor reads. */
  datatype Conf = Conf(
    enabled: Value,
    matchRules: RuleArg,
    interceptResourceType: Value,
    onRequest: Handler,
    onResponse: Handler,
    cacheRules: Value,
    printConsoleMsg: Value)

  /** `urlMatcher(url, matchRules)`: false for falsy rules, else whether some rule matches. */
  function UrlMatcher(url: string, rules: RuleArg, test: Tester): (b: bool)
    ensures b <==> ArgTruthy(rules) && exists i :: 0 <= i < |ToList(rules)| && Matches(ToList(rules)[i], url, test)
  {
    ArgTruthy(rules) && AnyMatch(ToList(rules), url, test)
  }

  /** A configuration applies to a url unless it is disabled with exactly `false`. */
  predicate Selected(c: Conf, url: string, test: Tester) {
    c.enabled != Bool(false) && UrlMatcher(url, c.matchRules, test)
  }

  /** The configurations that apply to a url, in configuration order. */
  function MatchAll(pages: seq<Conf>, url: string, test: Tester): (r: seq<Conf>)
    ensures |r| <= |pages|
    ensures forall c :: c in r <==> c in pages && Selected(c, url, test)
  {
    if pages == [] then []
    else
      var rest := MatchAll(pages[1..], url, test);
      assert forall c :: c in pages <==> c == pages[0] || c in pages[1..];
      if Selected(pages[0], url, test) then [pages[0]] + rest else rest
  }

  /** Order: matching a concatenation of configuration lists is matching each in turn. */
  lemma {:induction false} MatchAllAppend(a: seq<Conf>, b: seq<Conf>, url: string, test: Tester)
    ensures MatchAll(a + b, url, test) == MatchAll(a, url, test) + MatchAll(b, url, test)
    decreases |a|
  {
    if a == [] {
      assert a + b == b;
    } else {
      assert (a + b)[0] == a[0];
      assert (a + b)[1..] == a[1..] + b;
      MatchAllAppend(a[1..], b, url, test);
    }
  }

  /** `pageMatCache`: the first result per page url. */
  type Memo = map<string, seq<Conf>>

  /**
   * `pageMatcher(page, disableCache)`: `page` is `None` when there is no page
   * or it has no `url` function. A remembered result is returned unless
   * `disableCache` is set; otherwise the result is computed and remembered,
   * even when empty.
   */
  function PageMatcher(memo: Memo, pages: seq<Conf>, page: Option<string>, disableCache: bool, test: Tester): (r: (Memo, seq<Conf>))
    ensures page.None? ==> r == (memo, [])
    ensures page.Some? && !disableCache && page.value in memo ==> r == (memo, memo[page.value])
    ensures page.Some? && (disableCache || page.value !in memo) ==>
              r.1 == MatchAll(pages, page.value, test) && r.0 == memo[page.value := r.1]
  {
    match page
    case None => (memo, [])
    case Some(url) =>
      if !disableCache && url in memo then (memo, memo[url])
      else
        var result := MatchAll(pages, url, test);
        (memo[url := result], result)
  }

  /** Every remembered result is what matching would compute now. */
  predicate MemoSound(memo: Memo, pages: seq<Conf>, test: Tester) {
    forall u :: u in memo ==> memo[u] == MatchAll(pages, u, test)
  }

  /** While the configurations do not change, the memo is invisible and stays sound. */
  lemma MemoTransparent(memo: Memo, pages: seq<Conf>, url: string, disableCache: bool, test: Tester)
    requires MemoSound(memo, pages, test)
    ensures PageMatcher(memo, pages, Some(url), disableCache, test).1 == MatchAll(pages, url, test)
    ensures MemoSound(PageMatcher(memo, pages, Some(url), disableCache, test).0, pages, test)
  {
  }

  /**
   * The first result decides: once a url has been matched, later calls
   * without `disableCache` return that result, whatever the configurations
   * are by then, and leave the memo alone.
   */
  lemma FirstResultSticks(memo: Memo, pages: seq<Conf>, later: seq<Conf>, url: string, disableCache: bool, test: Tester)
    ensures var (m1, r1) := PageMatcher(memo, pages, Some(url), disableCache, test);
            PageMatcher(m1, later, Some(url), false, test) == (m1, r1)
  {
  }

  /** What `request(req, page)` does for the matched configurations. */
  datatype RequestPlan = RequestPlan(abortCalls: nat, plainCalls: nat, awaited: nat)

  /** An `interceptResourceType` array that lists the request's type. */
  predicate Intercepts(v: Value, resourceType: Value) {
    v.Arr? && resourceType in v.items
  }

  /**
   * The request hook: `abortReq` once per matched configuration that
   * intercepts the type; plain `onRequest` handlers run inline and only the
   * async ones are awaited.
   */
  function RequestHook(matched: seq<Conf>, resourceType: Value): (r: RequestPlan)
    ensures r.abortCalls + r.plainCalls + r.awaited <= 2 * |matched|
    ensures r.abortCalls > 0 <==> exists i :: 0 <= i < |matched| && Intercepts(matched[i].interceptResourceType, resourceType)
    ensures r.awaited > 0 <==> exists i :: 0 <= i < |matched| && matched[i].onRequest == Async
    ensures r.awaited + r.plainCalls <= |matched|
  {
    if matched == [] then RequestPlan(0, 0, 0)
    else
      var rest := RequestHook(matched[1..], resourceType);
      assert forall i :: 1 <= i < |matched| ==> matched[i] == matched[1..][i - 1];
      var c := matched[0];
      RequestPlan(
        rest.abortCalls + (if Intercepts(c.interceptResourceType, resourceType) then 1 else 0),
        rest.plainCalls + (if c.onRequest == Plain then 1 else 0),
        rest.awaited + (if c.onRequest == Async then 1 else 0))
  }

  /** The global configuration fields the response hook reads. */
  datatype AppConf = AppConf(cacheDir: Value, cacheRules: Value, printConsoleMsg: Value, interceptResourceType: Value)

  /** A capture the response hook starts: a matched configuration's, by position, or the global one. */
  datatype Capture = PageCapture(index: nat) | GlobalCapture

  /** The captures from position `from` on. */
  function CapturesFrom(matched: seq<Conf>, from: nat): (r: seq<Capture>)
    requires from <= |matched|
    ensures forall k :: 0 <= k < |r| ==> r[k].PageCapture? && from <= r[k].index < |matched| && Truthy(matched[r[k].index].cacheRules)
    ensures forall k, l :: 0 <= k < l < |r| ==> r[k].index < r[l].index
    ensures forall i :: from <= i < |matched| && Truthy(matched[i].cacheRules) ==> PageCapture(i) in r
    decreases |matched| - from
  {
    if from == |matched| then []
    else
      var rest := CapturesFrom(matched, from + 1);
      if Truthy(matched[from].cacheRules) then [PageCapture(from)] + rest else rest
  }

  /**
   * The response hook's captures, in order: one per matched configuration
   * with truthy `cacheRules`, then the global one when both `cacheDir` and
   * `cacheRules` are set globally.
   */
  function ResponseCaptures(matched: seq<Conf>, app: AppConf): (r: seq<Capture>)
    ensures GlobalCapture in r <==> Truthy(app.cacheDir) && Truthy(app.cacheRules)
    ensures forall i :: 0 <= i < |matched| ==> (PageCapture(i) in r <==> Truthy(matched[i].cacheRules))
    ensures forall k, l :: 0 <= k < l < |r| && r[l].PageCapture? ==> r[k].PageCapture? && r[k].index < r[l].index
  {
    var pages := CapturesFrom(matched, 0);
    assert forall k :: 0 <= k < |pages| ==> pages[k] != GlobalCapture;
    if Truthy(app.cacheDir) && Truthy(app.cacheRules) then pages + [GlobalCapture] else pages
  }

  /** Each configuration is captured at most once per response. */
  lemma CapturedOnce(matched: seq<Conf>, app: AppConf, k: nat, l: nat)
    requires k < l < |ResponseCaptures(matched, app)|
    ensures ResponseCaptures(matched, app)[k] != ResponseCaptures(matched, app)[l]
  {
  }

  /* ---------------------------------------------------------------- */
  /* `printConsoleMsg`.                                                */

  /** The index `k` below `n` whose decimal name is `s`, if any. */
  function IndexNamed(s: string, n: nat): (r: Option<nat>)
    ensures r.Some? ==> r.value < n && NatToString(r.value) == s
    ensures r.None? ==> forall k :: 0 <= k < n ==> NatToString(k) != s
  {
    if n == 0 then None
    else if NatToString(n - 1) == s then Some(n - 1)
    else IndexNamed(s, n - 1)
  }

  /**
   * `array[key]` for an array's own properties: an element by index or by
   * its decimal name, and `length`. Inherited properties are not modelled.
   */
  function ArrayProp(items: seq<Value>, key: Value): Value {
    match key
    case Num(n) => if 0 <= n < |items| then items[n] else Undef
    case Str(s) =>
      if s == "length" then Num(|items|)
      else
        (match IndexNamed(s, |items|)
         case Some(k) => items[k]
         case None => Undef)
    case _ => Undef
  }

  /** `localConf.filter(item => !globalConf[item])`, as written. */
  function KeepUnlisted(local: seq<Value>, global: seq<Value>): (r: seq<Value>)
    ensures forall x :: x in r <==> x in local && !Truthy(ArrayProp(global, x))
  {
    if local == [] then []
    else
      var rest := KeepUnlisted(local[1..], global);
      assert forall x :: x in local <==> x == local[0] || x in local[1..];
      if !Truthy(ArrayProp(global, local[0])) then [local[0]] + rest else rest
  }

  /** The filter as evidently intended: the local types the global list does not include. */
  function KeepUnlistedCorrected(local: seq<Value>, global: seq<Value>): (r: seq<Value>)
    ensures forall x :: x in r <==> x in local && x !in global
  {
    if local == [] then []
    else
      var rest := KeepUnlistedCorrected(local[1..], global);
      assert forall x :: x in local <==> x == local[0] || x in local[1..];
      if local[0] !in global then [local[0]] + rest else rest
  }

  /**
   * Whether one matched configuration prints a message of type `msgType`,
   * with `filter` the local-minus-global rule for two arrays. `global` is
   * never `true` here: that case returns before any configuration is read.
   */
  function PrintsWith(global: Value, local: Value, msgType: Value, filter: (seq<Value>, seq<Value>) -> seq<Value>): bool {
    if !Truthy(local) then false
    else
      var resultConf: Value :=
        if !Truthy(global) then local
        else if global.Arr? && local.Arr? then Arr(filter(local.items, global.items))
        else Bool(false);
      var excludeConf: seq<Value> := if !Truthy(global) then [] else if global.Arr? && !local.Arr? && local == Bool(true) then global.items else [];
      if |excludeConf| != 0 && msgType !in excludeConf then true
      else resultConf.Arr? && msgType in resultConf.items
  }

  /** `printConsoleMsg` for one matched configuration, as written. */
  function Prints(global: Value, local: Value, msgType: Value): (b: bool)
    ensures !Truthy(global) && local.Arr? ==> (b <==> msgType in local.items)
    ensures !Truthy(global) && !local.Arr? ==> !b
    ensures global.Arr? && local == Bool(true) ==> (b <==> |global.items| != 0 && msgType !in global.items)
    ensures global.Arr? && local.Arr? ==> (b <==> msgType in local.items && !Truthy(ArrayProp(global.items, msgType)))
    ensures Truthy(global) && !global.Arr? ==> !b
  {
    PrintsWith(global, local, msgType, KeepUnlisted)
  }

  /** `printConsoleMsg` for one matched configuration with the intended local-minus-global filter. */
  function PrintsCorrected(global: Value, local: Value, msgType: Value): (b: bool)
    ensures global.Arr? && local.Arr? ==> (b <==> msgType in local.items && msgType !in global.items)
    ensures !(global.Arr? && local.Arr?) ==> b == Prints(global, local, msgType)
  {
    PrintsWith(global, local, msgType, KeepUnlistedCorrected)
  }

  /**
   * As written, a message type listed both globally and locally is printed
   * again by the page: the filter looks the type name up as a property of
   * the global array, which has no such property.
   */
  lemma SharedTypePrintedTwice()
    ensures Prints(Arr([Str("log")]), Arr([Str("log")]), Str("log"))
    ensures !PrintsCorrected(Arr([Str("log")]), Arr([Str("log")]), Str("log"))
  {
    assert IndexNamed("log", 1) == None by {
      assert NatToString(0) == "0";
    }
  }

  /**
   * `printConsoleMsg(msg, page)`: nothing when the global setting is `true`
   * (and the page is not even matched); else, for each matched
   * configuration in order, whether it prints the message. Printing calls
   * `console[msg.type()]`, which throws for a type the console lacks; the
   * only caller (bin/pptr/consoleMsgHandler.js:5) runs this only for types
   * the console has, so that throw is not modelled.
   */
  function PrintConsoleMsg(memo: Memo, pages: seq<Conf>, page: Option<string>, app: AppConf, msgType: Value, test: Tester)
    : (r: (Memo, seq<bool>))
    ensures app.printConsoleMsg == Bool(true) ==> r == (memo, [])
    ensures app.printConsoleMsg != Bool(true) ==>
              var (m, matched) := PageMatcher(memo, pages, page, false, test);
              r.0 == m && |r.1| == |matched| &&
              forall i :: 0 <= i < |matched| ==> r.1[i] == Prints(app.printConsoleMsg, matched[i].printConsoleMsg, msgType)
  {
    if app.printConsoleMsg == Bool(true) then (memo, [])
    else
      var (m, matched) := PageMatcher(memo, pages, page, false, test);
      (m, seq(|matched|, i requires 0 <= i < |matched| => Prints(app.printConsoleMsg, matched[i].printConsoleMsg, msgType)))
  }
}

=== FILE: cache_response.dfy ===
/**
 * Capturing one browser response into the cache (bin/pptr/cacheResponse.js):
 * the filters and file layout of `save`, the same-path same-content dedup
 * against the store and the unflushed buffer, the trim on overflow, the
 * record handed to `delayInsert`, and the rule gate with the at-most-once
 * guard of `saveWithCacheRules`.
 *
 * URL parsing, the file system and the fingerprint are parameters. File
 * writes and removals are best-effort and asynchronous; the model reports
 * the paths written and removed.
 */
module CacheResponse {
  import opened Js
  import opened CacheRow
  import opened CacheStore
  import Trim
  import WriteBuffer
  import UpsertLaws
  import opened Rules
  import SqlFragment

  /** The parts of `new URL(url)` the capture uses. */
  datatype Url = Url(origin: string, host: string, pathname: string, search: string)

  /** A file path as the segments handed to `path.join`. */
  type Path = seq<string>

  datatype FileKind = Missing | File | Directory

  /**
   * A response as the capture reads it: `body` is `None` when reading it
   * rejected; header names map to their text; `ip` is `None` when the
   * remote address has none.
   */
  datatype Response = Response(
    status: int, url: string, body: Option<string>,
    headers: map<string, string>, requestHeaders: map<string, string>, ip: Option<string>,
    httpMethod: Value, postData: Value, resourceType: Value)

  /**
   * What the capture consults besides the store: URL parsing (`None` where
   * `new URL` throws), the kind of file at a path, and the records
   * `trimResult` picks when some of them carry no numeric `last_accessed`
   * and its sort compares `NaN`s, an order ECMAScript leaves to the engine.
   */
  datatype World = World(parse: string -> Option<Url>, fs: Path -> FileKind, unorderedPick: seq<Value> -> seq<Value>)

  /** The cache's state: the store, its write buffer and the schema (the class's own, which `InstanceValid` shows sound). */
  type Store = WriteBuffer.State

  /** `resHeaders[name]`: the header's text, `undefined` when absent. */
  function Header(res: Response, name: string): Value {
    if name in res.headers then Str(res.headers[name]) else Undef
  }

  /** A header map as the object `res.headers()` and `req.headers()` return. */
  function HeaderObj(h: map<string, string>): Value {
    Obj(map k | k in h :: Str(h[k]))
  }

  /** The file name of a url without a query: its pathname, or `/host` for an empty or root pathname. */
  function BaseName(u: Url): string {
    if u.pathname == "" || u.pathname == "/" then "/" + u.host else u.pathname
  }

  function BasePath(dir: string, u: Url): Path {
    [dir, u.host, BaseName(u)]
  }

  /** The file of a url with a query once a base file exists: its pathname, `_`, and its fingerprint. */
  function QueryPath(dir: string, u: Url, urlFp: string): Path {
    [dir, u.host, u.pathname + "_" + urlFp]
  }

  /** `deleteCacheFileByCacheData` for one record: the query path of its url and `url_hash`. */
  function RecordPath(dir: string, item: Value, w: World): Option<Path> {
    match w.parse(JsString(Get(item, "url")))
    case None => None
    case Some(u) => Some(QueryPath(dir, u, JsString(Get(item, "url_hash"))))
  }

  /** `f` applied to each item in order, stopping at the first `None`: `Err` carries the results before it. */
  function MapUntilNone<T, U>(f: T -> Option<U>, xs: seq<T>): (r: Result<seq<U>, seq<U>>)
    ensures r.Ok? <==> forall i :: 0 <= i < |xs| ==> f(xs[i]).Some?
    ensures |Issued(r)| <= |xs| && forall i :: 0 <= i < |Issued(r)| ==> f(xs[i]) == Some(Issued(r)[i])
    ensures r.Ok? ==> |r.value| == |xs|
    ensures r.Err? ==> |r.error| < |xs| && f(xs[|r.error|]).None?
  {
    if xs == [] then Ok([])
    else
      assert forall i :: 1 <= i < |xs| ==> xs[i] == xs[1..][i - 1];
      match f(xs[0])
      case None => Err([])
      case Some(y) =>
        match MapUntilNone(f, xs[1..])
        case Ok(ys) => Ok([y] + ys)
        case Err(ys) => Err([y] + ys)
  }

  /**
   * The files `deleteCacheFileByCacheData(items)` removes, in order. `new URL`
   * throws at the first url that does not parse, after the removals of the
   * items before it were issued: `Err` carries those.
   */
  function FilesOf(dir: string, items: seq<Value>, w: World): (r: Result<seq<Path>, seq<Path>>)
    ensures r.Ok? <==> AllParse(dir, items, w)
    ensures |Issued(r)| <= |items| && forall i :: 0 <= i < |Issued(r)| ==> RecordPath(dir, items[i], w) == Some(Issued(r)[i])
    ensures r.Ok? ==> |r.value| == |items|
    ensures r.Err? ==> |r.error| < |items| && RecordPath(dir, items[|r.error|], w).None?
  {
    MapUntilNone(x => RecordPath(dir, x, w), items)
  }

  /** Every item's url parses, so the removal loop runs to its end. */
  predicate AllParse(dir: string, items: seq<Value>, w: World) {
    forall i :: 0 <= i < |items| ==> RecordPath(dir, items[i], w).Some?
  }

  /** The removals issued, whether the loop finished or threw. */
  function Issued<U>(r: Result<seq<U>, seq<U>>): seq<U> {
    if r.Ok? then r.value else r.error
  }

  /** The records whose `column` is exactly `v`, in order. */
  function WithField(s: seq<Value>, column: string, v: Value): (r: seq<Value>)
    ensures |r| <= |s|
    ensures forall x :: x in r <==> x in s && Get(x, column) == v
    ensures r == [] <==> forall i :: 0 <= i < |s| ==> Get(s[i], column) != v
  {
    if s == [] then []
    else
      var rest := WithField(s[1..], column, v);
      assert forall x :: x in s <==> x == s[0] || x in s[1..];
      if Get(s[0], column) == v then [s[0]] + rest else rest
  }

  /** `tmpCache.filter(item => !tmpObj[item.url_hash])`: the records whose key is not among `keys`. */
  function WithoutKeys(s: seq<Value>, keys: set<string>): (r: seq<Value>)
    ensures |r| <= |s|
    ensures forall x :: x in r <==> x in s && JsString(Get(x, "url_hash")) !in keys
  {
    if s == [] then []
    else
      var rest := WithoutKeys(s[1..], keys);
      assert forall x :: x in s <==> x == s[0] || x in s[1..];
      if JsString(Get(s[0], "url_hash")) !in keys then [s[0]] + rest else rest
  }

  function AsValues(rows: seq<Row>): (r: seq<Value>)
    ensures |r| == |rows| && forall i :: 0 <= i < |rows| ==> r[i] == Obj(rows[i])
  {
    seq(|rows|, i requires 0 <= i < |rows| => Obj(rows[i]))
  }

  /** The members of `s` that occur in `pool`, in order. */
  function Among(s: seq<Value>, pool: seq<Value>): (r: seq<Value>)
    ensures |r| <= |s|
    ensures forall x :: x in r <==> x in s && x in pool
  {
    if s == [] then []
    else
      var rest := Among(s[1..], pool);
      assert forall x :: x in s <==> x == s[0] || x in s[1..];
      if s[0] in pool then [s[0]] + rest else rest
  }

  /**
   * The records `trimResult(items, 10)` picks: the default rule when all are
   * stamped. Otherwise the engine's sort order decides which records are
   * picked, but they are still records of `items`, as the rule only ever
   * files input records.
   */
  function Picked(items: seq<Value>, w: World): (r: seq<Value>)
    requires |items| > 20
    ensures forall x :: x in r ==> x in items
  {
    if Trim.AllStamped(items) then Trim.Pick(Arr(items), Some(10), None).value
    else Among(w.unorderedPick(items), items)
  }

  /** The state a capture has reached, and the files it has removed so far. */
  datatype Progress = Progress(st: Store, removed: seq<Path>)

  /**
   * The step `trimCacheData` and the same-content branch of `save` share:
   * exactly the stored rows under the records' url keys are deleted, then
   * the records' files are removed, up to the first url that does not parse.
   */
  function DeleteRecords(p: Progress, recs: seq<Value>, dir: string, w: World, fp: string -> string): (r: Result<Progress, Progress>)
    ensures r.Ok? ==> r.value.st.buffer == p.st.buffer
    ensures r.Ok? ==> forall row :: row in r.value.st.table ==> row in p.st.table
    ensures var q := if r.Ok? then r.value else r.error;
            q.st.sch == p.st.sch && q.st.buffer == p.st.buffer
            && DeletedExactly(p.st.table, q.st.table, Trim.UrlsOf(recs), fp)
            && q.removed == p.removed + Issued(FilesOf(dir, recs, w))
    ensures r.Ok? <==> AllParse(dir, recs, w)
  {
    var urls := Trim.UrlsOf(recs);
    assert UrlList(Arr(urls)) == urls;
    var t := DeleteByUrls(p.st.table, Arr(urls), fp).0;
    var files := FilesOf(dir, recs, w);
    var p' := Progress(p.st.(table := t), p.removed + Issued(files));
    if files.Ok? then Ok(p') else Err(p')
  }

  /** `trimCacheData(items)`: the picked records are deleted from the store and their files removed. */
  function TrimCacheData(p: Progress, items: seq<Value>, dir: string, w: World, fp: string -> string): (r: Result<Progress, Progress>)
    requires |items| > 20
    ensures r.Ok? ==> r.value.st.buffer == p.st.buffer && forall row :: row in r.value.st.table ==> row in p.st.table
    ensures var q := if r.Ok? then r.value else r.error;
            q.st.sch == p.st.sch && q.st.buffer == p.st.buffer
            && DeletedExactly(p.st.table, q.st.table, Trim.UrlsOf(Picked(items, w)), fp)
            && q.removed == p.removed + Issued(FilesOf(dir, Picked(items, w), w))
    ensures r.Ok? <==> AllParse(dir, Picked(items, w), w)
  {
    DeleteRecords(p, Picked(items, w), dir, w, fp)
  }

  /** Store rows at the path with the new content: exactly the rows under their urls' keys are deleted, then their files removed. */
  function DropSameRows(p: Progress, same: seq<Value>, dir: string, w: World, fp: string -> string): (r: Result<Progress, Progress>)
    ensures r.Ok? ==> r.value.st.buffer == p.st.buffer
    ensures r.Ok? ==> forall row, i :: row in r.value.st.table && 0 <= i < |same| ==> Lookup(row, "url_hash") != UrlKey(Get(same[i], "url"), fp)
    ensures r.Ok? ==> forall row :: row in r.value.st.table ==> row in p.st.table
    ensures var q := if r.Ok? then r.value else r.error;
            q.st.sch == p.st.sch && q.st.buffer == p.st.buffer
            && DeletedExactly(p.st.table, q.st.table, Trim.UrlsOf(same), fp)
            && q.removed == p.removed + Issued(FilesOf(dir, same, w))
    ensures r.Ok? <==> AllParse(dir, same, w)
  {
    if same == [] then
      assert Trim.UrlsOf(same) == [] && FilesOf(dir, same, w) == Ok([]);
      Ok(p)
    else
      DeleteRecords(p, same, dir, w, fp)
  }

  /** Buffered records at the path with the new content: every buffered record under one of their keys leaves the buffer. */
  function DropSameBuffered(p: Progress, same: seq<Value>, dir: string, w: World): (r: Result<Progress, Progress>)
    ensures r.Ok? ==> r.value.st.table == p.st.table
    ensures r.Ok? ==> forall x :: x in r.value.st.buffer ==> x in p.st.buffer && (forall y :: y in same ==> JsString(Get(x, "url_hash")) != JsString(Get(y, "url_hash")))
    ensures r.Ok? ==> forall x :: x in p.st.buffer && (forall y :: y in same ==> JsString(Get(x, "url_hash")) != JsString(Get(y, "url_hash"))) ==> x in r.value.st.buffer
    ensures var q := if r.Ok? then r.value else r.error;
            q.st.sch == p.st.sch && q.st.table == p.st.table
            && (forall x :: x in q.st.buffer <==> x in p.st.buffer && forall y :: y in same ==> JsString(Get(x, "url_hash")) != JsString(Get(y, "url_hash")))
            && q.removed == p.removed + Issued(FilesOf(dir, same, w))
    ensures r.Ok? <==> AllParse(dir, same, w)
  {
    if same == [] then
      assert FilesOf(dir, same, w) == Ok([]);
      Ok(p)
    else
      var keys := set y | y in same :: JsString(Get(y, "url_hash"));
      var files := FilesOf(dir, same, w);
      var p' := Progress(p.st.(buffer := WithoutKeys(p.st.buffer, keys)), p.removed + Issued(files));
      if files.Ok? then Ok(p') else Err(p')
  }

  /** Reading `item.path_hash` off a buffered `null` or `undefined` throws. */
  predicate BufferReadable(st: Store) {
    forall i :: 0 <= i < |st.buffer| ==> Readable(st.buffer[i])
  }

  /** The store rows at a path: `select(pathFp, 'path_hash')`, at most 1000. */
  function RowsAtPath(st: Store, pathFp: string): seq<Value> {
    AsValues(Select(st.table, Str(pathFp), "path_hash", None, None, false))
  }

  /** The records sharing the path: `cacheData` followed by the buffered records at the path. */
  function TrimData(st: Store, pathFp: string): seq<Value> {
    RowsAtPath(st, pathFp) + WithField(st.buffer, "path_hash", Str(pathFp))
  }

  /** The stored rows at the path with the new content. */
  function SameRows(st: Store, pathFp: string, bodyFp: string): seq<Value> {
    WithField(RowsAtPath(st, pathFp), "response_data_hash", Str(bodyFp))
  }

  /** The buffered records at the path with the new content. */
  function SameBuffered(st: Store, pathFp: string, bodyFp: string): seq<Value> {
    WithField(WithField(st.buffer, "response_data_hash", Str(bodyFp)), "path_hash", Str(pathFp))
  }

  /** The urls the trim step deletes: those of the picked records, when more than 20 records share the path. */
  function TrimUrls(st: Store, pathFp: string, w: World): seq<Value> {
    if |TrimData(st, pathFp)| > 20 then Trim.UrlsOf(Picked(TrimData(st, pathFp), w)) else []
  }

  /** The trim step: only when more than 20 records share the path. */
  function Trimmed(st: Store, pathFp: string, dir: string, w: World, fp: string -> string): (r: Result<Progress, Progress>)
    ensures |TrimData(st, pathFp)| <= 20 ==> r == Ok(Progress(st, []))
    ensures r.Ok? ==> r.value.st.buffer == st.buffer && forall row :: row in r.value.st.table ==> row in st.table
    ensures var q := if r.Ok? then r.value else r.error;
            q.st.sch == st.sch && q.st.buffer == st.buffer
            && DeletedExactly(st.table, q.st.table, TrimUrls(st, pathFp, w), fp)
    ensures |TrimData(st, pathFp)| > 20 ==>
              (if r.Ok? then r.value else r.error).removed == Issued(FilesOf(dir, Picked(TrimData(st, pathFp), w), w))
  {
    if |TrimData(st, pathFp)| > 20 then TrimCacheData(Progress(st, []), TrimData(st, pathFp), dir, w, fp)
    else Ok(Progress(st, []))
  }

  /**
   * The dedup branch of `save` (a query url whose base file exists as a
   * file): trim when more than 20 records share the path, then drop the
   * store rows and the buffered records at the path with the same content.
   * `Err` carries the state reached when something threw.
   */
  function Dedup(st: Store, pathFp: string, bodyFp: string, dir: string, w: World, fp: string -> string): (r: Result<Progress, Progress>)
    ensures (if r.Ok? then r.value else r.error).st.sch == st.sch
  {
    if !BufferReadable(st) then Err(Progress(st, []))
    else
      match Trimmed(st, pathFp, dir, w, fp)
      case Err(e) => Err(e)
      case Ok(q1) =>
        match DropSameRows(q1, SameRows(st, pathFp, bodyFp), dir, w, fp)
        case Err(e) => Err(e)
        case Ok(q2) => DropSameBuffered(q2, SameBuffered(st, pathFp, bodyFp), dir, w)
  }

  /**
   * The record `save` hands to `delayInsert`: keyed by the url's fingerprint,
   * with the path's and the body's, the url's length, and only columns of
   * the table. Every value is text, a number, `undefined` in a column that
   * may be NULL, or an object the class turns into JSON text, so the record
   * binds under a schema that sanitises.
   */
  function RecordOf(res: Response, u: Url, body: string, fp: string -> string): (r: Value)
    ensures r.Obj? && "url" in r.fields && "url_hash" in r.fields
    ensures r.fields["url"] == Str(res.url) && r.fields["url_hash"] == Str(fp(res.url))
    ensures Lookup(r.fields, "path_hash") == Str(fp(u.origin + u.pathname)) && Lookup(r.fields, "response_data_hash") == Str(fp(body))
  {
    Obj(Described(res, u) + KeyFields(res, u, body, fp))
  }

  /** The fingerprints that key the record, and the url they are taken from. */
  function KeyFields(res: Response, u: Url, body: string, fp: string -> string): (r: map<string, Value>)
    ensures Solid(r)
    ensures "url" in r && r["url"] == Str(res.url) && "url_hash" in r && r["url_hash"] == Str(fp(res.url))
    ensures Lookup(r, "path_hash") == Str(fp(u.origin + u.pathname)) && Lookup(r, "response_data_hash") == Str(fp(body))
  {
    map[
      "url" := Str(res.url),
      "url_hash" := Str(fp(res.url)),
      "path_hash" := Str(fp(u.origin + u.pathname)),
      "response_data_hash" := Str(fp(body))
    ]
  }

  /** The record carries the url's length and the host it was fetched from. */
  lemma RecordOfDescribes(res: Response, u: Url, body: string, fp: string -> string)
    ensures var r := RecordOf(res, u, body, fp);
            Lookup(r.fields, "url_length") == Num(|res.url|) && Lookup(r.fields, "host") == Str(u.host)
  {
    assert "url_length" !in HeaderColumns && "host" !in HeaderColumns;
    var f := Fixed(res, u);
    assert f["url_length"] == Num(|res.url|) && f["host"] == Str(u.host);
    var d := Described(res, u);
    assert d["url_length"] == Num(|res.url|) && d["host"] == Str(u.host);
    var k := KeyFields(res, u, body, fp);
    assert "url_length" !in k && "host" !in k;
  }

  /** Every value is text, a number or an object: none of them binds as NULL. */
  predicate Solid(m: map<string, Value>) {
    forall c :: c in m ==> m[c].Str? || m[c].Num? || m[c].Obj?
  }

  /**
   * The record names only columns of the table, and under a schema that
   * turns objects into JSON text every value it carries binds.
   */
  lemma RecordOfBinds(res: Response, u: Url, body: string, fp: string -> string, sch: Schema)
    requires sch.sanitises
    ensures UpsertLaws.Binding(sch, RecordOf(res, u, body, fp))
  {
    var r := RecordOf(res, u, body, fp);
    var h := FromHeaders(res);
    HeaderColumnsNullable();
    forall c | c in r.fields
      ensures UpsertLaws.Fits(sch, c, r.fields[c])
    {
      var k := KeyFields(res, u, body, fp);
      var f := Fixed(res, u);
      var ip := IpField(res);
      assert r.fields == f + ip + h + k;
      if c in k {
        assert r.fields[c] == k[c];
      } else if c in h {
        assert r.fields[c] == h[c];
      } else if c in ip {
        assert r.fields[c] == ip[c] && c == "server_ip_address";
      } else {
        assert r.fields[c] == f[c];
      }
    }
  }

  /** The columns filled straight from a response header, each with the header it reads. */
  const HeaderColumns: map<string, string> := map[
    "content_type" := "content-type",
    "server_time" := "date",
    "server_name" := "server",
    "content_encoding" := "content-encoding",
    "cache_control" := "cache-control",
    "etag" := "etag",
    "response_data_length" := "content-length"
  ]

  /** The record's fields that describe the response rather than key it. */
  function Described(res: Response, u: Url): map<string, Value> {
    Fixed(res, u) + IpField(res) + FromHeaders(res)
  }

  /** The fields every record carries whatever headers the response has. */
  function Fixed(res: Response, u: Url): (r: map<string, Value>)
    ensures Solid(r)
  {
    map[
      "host" := Str(u.host),
      "path" := Str(u.origin + u.pathname),
      "request_header" := HeaderObj(res.requestHeaders),
      "response_header" := HeaderObj(res.headers),
      "cache_name" := Str(""),
      "url_length" := Num(|res.url|),
      "info" := Obj(map["method" := res.httpMethod, "postData" := res.postData, "resourceType" := res.resourceType])
    ]
  }

  /** The server's address, `undefined` when the response does not report one. */
  function IpField(res: Response): map<string, Value> {
    map["server_ip_address" := if res.ip.Some? then Str(res.ip.value) else Undef]
  }

  /** The header columns, each holding its header's text or `undefined` when the header is absent. */
  function FromHeaders(res: Response): (r: map<string, Value>)
    ensures r.Keys == HeaderColumns.Keys
    ensures forall c :: c in r ==> r[c].Str? || r[c] == Undef
  {
    map c | c in HeaderColumns :: Header(res, HeaderColumns[c])
  }

  /** No header column, nor the server address, is declared NOT NULL, so an absent value binds as NULL. */
  lemma HeaderColumnsNullable()
    ensures forall c :: c in HeaderColumns ==> c !in SqlFragment.NotNull
    ensures "server_ip_address" !in SqlFragment.NotNull
  {
  }

  datatype Outcome =
    | Skipped                                               // resolved `false`: filtered out
    | Saved(file: Path, removed: seq<Path>, record: Value)  // the file written and the record buffered
    | Failed(removed: seq<Path>)                            // rejected part-way
    | FlushThrew(file: Path, removed: seq<Path>, record: Value, error: InsertError)
                                                            // rejected: `delayInsert` flushed and `insert` threw
  {
    /** The promise `save` returns rejects. */
    predicate Rejected() {
      Failed? || FlushThrew?
    }
  }

  /** Whether the dedup branch applies: a query url and something at the base path. */
  predicate Dedups(u: Url, dir: string, w: World) {
    u.search != "" && w.fs(BasePath(dir, u)) != Missing
  }

  /**
   * The file `save` writes, under the cache directory and the host: the
   * base file, or for a query url whose base path exists, the query file
   * named by the url's fingerprint.
   */
  function TargetPath(u: Url, dir: string, w: World, urlFp: string): (r: Path)
    ensures |r| == 3 && r[0] == dir && r[1] == u.host
    ensures Dedups(u, dir, w) ==> r[2] == u.pathname + "_" + urlFp
    ensures !Dedups(u, dir, w) ==> r[2] == (if u.pathname in {"", "/"} then "/" + u.host else u.pathname)
  {
    if Dedups(u, dir, w) then QueryPath(dir, u, urlFp) else BasePath(dir, u)
  }

  /** Everything `save` does before writing: the dedup branch when the base path is a file. */
  function Prepare(st: Store, u: Url, body: string, dir: string, w: World, fp: string -> string): (r: Result<Progress, Progress>)
    ensures (if r.Ok? then r.value else r.error).st.sch == st.sch
  {
    if Dedups(u, dir, w) && w.fs(BasePath(dir, u)) == File then Dedup(st, fp(u.origin + u.pathname), fp(body), dir, w, fp)
    else Ok(Progress(st, []))
  }

  /**
   * Writing the file and handing the record to `delayInsert`. When that
   * call flushes the buffer and `insert` throws, the error propagates out of
   * `save`: the record stays buffered with the rest and nothing is stored.
   */
  function Commit(q: Progress, rec: Value, file: Path, env: Env): (r: (Store, Outcome))
    requires UpsertLaws.Sound(q.st.sch)
    ensures r.1.Saved? || r.1.FlushThrew?
    ensures r.1.file == file && r.1.removed == q.removed && r.1.record == rec
    ensures r.0.sch == q.st.sch
    ensures r.1.FlushThrew? <==> WriteBuffer.DelayInsert(q.st, rec, false, env).1.Threw?
    ensures r.1.FlushThrew? ==> r.0.table == q.st.table && r.0.buffer == q.st.buffer + ArgToArr(rec)
    ensures r.0 == WriteBuffer.DelayInsert(q.st, rec, false, env).0
  {
    var d := WriteBuffer.DelayInsert(q.st, rec, false, env);
    (d.0, if d.1.Threw? then FlushThrew(file, q.removed, rec, d.1.error) else Saved(file, q.removed, rec))
  }

  /** A store whose rows are keyed and whose buffered records bind takes a binding record without throwing. */
  lemma CommitSaves(q: Progress, rec: Value, file: Path, env: Env)
    requires UpsertLaws.Sound(q.st.sch) && StoreOk(q.st, env.fp) && UpsertLaws.Binding(q.st.sch, rec) && !rec.Arr?
    ensures Commit(q, rec, file, env).1 == Saved(file, q.removed, rec)
  {
    assert WriteBuffer.Flushable(q.st);
    assert WriteBuffer.AllBinding(q.st.sch, ArgToArr(rec));
    WriteBuffer.DelayInsertCommits(q.st, rec, false, env);
  }

  /** `save(res)`. */
  function Save(st: Store, res: Response, dir: string, w: World, env: Env): (r: (Store, Outcome))
    requires UpsertLaws.Sound(st.sch)
    ensures r.0.sch == st.sch
    ensures res.status != 200 || StartsWith(res.url, "data:") ==> r == (st, Skipped)
    ensures r.1.Saved? || r.1.FlushThrew? <==> (res.status == 200 && !StartsWith(res.url, "data:") && w.parse(res.url).Some?
                            && res.body.Some? && res.body.value != "" && Prepare(st, w.parse(res.url).value, res.body.value, dir, w, env.fp).Ok?)
    ensures res.status == 200 && !StartsWith(res.url, "data:") && w.parse(res.url).Some? && res.body.Some? && res.body.value != ""
            && Prepare(st, w.parse(res.url).value, res.body.value, dir, w, env.fp).Err?
            ==> var q := Prepare(st, w.parse(res.url).value, res.body.value, dir, w, env.fp).error;
                r == (q.st, Failed(q.removed))
  {
    if res.status != 200 || StartsWith(res.url, "data:") then (st, Skipped)
    else
      match w.parse(res.url)
      case None => (st, Failed([]))
      case Some(u) =>
        if res.body.None? || res.body.value == "" then (st, Skipped)
        else
          match Prepare(st, u, res.body.value, dir, w, env.fp)
          case Err(q) => (q.st, Failed(q.removed))
          case Ok(q) => Commit(q, RecordOf(res, u, res.body.value, env.fp), TargetPath(u, dir, w, env.fp(res.url)), env)
  }

  /**
   * Every stored row is keyed by its url and holds stored values, every
   * buffered record is well formed and binds, and the schema turns objects
   * into JSON text, as the class's does.
   */
  predicate StoreOk(st: Store, fp: string -> string) {
    WriteBuffer.KeyedStore(st, fp) && st.sch.sanitises
  }

  /**
   * The file `save` writes for a query url (see `SavedIsCommit`) is exactly
   * the file `deleteCacheFileByCacheData` removes for the record it buffers.
   */
  lemma SavedFileIsDeletable(res: Response, u: Url, body: string, dir: string, w: World, fp: string -> string)
    requires w.parse(res.url) == Some(u) && Dedups(u, dir, w)
    ensures RecordPath(dir, RecordOf(res, u, body, fp), w) == Some(TargetPath(u, dir, w, fp(res.url)))
  {
    var rec := RecordOf(res, u, body, fp);
    assert Get(rec, "url") == Str(res.url) && Get(rec, "url_hash") == Str(fp(res.url));
  }

  /** Every step of the dedup branch only removes stored rows and buffered records. */
  lemma DedupOnlyRemoves(st: Store, pathFp: string, bodyFp: string, dir: string, w: World, fp: string -> string)
    requires Dedup(st, pathFp, bodyFp, dir, w, fp).Ok?
    ensures var q := Dedup(st, pathFp, bodyFp, dir, w, fp).value;
            (forall row :: row in q.st.table ==> row in st.table)
            && (forall x :: x in q.st.buffer ==> x in st.buffer)
            && (forall row, j :: row in q.st.table && 0 <= j < |SameRows(st, pathFp, bodyFp)| ==>
                  Lookup(row, "url_hash") != UrlKey(Get(SameRows(st, pathFp, bodyFp)[j], "url"), fp))
            && (forall x, y :: x in q.st.buffer && y in SameBuffered(st, pathFp, bodyFp) ==>
                  JsString(Get(x, "url_hash")) != JsString(Get(y, "url_hash")))
            && (forall row :: row in q.st.table ==> Unlisted(row, TrimUrls(st, pathFp, w), fp))
    ensures var q := Dedup(st, pathFp, bodyFp, dir, w, fp).value;
            forall i :: 0 <= i < |st.table| && Unlisted(st.table[i], TrimUrls(st, pathFp, w), fp) && Unlisted(st.table[i], Trim.UrlsOf(SameRows(st, pathFp, bodyFp)), fp) ==>
                          st.table[i] in q.st.table
    ensures var q := Dedup(st, pathFp, bodyFp, dir, w, fp).value;
            forall x :: x in st.buffer && (forall y :: y in SameBuffered(st, pathFp, bodyFp) ==> JsString(Get(x, "url_hash")) != JsString(Get(y, "url_hash"))) ==>
                          x in q.st.buffer
  {
    var q1 := Trimmed(st, pathFp, dir, w, fp).value;
    var same := SameRows(st, pathFp, bodyFp);
    var q2 := DropSameRows(q1, same, dir, w, fp).value;
    var q := Dedup(st, pathFp, bodyFp, dir, w, fp).value;
    assert Dedup(st, pathFp, bodyFp, dir, w, fp) == DropSameBuffered(q2, SameBuffered(st, pathFp, bodyFp), dir, w);
    KeptThroughBoth(st.table, q1.st.table, q2.st.table, TrimUrls(st, pathFp, w), Trim.UrlsOf(same), fp);
  }

  /** Two exact deletions in a row keep every row neither of them lists. */
  lemma KeptThroughBoth(t0: Table, t1: Table, t2: Table, us: seq<Value>, vs: seq<Value>, fp: string -> string)
    requires DeletedExactly(t0, t1, us, fp) && DeletedExactly(t1, t2, vs, fp)
    ensures forall row :: row in t2 ==> row in t0 && Unlisted(row, us, fp)
    ensures forall i :: 0 <= i < |t0| && Unlisted(t0[i], us, fp) && Unlisted(t0[i], vs, fp) ==> t0[i] in t2
  {
    forall i | 0 <= i < |t0| && Unlisted(t0[i], us, fp) && Unlisted(t0[i], vs, fp)
      ensures t0[i] in t2
    {
      var k :| 0 <= k < |t1| && t1[k] == t0[i];
    }
  }

  /**
   * A keyed row at the path whose key differs from the keys of every
   * same-content row at the path does not have that content (while the path
   * holds at most the 1000 rows the select returns).
   */
  lemma OutsideSameRows(st: Store, pathFp: string, bodyFp: string, fp: string -> string, row: Row)
    requires pathFp != "" && row in st.table && Lookup(row, "path_hash") == Str(pathFp)
    requires |Matching(st.table, "path_hash", Str(pathFp))| <= 1000
    requires Lookup(row, "url_hash") == UrlKey(Lookup(row, "url"), fp)
    requires forall j :: 0 <= j < |SameRows(st, pathFp, bodyFp)| ==> Lookup(row, "url_hash") != UrlKey(Get(SameRows(st, pathFp, bodyFp)[j], "url"), fp)
    ensures Lookup(row, "response_data_hash") != Str(bodyFp)
  {
    var same := SameRows(st, pathFp, bodyFp);
    AtPathIsSelected(st, pathFp, row);
    forall j | 0 <= j < |same|
      ensures same[j] != Obj(row)
    {
      assert Get(same[j], "url") != Get(Obj(row), "url");
    }
    assert Obj(row) !in same;
  }

  /**
   * After the dedup branch no stored row at the path has the new content
   * (while the path holds at most the 1000 rows the select returns).
   */
  lemma DedupLeavesNoDuplicateRow(st: Store, pathFp: string, bodyFp: string, dir: string, w: World, fp: string -> string, row: Row)
    requires UpsertLaws.Keyed(st.table, fp) && pathFp != ""
    requires |Matching(st.table, "path_hash", Str(pathFp))| <= 1000
    requires Dedup(st, pathFp, bodyFp, dir, w, fp).Ok?
    requires row in Dedup(st, pathFp, bodyFp, dir, w, fp).value.st.table && Lookup(row, "path_hash") == Str(pathFp)
    ensures Lookup(row, "response_data_hash") != Str(bodyFp)
  {
    DedupOnlyRemoves(st, pathFp, bodyFp, dir, w, fp);
    var i :| 0 <= i < |st.table| && st.table[i] == row;
    OutsideSameRows(st, pathFp, bodyFp, fp, row);
  }

  /** After the dedup branch no buffered record at the path has the new content. */
  lemma DedupLeavesNoDuplicateBuffered(st: Store, pathFp: string, bodyFp: string, dir: string, w: World, fp: string -> string)
    requires Dedup(st, pathFp, bodyFp, dir, w, fp).Ok?
    ensures forall x :: x in Dedup(st, pathFp, bodyFp, dir, w, fp).value.st.buffer && Get(x, "path_hash") == Str(pathFp) ==>
              Get(x, "response_data_hash") != Str(bodyFp)
  {
    DedupOnlyRemoves(st, pathFp, bodyFp, dir, w, fp);
    var q := Dedup(st, pathFp, bodyFp, dir, w, fp).value;
    forall x | x in q.st.buffer && Get(x, "path_hash") == Str(pathFp)
      ensures Get(x, "response_data_hash") != Str(bodyFp)
    {
      assert x !in SameBuffered(st, pathFp, bodyFp);
    }
  }

  /** Every stored row at the path is among `cacheData` while the path holds at most 1000 rows. */
  lemma AtPathIsSelected(st: Store, pathFp: string, row: Row)
    requires pathFp != "" && row in st.table && Lookup(row, "path_hash") == Str(pathFp)
    requires |Matching(st.table, "path_hash", Str(pathFp))| <= 1000
    ensures Obj(row) in RowsAtPath(st, pathFp)
  {
    var m := Matching(st.table, "path_hash", Str(pathFp));
    var i :| 0 <= i < |st.table| && st.table[i] == row;
    assert row in m;
    var k :| 0 <= k < |m| && m[k] == row;
    assert RowsAtPath(st, pathFp)[k] == Obj(row);
  }

  /** A response whose content is new at a path holding at most 20 records leaves the store as it was. */
  lemma DedupFreshContentKeepsStore(st: Store, pathFp: string, bodyFp: string, dir: string, w: World, fp: string -> string)
    requires BufferReadable(st)
    requires |TrimData(st, pathFp)| <= 20
    requires forall row :: row in st.table && Lookup(row, "path_hash") == Str(pathFp) ==> Lookup(row, "response_data_hash") != Str(bodyFp)
    requires forall x :: x in st.buffer && Get(x, "path_hash") == Str(pathFp) ==> Get(x, "response_data_hash") != Str(bodyFp)
    ensures Dedup(st, pathFp, bodyFp, dir, w, fp) == Ok(Progress(st, []))
  {
    var sel := Select(st.table, Str(pathFp), "path_hash", None, None, false);
    var rows := RowsAtPath(st, pathFp);
    forall k | 0 <= k < |rows|
      ensures Get(rows[k], "response_data_hash") != Str(bodyFp)
    {
      assert sel[k] in sel;
    }
    assert SameRows(st, pathFp, bodyFp) == [];
    var inner := WithField(st.buffer, "response_data_hash", Str(bodyFp));
    forall i | 0 <= i < |inner|
      ensures Get(inner[i], "path_hash") != Str(pathFp)
    {
      assert inner[i] in inner;
    }
    assert SameBuffered(st, pathFp, bodyFp) == [];
  }

  /** Deleting by url keeps the store keyed. */
  lemma DeleteKeepsStoreOk(st: Store, urls: seq<Value>, fp: string -> string)
    requires StoreOk(st, fp)
    ensures StoreOk(st.(table := DeleteByUrls(st.table, Arr(urls), fp).0), fp)
  {
    assert UrlList(Arr(urls)) == urls;
    UpsertLaws.DeleteEachKeepsKeyed(st.table, urls, fp);
  }

  /** The trim step, whether it completes or throws, keeps the store keyed. */
  lemma TrimmedKeepsStoreOk(st: Store, pathFp: string, dir: string, w: World, fp: string -> string)
    requires StoreOk(st, fp)
    ensures var r := Trimmed(st, pathFp, dir, w, fp);
            StoreOk((if r.Ok? then r.value else r.error).st, fp)
  {
    if |TrimData(st, pathFp)| > 20 {
      DeleteKeepsStoreOk(st, Trim.UrlsOf(Picked(TrimData(st, pathFp), w)), fp);
    }
  }

  /** Dropping the same-content rows, whether it completes or throws, keeps the store keyed. */
  lemma DropSameRowsKeepsStoreOk(p: Progress, same: seq<Value>, dir: string, w: World, fp: string -> string)
    requires StoreOk(p.st, fp)
    ensures var r := DropSameRows(p, same, dir, w, fp);
            StoreOk((if r.Ok? then r.value else r.error).st, fp)
  {
    if same != [] {
      DeleteKeepsStoreOk(p.st, Trim.UrlsOf(same), fp);
    }
  }

  /** The dedup branch, whether it completes or throws, keeps the store keyed and the buffer well formed. */
  lemma DedupKeepsStoreOk(st: Store, pathFp: string, bodyFp: string, dir: string, w: World, fp: string -> string)
    requires StoreOk(st, fp)
    ensures var r := Dedup(st, pathFp, bodyFp, dir, w, fp);
            StoreOk((if r.Ok? then r.value else r.error).st, fp)
  {
    if BufferReadable(st) {
      var r1 := Trimmed(st, pathFp, dir, w, fp);
      TrimmedKeepsStoreOk(st, pathFp, dir, w, fp);
      if r1.Ok? {
        var r2 := DropSameRows(r1.value, SameRows(st, pathFp, bodyFp), dir, w, fp);
        DropSameRowsKeepsStoreOk(r1.value, SameRows(st, pathFp, bodyFp), dir, w, fp);
        if r2.Ok? {
          var r3 := DropSameBuffered(r2.value, SameBuffered(st, pathFp, bodyFp), dir, w);
          DropSameBufferedKeepsStoreOk(r2.value, SameBuffered(st, pathFp, bodyFp), dir, w, fp);
          assert Dedup(st, pathFp, bodyFp, dir, w, fp) == r3;
        } else {
          assert Dedup(st, pathFp, bodyFp, dir, w, fp) == Err(r2.error);
        }
      } else {
        assert Dedup(st, pathFp, bodyFp, dir, w, fp) == Err(r1.error);
      }
    }
  }

  /** Dropping buffered records, whether it completes or throws, keeps the buffer well formed. */
  lemma DropSameBufferedKeepsStoreOk(p: Progress, same: seq<Value>, dir: string, w: World, fp: string -> string)
    requires StoreOk(p.st, fp)
    ensures var r := DropSameBuffered(p, same, dir, w);
            StoreOk((if r.Ok? then r.value else r.error).st, fp)
  {
    if same != [] {
      var keys := set y | y in same :: JsString(Get(y, "url_hash"));
      WriteBuffer.PendingSubset(p.st.sch, p.st.buffer, WithoutKeys(p.st.buffer, keys), fp);
    }
  }

  /** Handing a well-formed, binding record to `delayInsert` keeps the store keyed and the buffer well formed. */
  lemma CommitKeepsStoreOk(q: Progress, rec: Value, file: Path, env: Env)
    requires UpsertLaws.Sound(q.st.sch) && StoreOk(q.st, env.fp) && UpsertLaws.WellFormed(rec, env.fp) && UpsertLaws.Binding(q.st.sch, rec)
    ensures StoreOk(Commit(q, rec, file, env).0, env.fp)
  {
    WriteBuffer.DelayInsertKeepsKeyed(q.st, rec, false, env);
  }

  /** Once the buffer is written, a well-formed record handed to `delayInsert` is stored under its url's fingerprint. */
  lemma CommitStoresRecord(q: Progress, rec: Value, file: Path, env: Env)
    requires UpsertLaws.Sound(q.st.sch) && StoreOk(q.st, env.fp) && UpsertLaws.WellFormed(rec, env.fp) && UpsertLaws.Binding(q.st.sch, rec)
    ensures WriteBuffer.Flushable(Commit(q, rec, file, env).0)
            && UpsertLaws.HasKey(WriteBuffer.Eventual(Commit(q, rec, file, env).0, env), UrlKey(rec.fields["url"], env.fp))
  {
    WriteBuffer.DelayInsertStores(q.st, rec, false, env);
  }

  /**
   * `save` keeps the store keyed and the buffer well formed, and a saved
   * response is stored under its url's fingerprint once the buffer is written.
   */
  lemma SaveKeepsStoreOk(st: Store, res: Response, dir: string, w: World, env: Env)
    requires UpsertLaws.Sound(st.sch) && StoreOk(st, env.fp) && env.fp(res.url) != ""
    ensures StoreOk(Save(st, res, dir, w, env).0, env.fp)
    ensures Save(st, res, dir, w, env).1.Saved? ==> UpsertLaws.HasKey(WriteBuffer.Eventual(Save(st, res, dir, w, env).0, env), Str(env.fp(res.url)))
  {
    if res.status == 200 && !StartsWith(res.url, "data:") && w.parse(res.url).Some? && res.body.Some? && res.body.value != "" {
      var u := w.parse(res.url).value;
      var pre := Prepare(st, u, res.body.value, dir, w, env.fp);
      if Dedups(u, dir, w) && w.fs(BasePath(dir, u)) == File {
        DedupKeepsStoreOk(st, env.fp(u.origin + u.pathname), env.fp(res.body.value), dir, w, env.fp);
      }
      if pre.Ok? {
        SaveCommits(st, res, u, dir, w, env);
        SavedIsCommit(st, res, u, dir, w, env);
        PreparedStoresRecord(pre.value, res, u, dir, w, env);
      } else {
        assert Save(st, res, dir, w, env) == (pre.error.st, Failed(pre.error.removed));
      }
    }
  }

  /**
   * From a store whose rows are keyed and whose buffered records bind,
   * `save` never rejects on the flush: it saves exactly when it gets past
   * the status, the url, the body and the dedup branch.
   */
  lemma SaveSaves(st: Store, res: Response, dir: string, w: World, env: Env)
    requires UpsertLaws.Sound(st.sch) && StoreOk(st, env.fp)
    ensures !Save(st, res, dir, w, env).1.FlushThrew?
    ensures Save(st, res, dir, w, env).1.Saved? <==> (res.status == 200 && !StartsWith(res.url, "data:") && w.parse(res.url).Some?
                            && res.body.Some? && res.body.value != "" && Prepare(st, w.parse(res.url).value, res.body.value, dir, w, env.fp).Ok?)
  {
    if res.status == 200 && !StartsWith(res.url, "data:") && w.parse(res.url).Some? && res.body.Some? && res.body.value != "" {
      var u := w.parse(res.url).value;
      var pre := Prepare(st, u, res.body.value, dir, w, env.fp);
      if Dedups(u, dir, w) && w.fs(BasePath(dir, u)) == File {
        DedupKeepsStoreOk(st, env.fp(u.origin + u.pathname), env.fp(res.body.value), dir, w, env.fp);
      }
      if pre.Ok? {
        RecordOfBinds(res, u, res.body.value, env.fp, pre.value.st.sch);
        SavedIsCommit(st, res, u, dir, w, env);
        CommitSaves(pre.value, RecordOf(res, u, res.body.value, env.fp), TargetPath(u, dir, w, env.fp(res.url)), env);
      }
    }
  }

  /**
   * On the committing branch `save` writes the file at the target path,
   * reports the files it removed while preparing, and hands the response's
   * record to `delayInsert`.
   */
  lemma SavedIsCommit(st: Store, res: Response, u: Url, dir: string, w: World, env: Env)
    requires UpsertLaws.Sound(st.sch)
    requires res.status == 200 && !StartsWith(res.url, "data:") && w.parse(res.url) == Some(u)
    requires res.body.Some? && res.body.value != ""
    requires Prepare(st, u, res.body.value, dir, w, env.fp).Ok?
    ensures var q := Prepare(st, u, res.body.value, dir, w, env.fp).value;
            var rec := RecordOf(res, u, res.body.value, env.fp);
            var r := Save(st, res, dir, w, env);
            r == Commit(q, rec, TargetPath(u, dir, w, env.fp(res.url)), env)
            && r.1.file == TargetPath(u, dir, w, env.fp(res.url)) && r.1.removed == q.removed && r.1.record == rec
            && r.0 == WriteBuffer.DelayInsert(q.st, rec, false, env).0
  {
    var q := Prepare(st, u, res.body.value, dir, w, env.fp).value;
    assert Save(st, res, dir, w, env) == Commit(q, RecordOf(res, u, res.body.value, env.fp), TargetPath(u, dir, w, env.fp(res.url)), env);
  }

  /** The committing branch of `save`: the record is well formed and binds, so the commit keeps the store keyed. */
  lemma SaveCommits(st: Store, res: Response, u: Url, dir: string, w: World, env: Env)
    requires UpsertLaws.Sound(st.sch) && env.fp(res.url) != ""
    requires res.status == 200 && !StartsWith(res.url, "data:") && w.parse(res.url) == Some(u)
    requires res.body.Some? && res.body.value != ""
    requires Prepare(st, u, res.body.value, dir, w, env.fp).Ok?
    requires StoreOk(Prepare(st, u, res.body.value, dir, w, env.fp).value.st, env.fp)
    ensures StoreOk(Save(st, res, dir, w, env).0, env.fp)
  {
    var q := Prepare(st, u, res.body.value, dir, w, env.fp).value;
    var rec := RecordOf(res, u, res.body.value, env.fp);
    RecordOfBinds(res, u, res.body.value, env.fp, q.st.sch);
    SavedIsCommit(st, res, u, dir, w, env);
    CommitKeepsStoreOk(q, rec, TargetPath(u, dir, w, env.fp(res.url)), env);
  }

  /** The committing branch of `save` stores the record under its url's fingerprint once the buffer is written. */
  lemma PreparedStoresRecord(q: Progress, res: Response, u: Url, dir: string, w: World, env: Env)
    requires UpsertLaws.Sound(q.st.sch) && StoreOk(q.st, env.fp) && env.fp(res.url) != ""
    requires res.body.Some?
    ensures var committed := Commit(q, RecordOf(res, u, res.body.value, env.fp), TargetPath(u, dir, w, env.fp(res.url)), env).0;
            WriteBuffer.Flushable(committed) && UpsertLaws.HasKey(WriteBuffer.Eventual(committed, env), Str(env.fp(res.url)))
  {
    var rec := RecordOf(res, u, res.body.value, env.fp);
    RecordOfBinds(res, u, res.body.value, env.fp, q.st.sch);
    RecordKey(res, u, res.body.value, env.fp);
    CommitStoresRecord(q, rec, TargetPath(u, dir, w, env.fp(res.url)), env);
  }

  /** A record is stored under its url's fingerprint. */
  lemma RecordKey(res: Response, u: Url, body: string, fp: string -> string)
    requires fp(res.url) != ""
    ensures var rec := RecordOf(res, u, body, fp);
            UpsertLaws.WellFormed(rec, fp) && UrlKey(rec.fields["url"], fp) == Str(fp(res.url))
  {
  }

  /* ---------------------------------------------------------------- */
  /* The rule gate and the at-most-once guard of `saveWithCacheRules`. */

  /**
   * `cacheRules.match`: absent (or not a function), a function returning a
   * promise that resolves to a value or rejects (`None`), or a plain
   * function that returns a value that is not a promise (or throws, which
   * the gate handles the same way).
   */
  datatype MatchFn = NoMatchFn | Async(settles: Option<Value>) | Plain(result: Value)

  /** `cacheRules`: `resourceType` as configured (a value or an array), the url rules and the match function. */
  datatype CacheRules = CacheRules(resourceType: Value, url: RuleArg, matchFn: MatchFn)

  /** How the promise `saveingHandler` was given to settles. */
  datatype Verdict = Pass | Fail | Hang

  /** The resource-type rule: an empty list admits everything, else the type must be listed. */
  predicate TypeAdmitted(rules: CacheRules, resourceType: Value) {
    var types := ArgToArr(rules.resourceType);
    |types| == 0 || resourceType in types
  }

  /** The url rule: an empty list admits everything, else one rule must match. */
  predicate UrlAdmitted(rules: CacheRules, url: string, test: Tester) {
    var rs := ToList(rules.url);
    |rs| == 0 || AnyMatch(rs, url, test)
  }

  /**
   * The checks in `saveingHandler` as written. A plain match function's
   * result has no `.catch`, so calling it throws inside the async executor:
   * `resolve` is never called and the promise never settles. A rejecting
   * match promise ends the same way: its `.catch` callback assigns
   * `matchRuleResult` before the `let` declaring it is initialised, that
   * assignment throws a `ReferenceError`, and so does the `await`.
   */
  function Gate(rules: CacheRules, resourceType: Value, url: string, test: Tester): (v: Verdict)
    ensures v == Fail <==> !TypeAdmitted(rules, resourceType) || !UrlAdmitted(rules, url, test)
                           || (rules.matchFn.Async? && rules.matchFn.settles.Some? && rules.matchFn.settles != Some(Bool(true)))
    ensures v == Hang <==> TypeAdmitted(rules, resourceType) && UrlAdmitted(rules, url, test)
                           && (rules.matchFn.Plain? || rules.matchFn == Async(None))
  {
    var types := ArgToArr(rules.resourceType);
    if |types| != 0 && resourceType !in types then Fail
    else
      var rs := ToList(rules.url);
      if |rs| != 0 && !AnyMatch(rs, url, test) then Fail
      else
        match rules.matchFn
        case NoMatchFn => Pass
        case Async(settles) => if settles.None? then Hang else if settles == Some(Bool(true)) then Pass else Fail
        case Plain(_) => Hang
  }

  /**
   * The gate as evidently intended: an absent rule admits everything, a
   * plain match function's result is used as the async one's would be, and
   * a rejecting match function fails the gate.
   */
  function GateCorrected(rules: CacheRules, resourceType: Value, url: string, test: Tester): (v: Verdict)
    ensures v != Hang
    ensures v == Pass <==> (rules.resourceType == Undef || TypeAdmitted(rules, resourceType))
                           && (rules.url == Absent || UrlAdmitted(rules, url, test))
                           && match rules.matchFn
                              case NoMatchFn => true
                              case Async(settles) => settles == Some(Bool(true))
                              case Plain(v) => v == Bool(true)
  {
    var types := if rules.resourceType == Undef then [] else ArgToArr(rules.resourceType);
    var rs := if rules.url == Absent then [] else ToList(rules.url);
    if |types| != 0 && resourceType !in types then Fail
    else if |rs| != 0 && !AnyMatch(rs, url, test) then Fail
    else
      match rules.matchFn
      case NoMatchFn => Pass
      case Async(settles) => if settles == Some(Bool(true)) then Pass else Fail
      case Plain(v) => if v == Bool(true) then Pass else Fail
  }

  /**
   * The two agree whenever both rules are configured and the match function,
   * if any, returns a promise that resolves; where the match function
   * rejects, the corrected gate fails and the written one hangs.
   */
  lemma GateCorrectedAgrees(rules: CacheRules, resourceType: Value, url: string, test: Tester)
    requires rules.resourceType != Undef && rules.url != Absent && !rules.matchFn.Plain?
    ensures rules.matchFn != Async(None) ==> GateCorrected(rules, resourceType, url, test) == Gate(rules, resourceType, url, test)
    ensures rules.matchFn == Async(None) ==> GateCorrected(rules, resourceType, url, test) == Fail
                                             && (Gate(rules, resourceType, url, test) == Hang <==> TypeAdmitted(rules, resourceType) && UrlAdmitted(rules, url, test))
  {
  }

  /** As written, a cache rule that leaves out `resourceType` and `url` admits no response at all. */
  lemma AbsentRulesRejectAll(resourceType: Value, url: string, test: Tester)
    ensures Gate(CacheRules(Undef, Absent, NoMatchFn), resourceType, url, test) == Fail
    ensures GateCorrected(CacheRules(Undef, Absent, NoMatchFn), resourceType, url, test) == Pass
  {
    assert ArgToArr(Undef) == [Undef];
    assert !Matches(Other(Undef), url, test);
  }

  /** The flags `saveWithCacheRules` leaves on the response: `_saveing_` and `_saved_`. */
  datatype Saving = Idle | Settled | Stuck
  datatype Flags = Flags(saving: Saving, saved: bool)

  /** What one call's promise does: resolve to a boolean, or never settle. */
  datatype Reply = Returns(b: bool) | Waits

  const Fresh := Flags(Idle, false)

  /**
   * What `this.save(res)` does to the store: the store it leaves and how
   * it ended. The calls below take it as a parameter, since they only look
   * at whether it failed.
   */
  type Saver = Store -> (Store, Outcome)

  /**
   * `this.save(res)` for one response. The class's store always has the
   * class's schema; any other store is left as it is.
   */
  function SaveOf(res: Response, dir: string, w: World, env: Env): Saver {
    (st: Store) => if UpsertLaws.Sound(st.sch) then Save(st, res, dir, w, env) else (st, Failed([]))
  }

  /**
   * One call of `saveWithCacheRules(res, cacheRules)` on a response, given
   * the verdict its gate reaches, calls running one after another: wait for
   * the previous promise, return `true` once saved, else, when the gate
   * passes, `save`. `_saved_` is set whenever `save` resolves, whatever it
   * resolved to.
   */
  function SaveWithCacheRules(f: Flags, st: Store, v: Verdict, save: Saver): (r: (Flags, Store, Reply))
    ensures f.saving == Stuck ==> r == (f, st, Waits)
    ensures f.saving != Stuck && f.saved ==> r == (f, st, Returns(true))
    ensures r.1 != st ==> !f.saved && v == Pass
    ensures f.saving != Stuck && !f.saved && v == Pass ==> r.1 == save(st).0 && r.2 == Returns(!save(st).1.Rejected())
    ensures f.saved ==> r.0.saved
    ensures r.0.saved && !f.saved <==> f.saving != Stuck && !f.saved && v == Pass && !save(st).1.Rejected()
    ensures r.2 == Waits <==> f.saving == Stuck || (!f.saved && v == Hang)
    ensures r.0.saving == Stuck <==> f.saving == Stuck || (!f.saved && v == Hang)
  {
    if f.saving == Stuck then (f, st, Waits)
    else if f.saved then (f, st, Returns(true))
    else
      match v
      case Fail => (Flags(Settled, false), st, Returns(false))
      case Hang => (Flags(Stuck, false), st, Waits)
      case Pass =>
        var (st', o) := save(st);
        if o.Rejected() then (Flags(Settled, false), st', Returns(false))
        else (Flags(Settled, true), st', Returns(true))
  }

  /** A sequence of calls on one response, given their verdicts: the replies and how many calls saved. */
  function Session(f: Flags, st: Store, verdicts: seq<Verdict>, save: Saver): (r: (Flags, Store, nat, seq<Reply>))
    ensures |r.3| == |verdicts|
    decreases |verdicts|
  {
    if verdicts == [] then (f, st, 0, [])
    else
      var step := SaveWithCacheRules(f, st, verdicts[0], save);
      var rest := Session(step.0, step.1, verdicts[1..], save);
      (rest.0, rest.1, rest.2 + (if step.0.saved && !f.saved then 1 else 0), [step.2] + rest.3)
  }

  /**
   * Across any sequence of calls on one response, `save` resolves in at
   * most one of them, and in none once the response is marked saved.
   */
  lemma {:induction false} SavedAtMostOnce(f: Flags, st: Store, verdicts: seq<Verdict>, save: Saver)
    ensures var r := Session(f, st, verdicts, save);
            r.2 <= 1 && (f.saved ==> r.2 == 0 && r.0.saved)
    decreases |verdicts|
  {
    if verdicts != [] {
      var (f1, st1, _) := SaveWithCacheRules(f, st, verdicts[0], save);
      SavedAtMostOnce(f1, st1, verdicts[1..], save);
    }
  }

  /** Once a call's promise never settles, every later call on that response waits and nothing is stored. */
  lemma {:induction false} StuckStaysStuck(f: Flags, st: Store, verdicts: seq<Verdict>, save: Saver)
    requires f.saving == Stuck
    ensures var r := Session(f, st, verdicts, save);
            r.1 == st && r.2 == 0 && forall i :: 0 <= i < |r.3| ==> r.3[i] == Waits
    decreases |verdicts|
  {
    if verdicts != [] {
      StuckStaysStuck(f, st, verdicts[1..], save);
    }
  }

  /**
   * As written, a plain or a rejecting match function strands the response:
   * its call never returns and neither does any later one.
   */
  lemma MatchStrands(st: Store, rules: CacheRules, res: Response, test: Tester, later: seq<Verdict>, dir: string, w: World, env: Env)
    requires rules.matchFn.Plain? || rules.matchFn == Async(None)
    requires TypeAdmitted(rules, res.resourceType) && UrlAdmitted(rules, res.url, test)
    ensures var r := Session(Fresh, st, [Gate(rules, res.resourceType, res.url, test)] + later, SaveOf(res, dir, w, env));
            r.1 == st && r.2 == 0 && forall i :: 0 <= i < |r.3| ==> r.3[i] == Waits
  {
    var vs := [Gate(rules, res.resourceType, res.url, test)] + later;
    assert vs[1..] == later;
    StuckStaysStuck(Flags(Stuck, false), st, later, SaveOf(res, dir, w, env));
  }

  /** A session in which no gate hangs, starting from a response not stranded, never waits. */
  lemma {:induction false} NoHangNeverWaits(f: Flags, st: Store, vs: seq<Verdict>, save: Saver)
    requires f.saving != Stuck
    requires forall i :: 0 <= i < |vs| ==> vs[i] != Hang
    ensures var r := Session(f, st, vs, save);
            r.0.saving != Stuck && forall i :: 0 <= i < |r.3| ==> r.3[i] != Waits
    decreases |vs|
  {
    if vs != [] {
      var (f1, st1, reply) := SaveWithCacheRules(f, st, vs[0], save);
      NoHangNeverWaits(f1, st1, vs[1..], save);
      var r := Session(f1, st1, vs[1..], save);
      assert Session(f, st, vs, save).3 == [reply] + r.3;
    }
  }

  /** The corrected gate's verdict for each of the calls on one response. */
  function CorrectedVerdicts(calls: seq<CacheRules>, res: Response, test: Tester): (vs: seq<Verdict>)
    ensures |vs| == |calls|
    ensures forall i :: 0 <= i < |calls| ==> vs[i] == GateCorrected(calls[i], res.resourceType, res.url, test)
  {
    seq(|calls|, i requires 0 <= i < |calls| => GateCorrected(calls[i], res.resourceType, res.url, test))
  }

  /** With the corrected gate no call is ever stranded. */
  lemma CorrectedNeverStrands(f: Flags, st: Store, calls: seq<CacheRules>, res: Response, test: Tester, dir: string, w: World, env: Env)
    requires f.saving != Stuck
    ensures var r := Session(f, st, CorrectedVerdicts(calls, res, test), SaveOf(res, dir, w, env));
            r.0.saving != Stuck && forall i :: 0 <= i < |r.3| ==> r.3[i] != Waits
  {
    NoHangNeverWaits(f, st, CorrectedVerdicts(calls, res, test), SaveOf(res, dir, w, env));
  }
}

=== FILE: cache_row.dfy ===
/**
 * Record normalisation before a write: `checkInsertData` of the
 * `WebsiteCache` class (bin/sqlite3/websiteCache.js) and of its module-level
 * twin (bin/sqlite3/index.js), sharing one definition parameterised by a
 * schema: the default columns, in order, and whether unknown keys are dropped
 * and object values turned into JSON text.
 *
 * `utils.merge(defaults, data)` is taken to yield the default keys in default
 * order, each overridden by `data` when `data` has that key.
 */
module CacheRow {
  import opened Js
  import SqlFragment

  /** A normalised record or a stored row: column name to value. */
  type Row = map<string, Value>

  /** The collaborators the normaliser calls: the fingerprint, `JSON.stringify`, and `Date.now()`. */
  datatype Env = Env(fp: string -> string, json: Value -> string, now: int)

  datatype Schema = Schema(defaults: seq<string>, sanitises: bool)

  /** The class: 24 defaults, unknown keys dropped, objects stringified. */
  const Instance := Schema(SqlFragment.Columns, true)

  /** The module-level twin: the 23 defaults without `info`, no sanitising. */
  const LegacyColumns: seq<string> := SqlFragment.Columns[..22] + SqlFragment.Columns[23..]
  const Legacy := Schema(LegacyColumns, false)

  /** The module-level twin with the `info` default it lacks. */
  const LegacyCorrected := Schema(SqlFragment.Columns, false)

  function Lookup(m: map<string, Value>, k: string): Value {
    if k in m then m[k] else Undef
  }

  /** The default for column `c`: `oldData.create_time || now`, `data.server_time || now`, `now`, or a constant. */
  function DefaultValue(c: string, data: map<string, Value>, prev: Option<Row>, now: int): Value {
    if c == "content_type" then Str("application/unknown")
    else if c == "create_time" then
      var oc := if prev.Some? then Lookup(prev.value, "create_time") else Undef;
      if Truthy(oc) then oc else Num(now)
    else if c == "last_accessed" then Num(now)
    else if c == "server_time" then
      var st := Lookup(data, "server_time");
      if Truthy(st) then st else Num(now)
    else if c == "server_ip_address" then Str("127.0.0.1")
    else if c == "url_length" || c == "response_data_length" || c == "update_count" then Num(0)
    else Str("")
  }

  /** The supplied keys that survive, with object values as JSON text when the schema sanitises. */
  function Supplied(sch: Schema, data: map<string, Value>, json: Value -> string): map<string, Value> {
    if !sch.sanitises then data
    else map k | k in data && k in sch.defaults :: if data[k].Obj? then Str(json(data[k])) else data[k]
  }

  function Merge(sch: Schema, data: map<string, Value>, prev: Option<Row>, env: Env): Row {
    var d := Supplied(sch, data, env.json);
    map c | c in sch.defaults :: if c in d then d[c] else DefaultValue(c, data, prev, env.now)
  }

  /** What a supplied value becomes in the record. */
  function Conv(sch: Schema, v: Value, json: Value -> string): Value {
    if sch.sanitises && v.Obj? then Str(json(v)) else v
  }

  /** A supplied `url_hash` that is still truthy after conversion is kept. */
  predicate KeepsHash(sch: Schema, data: map<string, Value>, json: Value -> string) {
    "url_hash" in data && Truthy(Conv(sch, data["url_hash"], json))
  }

  function ColumnSet(cols: seq<string>): set<string> {
    set c | c in cols
  }

  /**
   * `checkInsertData(data, oldData)` on an object: defaults filled in schema
   * order, supplied values winning, and a falsy `url_hash` replaced by the
   * fingerprint of the url.
   */
  function Normalize(sch: Schema, data: map<string, Value>, prev: Option<Row>, env: Env): (r: Row)
    requires "url_hash" in sch.defaults && "url" in sch.defaults
    ensures r.Keys == ColumnSet(sch.defaults)
    ensures forall c :: c in sch.defaults && c in data && c != "url_hash" ==> r[c] == Conv(sch, data[c], env.json)
    ensures forall c :: c in sch.defaults && c !in data && c != "url_hash" ==> r[c] == DefaultValue(c, data, prev, env.now)
    ensures "create_time" in sch.defaults && "create_time" !in data && prev.Some? && Truthy(Lookup(prev.value, "create_time"))
            ==> r["create_time"] == prev.value["create_time"]
    ensures "last_accessed" in sch.defaults && "last_accessed" !in data ==> r["last_accessed"] == Num(env.now)
    ensures KeepsHash(sch, data, env.json) ==> r["url_hash"] == Conv(sch, data["url_hash"], env.json)
    ensures !KeepsHash(sch, data, env.json) ==> r["url_hash"] == Str(env.fp(JsString(r["url"])))
    ensures sch.sanitises ==> forall c :: c in r && c in data && data[c].Obj? ==> r[c].Str?
  {
    var m := Merge(sch, data, prev, env);
    if Truthy(m["url_hash"]) then m
    else m["url_hash" := Str(env.fp(JsString(m["url"])))]
  }

  /** The class's `checkInsertData`: `false` for anything but a plain object. */
  function CheckInsertData(data: Value, prev: Option<Row>, env: Env): (r: Option<Row>)
    ensures r.Some? <==> data.Obj?
    ensures r.Some? ==> r.value.Keys == ColumnSet(SqlFragment.Columns)
  {
    if data.Obj? then Some(Normalize(Instance, data.fields, prev, env)) else None
  }

  /** `Object.values(row)`: the values in schema order, the order they are bound in. */
  function Values(sch: Schema, r: Row): (vs: seq<Value>)
    requires ColumnSet(sch.defaults) <= r.Keys
    ensures |vs| == |sch.defaults|
    ensures forall i :: 0 <= i < |vs| ==> vs[i] == r[sch.defaults[i]]
  {
    seq(|sch.defaults|, i requires 0 <= i < |sch.defaults| => r[sch.defaults[i]])
  }

  /** Merging a record that already holds every column, with no object values, changes nothing. */
  lemma MergeComplete(sch: Schema, data: Row, prev: Option<Row>, env: Env)
    requires data.Keys == ColumnSet(sch.defaults)
    requires forall k :: k in data ==> !data[k].Obj?
    ensures Merge(sch, data, prev, env) == data
  {
    var d := Supplied(sch, data, env.json);
    assert d == data;
  }

  /**
   * A normalised record goes through normalisation again unchanged, whatever
   * the time and the old row: every column is supplied, so no default is used.
   */
  lemma NormalizeIdempotent(sch: Schema, data: map<string, Value>, prev: Option<Row>, prev': Option<Row>, env: Env, now': int)
    requires "url_hash" in sch.defaults && "url" in sch.defaults
    requires var r := Normalize(sch, data, prev, env); forall c :: c in r ==> !r[c].Obj?
    ensures var r := Normalize(sch, data, prev, env);
            Normalize(sch, r, prev', env.(now := now')) == r
  {
    var r := Normalize(sch, data, prev, env);
    var env' := env.(now := now');
    MergeComplete(sch, r, prev', env');
    if !Truthy(r["url_hash"]) {
      assert r["url_hash"] == Str(env.fp(JsString(r["url"])));
      assert r["url_hash" := Str(env'.fp(JsString(r["url"])))] == r;
    }
  }

  /** The instance schema binds 24 values, as many as the insert statement's placeholders. */
  lemma InstanceArity()
    ensures |Instance.defaults| == SqlFragment.CountMarks(SqlFragment.InsertValues)
  {
    SqlFragment.InsertArity();
  }

  /** `info` is the 23rd column and no other. */
  lemma InfoOnlyAt22()
    ensures SqlFragment.Columns[22] == "info"
    ensures forall i :: 0 <= i < |SqlFragment.Columns| && i != 22 ==> SqlFragment.Columns[i] != "info"
  {
    forall i | 0 <= i < 8 ensures SqlFragment.Columns[i] != "info" { }
    forall i | 8 <= i < 16 ensures SqlFragment.Columns[i] != "info" { }
    forall i | 16 <= i < 22 ensures SqlFragment.Columns[i] != "info" { }
    assert SqlFragment.Columns[23] != "info";
  }

  /** The module-level twin binds 23 values into 24 placeholders, and `info` is the missing one. */
  lemma LegacyArity()
    ensures |Legacy.defaults| == 23 < SqlFragment.CountMarks(SqlFragment.InsertValues)
    ensures "info" !in Legacy.defaults && "info" in SqlFragment.Columns
  {
    SqlFragment.InsertArity();
    InfoOnlyAt22();
    forall i | 0 <= i < |LegacyColumns| ensures LegacyColumns[i] != "info" {
      if i < 22 {
        assert LegacyColumns[i] == SqlFragment.Columns[i];
      } else {
        assert LegacyColumns[i] == SqlFragment.Columns[i + 1];
      }
    }
  }
}

=== FILE: cache_store.dfy ===
/**
 * The `website_data` table behind `WebsiteCache` (bin/sqlite3/websiteCache.js)
 * and its module-level twin (bin/sqlite3/index.js).
 *
 * The table is a sequence of rows in rowid order. No index is UNIQUE, so two
 * rows may share a `url_hash`; uniqueness is something the upsert keeps, not
 * something the table enforces. A batch runs in one transaction: it either
 * applies whole or throws and leaves the table as it was.
 */
module CacheStore {
  import opened Js
  import opened CacheRow
  import SqlFragment

  type Table = seq<Row>

  /** `needIndexColumn`: the columns indexed at construction, the only ones `select` accepts. */
  const IndexedColumns: seq<string> :=
    ["url_hash", "path_hash", "response_data_hash", "url", "host", "path", "last_accessed"]

  /** The index statements run at construction: `createIndexCode(column)` with no `unique` argument. */
  function Indexes(): seq<SqlFragment.Index> {
    seq(|IndexedColumns|, i requires 0 <= i < |IndexedColumns| => SqlFragment.CreateIndexCode(IndexedColumns[i], Undef))
  }

  /** None of the indexes is UNIQUE. */
  lemma NoUniqueIndex()
    ensures |Indexes()| == 7
    ensures forall i :: 0 <= i < |Indexes()| ==> !Indexes()[i].unique && Indexes()[i].column == IndexedColumns[i]
  {
  }

  /** Placeholders of the insert and update statements. */
  const InsertParams: nat := 24
  const UpdateParams: nat := 25

  lemma ParamsMatchStatements()
    ensures InsertParams == SqlFragment.CountMarks(SqlFragment.InsertValues)
    ensures UpdateParams == SqlFragment.CountMarks(SqlFragment.UpdateSet) + SqlFragment.CountMarks(SqlFragment.UpdateWhere)
  {
    SqlFragment.InsertArity();
    SqlFragment.UpdateArity();
  }

  /** The rows whose `column` holds `v`, in table order. */
  function Matching(t: Table, column: string, v: Value): (r: seq<Row>)
    ensures |r| <= |t|
    ensures forall row :: row in r ==> row in t && Lookup(row, column) == v
    ensures forall i :: 0 <= i < |t| && Lookup(t[i], column) == v ==> t[i] in r
    ensures r == [] <==> forall i :: 0 <= i < |t| ==> Lookup(t[i], column) != v
  {
    if t == [] then []
    else
      var rest := Matching(t[1..], column, v);
      assert forall i :: 1 <= i < |t| ==> t[i] == t[1..][i - 1];
      if Lookup(t[0], column) == v then [t[0]] + rest else rest
  }

  /** `LIMIT limit OFFSET offset`: a negative limit means no bound, a negative offset counts as zero. */
  function Page(rows: seq<Row>, limit: int, offset: int): (r: seq<Row>)
    ensures limit >= 0 ==> |r| <= limit
    ensures offset <= 0 && (limit < 0 || limit >= |rows|) ==> r == rows
    ensures offset <= 0 && |rows| > 0 && limit != 0 ==> |r| > 0 && r[0] == rows[0]
    ensures forall row :: row in r ==> row in rows
  {
    var start := if offset < 0 then 0 else if offset > |rows| then |rows| else offset;
    var rest := rows[start..];
    if limit < 0 || limit >= |rest| then rest else rest[..limit]
  }

  predicate Indexed(column: string) {
    column in IndexedColumns
  }

  /** The statement `select` runs for one value. */
  function SelectOne(t: Table, v: Value, q: SqlFragment.Select): seq<Row> {
    Page(Matching(t, q.column, v), q.limit, q.offset)
  }

  /**
   * `select(searchStr, columnName, limit, offset, transaction)` as written:
   * `[]` for a falsy value or an unindexed column; in the array or
   * transaction form every per-value result is passed to `concat` and
   * dropped, so that form returns `[]` as well.
   */
  function Select(t: Table, search: Value, column: string, limit: Option<int>, offset: Option<int>, transaction: bool): (r: seq<Row>)
    ensures !Truthy(search) || !Indexed(column) ==> r == []
    ensures transaction || search.Arr? ==> r == []
    ensures forall row :: row in r ==> row in t && Lookup(row, column) == search
    ensures Truthy(search) && Indexed(column) && !transaction && !search.Arr? && limit.None? && offset.None? ==>
              |r| <= 1000 && (|Matching(t, column, search)| <= 1000 ==> r == Matching(t, column, search))
  {
    if !Truthy(search) || !Indexed(column) then []
    else
      var q := SqlFragment.CreateSelectCode(column, limit, offset);
      if transaction || search.Arr? then []
      else SelectOne(t, search, q)
  }

  /** The values the batch form iterates: the array's items, or a string's characters. */
  function BatchValues(search: Value): seq<Value> {
    if search.Arr? then search.items
    else if search.Str? then seq(|search.s|, i requires 0 <= i < |search.s| => Str([search.s[i]]))
    else []
  }

  function Concat(parts: seq<seq<Row>>): seq<Row> {
    if parts == [] then [] else parts[0] + Concat(parts[1..])
  }

  lemma {:induction false} ConcatContains(parts: seq<seq<Row>>, j: nat, row: Row)
    requires j < |parts| && row in parts[j]
    ensures row in Concat(parts)
    decreases |parts|
  {
    if j > 0 {
      ConcatContains(parts[1..], j - 1, row);
    }
  }

  /** `select` with the batch form keeping what it finds: `result = result.concat(…)`. */
  function SelectCorrected(t: Table, search: Value, column: string, limit: Option<int>, offset: Option<int>, transaction: bool): (r: seq<Row>)
    ensures !Truthy(search) || !Indexed(column) ==> r == []
    ensures !transaction && !search.Arr? ==> r == Select(t, search, column, limit, offset, transaction)
  {
    if !Truthy(search) || !Indexed(column) then []
    else
      var q := SqlFragment.CreateSelectCode(column, limit, offset);
      if transaction || search.Arr? then
        var vs := BatchValues(search);
        Concat(seq(|vs|, i requires 0 <= i < |vs| => SelectOne(t, vs[i], q)))
      else SelectOne(t, search, q)
  }

  /** The corrected batch form returns every row any of its values finds on its own. */
  lemma SelectCorrectedFindsAll(t: Table, vs: seq<Value>, column: string, j: nat, row: Row)
    requires Indexed(column) && j < |vs|
    requires row in SelectOne(t, vs[j], SqlFragment.CreateSelectCode(column, None, None))
    ensures row in SelectCorrected(t, Arr(vs), column, None, None, false)
  {
    var q := SqlFragment.CreateSelectCode(column, None, None);
    var parts := seq(|vs|, i requires 0 <= i < |vs| => SelectOne(t, vs[i], q));
    ConcatContains(parts, j, row);
  }

  /** As written, a batch lookup of a stored key comes back empty. */
  lemma SelectBatchDropsRows(t: Table, h: string)
    requires |t| > 0 && Lookup(t[0], "url_hash") == Str(h) && h != ""
    ensures Select(t, Str(h), "url_hash", None, None, false) != []
    ensures Select(t, Arr([Str(h)]), "url_hash", None, None, false) == []
    ensures SelectCorrected(t, Arr([Str(h)]), "url_hash", None, None, false) != []
  {
    assert t[0] in Matching(t, "url_hash", Str(h));
    var q := SqlFragment.CreateSelectCode("url_hash", None, None);
    assert t[0] in SelectOne(t, Str(h), q);
    SelectCorrectedFindsAll(t, [Str(h)], "url_hash", 0, t[0]);
  }

  /** The key every url is stored and looked up under. */
  function UrlKey(url: Value, fp: string -> string): Value {
    Str(fp(JsString(url)))
  }

  /** `selectByUrl(url)`: the first row stored under the url's fingerprint. */
  function SelectByUrl(t: Table, url: Value, fp: string -> string): (r: Option<Row>)
    ensures r.Some? ==> r.value in t && Lookup(r.value, "url_hash") == UrlKey(url, fp)
    ensures fp(JsString(url)) != "" && (exists i :: 0 <= i < |t| && Lookup(t[i], "url_hash") == UrlKey(url, fp)) ==> r.Some?
    ensures r.Some? ==> r.value == Matching(t, "url_hash", UrlKey(url, fp))[0]
  {
    var rs := Select(t, UrlKey(url, fp), "url_hash", None, None, false);
    if |rs| > 0 then
      assert rs[0] in rs;
      Some(rs[0])
    else None
  }

  /** The urls a batch call walks: none for a falsy argument, a lone string wrapped, an array's items. */
  function UrlList(urls: Value): seq<Value> {
    if !Truthy(urls) then []
    else if urls.Str? then [urls]
    else if urls.Arr? then urls.items
    else []
  }

  /** `selectByUrls(urls)`: one lookup per url, in order. */
  function SelectByUrls(t: Table, urls: Value, fp: string -> string): (r: seq<Option<Row>>)
    ensures |r| == |UrlList(urls)|
    ensures forall i :: 0 <= i < |r| ==> r[i] == SelectByUrl(t, UrlList(urls)[i], fp)
    ensures !Truthy(urls) ==> r == []
  {
    var us := UrlList(urls);
    seq(|us|, i requires 0 <= i < |us| => SelectByUrl(t, us[i], fp))
  }

  /** Reading `item.url_hash` throws for `null` and `undefined`. */
  datatype TypeError = PropertyOfNullish

  predicate Readable(v: Value) {
    !v.Undef? && !v.Null?
  }

  /** `selectByUrlInCache(url)`: the first buffered record whose `url_hash` is the url's fingerprint. */
  method SelectByUrlInCache(buffer: seq<Value>, url: Value, fp: string -> string) returns (r: Result<Option<Value>, TypeError>)
    ensures r.Ok? && r.value.Some? ==>
      exists i :: 0 <= i < |buffer| && buffer[i] == r.value.value && Get(buffer[i], "url_hash") == UrlKey(url, fp)
        && forall j :: 0 <= j < i ==> Readable(buffer[j]) && Get(buffer[j], "url_hash") != UrlKey(url, fp)
    ensures r == Ok(None) <==> forall j :: 0 <= j < |buffer| ==> Readable(buffer[j]) && Get(buffer[j], "url_hash") != UrlKey(url, fp)
    ensures (forall j :: 0 <= j < |buffer| ==> Readable(buffer[j])) ==> r.Ok?
  {
    var key := UrlKey(url, fp);
    var i := 0;
    while i < |buffer|
      invariant 0 <= i <= |buffer|
      invariant forall j :: 0 <= j < i ==> Readable(buffer[j]) && Get(buffer[j], "url_hash") != key
    {
      if !Readable(buffer[i]) {
        return Err(PropertyOfNullish);
      }
      if Get(buffer[i], "url_hash") == key {
        return Ok(Some(buffer[i]));
      }
      i := i + 1;
    }
    return Ok(None);
  }

  /**
   * Why a statement throws: better-sqlite3 refuses a value it cannot bind
   * (a TypeError) or the wrong number of values (a RangeError), and SQLite
   * refuses a NULL in a `NOT NULL` column.
   */
  datatype InsertError = Unbindable | ParameterCount(expected: nat, given: nat) | NotNullFailed

  /** What better-sqlite3 binds: a number, text, or `null` and `undefined` as NULL. */
  predicate Scalar(v: Value) {
    v.Num? || v.Str? || v.Null? || v.Undef?
  }

  predicate Nullish(v: Value) {
    v.Null? || v.Undef?
  }

  /** Binding the statement's arguments: every value must be bindable, then the count must match. */
  function Bind(values: seq<Value>, params: nat): (r: Result<seq<Value>, InsertError>)
    ensures r.Ok? <==> |values| == params && forall i :: 0 <= i < |values| ==> Scalar(values[i])
    ensures r.Ok? ==> r.value == values
    ensures r.Err? && |values| == params ==> r.error == Unbindable
  {
    if exists i :: 0 <= i < |values| && !Scalar(values[i]) then Err(Unbindable)
    else if |values| != params then Err(ParameterCount(params, |values|))
    else Ok(values)
  }

  /** The `NOT NULL` constraints on the row a statement writes: its values fill the columns in table order. */
  predicate NotNullHolds(vs: seq<Value>) {
    forall i :: 0 <= i < |vs| && i < |SqlFragment.Columns| && SqlFragment.Columns[i] in SqlFragment.NotNull ==> !Nullish(vs[i])
  }

  /** `Number(old.update_count) + 1`; a NaN sum is stored as NULL. */
  function NextCount(v: Value): Value {
    match v
    case Num(n) => Num(n + 1)
    case Null => Num(1)
    case Bool(b) => Num(if b then 2 else 1)
    case _ => Null
  }

  /** The columns an upsert reads or writes itself are among the schema's defaults. */
  predicate ValidSchema(sch: Schema) {
    "url_hash" in sch.defaults && "url" in sch.defaults && "update_count" in sch.defaults
    && "create_time" in sch.defaults && "last_accessed" in sch.defaults
  }

  /** The `UPDATE … WHERE url_hash=?` statement: every row stored under `key` takes the new values. */
  function UpdateWhere(t: Table, key: Value, r: Row): (t': Table)
    ensures |t'| == |t|
    ensures forall i :: 0 <= i < |t| ==> t'[i] == (if Lookup(t[i], "url_hash") == key then r else t[i])
  {
    seq(|t|, i requires 0 <= i < |t| => if Lookup(t[i], "url_hash") == key then r else t[i])
  }

  /** The row already stored under the fingerprint of the record's url. */
  function Prior(t: Table, fields: map<string, Value>, fp: string -> string): Option<Row> {
    SelectByUrl(t, Lookup(fields, "url"), fp)
  }

  /** The record an upsert writes: normalised against the prior row, its update count bumped when there is one. */
  function Record(sch: Schema, t: Table, fields: map<string, Value>, env: Env): (r: Row)
    requires ValidSchema(sch)
    ensures r.Keys == ColumnSet(sch.defaults)
  {
    var prev := Prior(t, fields, env.fp);
    var r := Normalize(sch, fields, prev, env);
    if prev.Some? then r["update_count" := NextCount(Lookup(prev.value, "update_count"))] else r
  }

  /** The table after the upsert's statement: an `UPDATE` when there is a prior row, an `INSERT` otherwise. */
  function Written(sch: Schema, t: Table, fields: map<string, Value>, env: Env): (t': Table)
    requires ValidSchema(sch)
    ensures |t'| == |t| + (if Prior(t, fields, env.fp).Some? then 0 else 1)
  {
    var r := Record(sch, t, fields, env);
    if Prior(t, fields, env.fp).Some? then UpdateWhere(t, UrlKey(r["url"], env.fp), r) else t + [r]
  }

  /** The values bound to that statement: the record's, plus the `WHERE` key for an update. */
  function Bound(sch: Schema, t: Table, fields: map<string, Value>, env: Env): (vs: seq<Value>)
    requires ValidSchema(sch)
    ensures |vs| == |sch.defaults| + (if Prior(t, fields, env.fp).Some? then 1 else 0)
  {
    var r := Record(sch, t, fields, env);
    Values(sch, r) + (if Prior(t, fields, env.fp).Some? then [UrlKey(r["url"], env.fp)] else [])
  }

  /** Whether the statement writes a row: an insert always does, an update only when some row holds its key. */
  predicate Touches(sch: Schema, t: Table, fields: map<string, Value>, env: Env)
    requires ValidSchema(sch)
  {
    Prior(t, fields, env.fp).None? || Matching(t, "url_hash", UrlKey(Record(sch, t, fields, env)["url"], env.fp)) != []
  }

  /**
   * One element of an `insert` batch: an upsert keyed on the fingerprint of
   * its url; non-objects are skipped. It throws unless the schema fills the
   * statement, every value of the record binds, and a written row keeps
   * its `NOT NULL` columns non-null.
   */
  function InsertOne(sch: Schema, t: Table, item: Value, env: Env): (r: Result<Table, InsertError>)
    requires ValidSchema(sch)
    ensures !item.Obj? ==> r == Ok(t)
    ensures item.Obj? ==> (r.Ok? <==> var rec := Record(sch, t, item.fields, env);
                                      |sch.defaults| == InsertParams
                                      && (forall c :: c in rec ==> Scalar(rec[c]))
                                      && (Touches(sch, t, item.fields, env) ==> NotNullHolds(Values(sch, rec))))
    ensures r.Ok? && item.Obj? ==> r.value == Written(sch, t, item.fields, env)
    ensures r.Ok? ==> |t| <= |r.value| <= |t| + 1
  {
    if !item.Obj? then Ok(t)
    else
      var params := if Prior(t, item.fields, env.fp).Some? then UpdateParams else InsertParams;
      var vs := Bound(sch, t, item.fields, env);
      BoundValues(sch, t, item.fields, env);
      match Bind(vs, params)
      case Err(e) => Err(e)
      case Ok(_) =>
        if Touches(sch, t, item.fields, env) && !NotNullHolds(vs) then Err(NotNullFailed)
        else Ok(Written(sch, t, item.fields, env))
  }

  /** The bound values are the record's, in column order, plus a text key for an update. */
  lemma BoundValues(sch: Schema, t: Table, fields: map<string, Value>, env: Env)
    requires ValidSchema(sch)
    ensures var rec := Record(sch, t, fields, env);
            var vs := Bound(sch, t, fields, env);
            ((forall i :: 0 <= i < |vs| ==> Scalar(vs[i])) <==> (forall c :: c in rec ==> Scalar(rec[c])))
            && (NotNullHolds(vs) <==> NotNullHolds(Values(sch, rec)))
  {
    var rec := Record(sch, t, fields, env);
    var extra := if Prior(t, fields, env.fp).Some? then [UrlKey(rec["url"], env.fp)] else [];
    ValuesScalar(sch, rec);
    TextTail(Values(sch, rec), extra);
  }

  /** Every value bound from a record binds exactly when every value of the record does. */
  lemma ValuesScalar(sch: Schema, rec: Row)
    requires rec.Keys == ColumnSet(sch.defaults)
    ensures (forall i :: 0 <= i < |Values(sch, rec)| ==> Scalar(Values(sch, rec)[i])) <==> (forall c :: c in rec ==> Scalar(rec[c]))
  {
    var ws := Values(sch, rec);
    if forall i :: 0 <= i < |ws| ==> Scalar(ws[i]) {
      forall c | c in rec ensures Scalar(rec[c]) {
        var i :| 0 <= i < |sch.defaults| && sch.defaults[i] == c;
        assert ws[i] == rec[c];
      }
    }
  }

  /** Text values appended after a row's values bind and are never NULL. */
  lemma TextTail(ws: seq<Value>, extra: seq<Value>)
    requires forall i :: 0 <= i < |extra| ==> extra[i].Str?
    ensures (forall i :: 0 <= i < |ws + extra| ==> Scalar((ws + extra)[i])) <==> (forall i :: 0 <= i < |ws| ==> Scalar(ws[i]))
    ensures NotNullHolds(ws + extra) <==> NotNullHolds(ws)
  {
    var vs := ws + extra;
    assert forall i :: 0 <= i < |ws| ==> vs[i] == ws[i];
    assert forall i :: |ws| <= i < |vs| ==> vs[i] == extra[i - |ws|];
  }

  /**
   * The transaction body: each element sees the rows the earlier ones wrote;
   * the first error aborts it. No row is removed and each element adds at
   * most one.
   */
  function InsertItems(sch: Schema, t: Table, items: seq<Value>, env: Env): (r: Result<Table, InsertError>)
    requires ValidSchema(sch)
    ensures r.Ok? ==> |t| <= |r.value| <= |t| + |items|
    ensures r.Err? ==> exists i :: 0 <= i < |items| && items[i].Obj?
    decreases |items|
  {
    if items == [] then Ok(t)
    else
      match InsertOne(sch, t, items[0], env)
      case Err(e) => Err(e)
      case Ok(t1) =>
        var r := InsertItems(sch, t1, items[1..], env);
        assert forall i :: 1 <= i < |items| ==> items[i] == items[1..][i - 1];
        r
  }

  datatype InsertResult =
    | Rejected                     // neither object nor array: logged, returns false
    | Applied(table: Table)        // the transaction committed
    | Threw(error: InsertError)    // the transaction rolled back and the error propagates

  /** `insert(data)`: one object or an array of them, in one transaction. */
  function Insert(sch: Schema, t: Table, data: Value, env: Env): (r: InsertResult)
    requires ValidSchema(sch)
    ensures r.Rejected? <==> !data.Obj? && !data.Arr?
    ensures r.Applied? ==> InsertItems(sch, t, ArgToArr(data), env) == Ok(r.table)
    ensures r.Threw? ==> InsertItems(sch, t, ArgToArr(data), env) == Err(r.error)
  {
    if !data.Obj? && !data.Arr? then Rejected
    else
      match InsertItems(sch, t, ArgToArr(data), env)
      case Ok(t') => Applied(t')
      case Err(e) => Threw(e)
  }

  /** An array with no object in it commits and leaves the table as it was. */
  lemma InsertSkipsNonObjects(sch: Schema, t: Table, items: seq<Value>, env: Env)
    requires ValidSchema(sch)
    requires forall i :: 0 <= i < |items| ==> !items[i].Obj?
    ensures Insert(sch, t, Arr(items), env) == Applied(t)
  {
    SkipsNonObjects(sch, t, items, env);
  }

  lemma {:induction false} SkipsNonObjects(sch: Schema, t: Table, items: seq<Value>, env: Env)
    requires ValidSchema(sch)
    requires forall i :: 0 <= i < |items| ==> !items[i].Obj?
    ensures InsertItems(sch, t, items, env) == Ok(t)
    decreases |items|
  {
    if items != [] {
      SkipsNonObjects(sch, t, items[1..], env);
    }
  }

  /** A batch split in two is the first half followed by the second, on the table the first half left. */
  lemma {:induction false} InsertItemsAppend(sch: Schema, t: Table, xs: seq<Value>, ys: seq<Value>, env: Env)
    requires ValidSchema(sch)
    ensures InsertItems(sch, t, xs + ys, env) ==
      match InsertItems(sch, t, xs, env)
      case Err(e) => Err(e)
      case Ok(t1) => InsertItems(sch, t1, ys, env)
    decreases |xs|
  {
    if xs == [] {
      assert xs + ys == ys;
    } else {
      assert (xs + ys)[0] == xs[0];
      assert (xs + ys)[1..] == xs[1..] + ys;
      match InsertOne(sch, t, xs[0], env)
      case Err(e) =>
      case Ok(t1) => InsertItemsAppend(sch, t1, xs[1..], ys, env);
    }
  }

  /** The fields of the object elements of a batch, in order. */
  function Objects(items: seq<Value>): (r: seq<map<string, Value>>)
    ensures |r| <= |items|
    ensures forall f :: f in r ==> Obj(f) in items
    decreases |items|
  {
    if items == [] then []
    else
      var rest := Objects(items[1..]);
      assert forall x :: x in items[1..] ==> x in items;
      if items[0].Obj? then [items[0].fields] + rest else rest
  }

  /** The rows `insertOnly` appends for these objects: each one normalised with no old row, in order. */
  function Appended(sch: Schema, os: seq<map<string, Value>>, env: Env): (r: Table)
    requires ValidSchema(sch)
    ensures |r| == |os|
    ensures forall k :: 0 <= k < |r| ==> r[k].Keys == ColumnSet(sch.defaults)
  {
    if os == [] then [] else [Normalize(sch, os[0], None, env)] + Appended(sch, os[1..], env)
  }

  /** The `k`-th appended row is the `k`-th object normalised with no old row. */
  lemma {:induction false} AppendedAt(sch: Schema, os: seq<map<string, Value>>, env: Env, k: nat)
    requires ValidSchema(sch) && k < |os|
    ensures Appended(sch, os, env)[k] == Normalize(sch, os[k], None, env)
    decreases k
  {
    if k > 0 {
      AppendedAt(sch, os[1..], env, k - 1);
    }
  }

  /** The insert statement takes a record: the schema fills it, every value binds, and no `NOT NULL` column is null. */
  predicate Insertable(sch: Schema, rec: Row) {
    ColumnSet(sch.defaults) <= rec.Keys && |sch.defaults| == InsertParams && (forall c :: c in rec ==> Scalar(rec[c])) && NotNullHolds(Values(sch, rec))
  }

    /** Every row of a batch is insertable. */
  predicate AllInsertable(sch: Schema, rows: Table) {
    forall k :: 0 <= k < |rows| ==> Insertable(sch, rows[k])
  }

  /**
   * What writing one record throws, if anything: its values are bound first,
   * then SQLite checks the `NOT NULL` columns of the row it writes.
   */
  function RowError(sch: Schema, rec: Row): (r: Option<InsertError>)
    requires rec.Keys == ColumnSet(sch.defaults)
    ensures r.None? <==> Insertable(sch, rec)
  {
    ValuesScalar(sch, rec);
    match Bind(Values(sch, rec), InsertParams)
    case Err(e) => Some(e)
    case Ok(_) => if NotNullHolds(Values(sch, rec)) then None else Some(NotNullFailed)
  }

  /**
   * The loop of `insertOnly`'s transaction over the rows it appends, in order:
   * each row is written, and the first one that throws rolls the whole
   * transaction back.
   */
  function InsertRows(sch: Schema, t: Table, rows: Table): (r: Result<Table, InsertError>)
    requires forall k :: 0 <= k < |rows| ==> rows[k].Keys == ColumnSet(sch.defaults)
    ensures r.Ok? <==> AllInsertable(sch, rows)
    ensures r.Ok? ==> r.value == t + rows
    decreases |rows|
  {
    if rows == [] then Ok(t)
    else
      match RowError(sch, rows[0])
      case Some(e) => Err(e)
      case None =>
        AllInsertableCons(sch, rows);
        var rest := InsertRows(sch, t + [rows[0]], rows[1..]);
        ShiftHead(t, rows);
        rest
  }

  /** Moving the head of `ys` onto the end of `xs` keeps the concatenation. */
  lemma ShiftHead<T>(xs: seq<T>, ys: seq<T>)
    requires ys != []
    ensures (xs + [ys[0]]) + ys[1..] == xs + ys
  {
    assert ys == [ys[0]] + ys[1..];
  }

  lemma AllInsertableCons(sch: Schema, rows: Table)
    requires rows != []
    ensures AllInsertable(sch, rows) <==> Insertable(sch, rows[0]) && AllInsertable(sch, rows[1..])
  {
    assert forall k :: 1 <= k < |rows| ==> rows[k] == rows[1..][k - 1];
  }

  /**
   * `insertOnly` over an array: items that are not objects are skipped with an
   * error message, the others are normalised with no old row and inserted.
   */
  function InsertOnlyItems(sch: Schema, t: Table, items: seq<Value>, env: Env): (r: Result<Table, InsertError>)
    requires ValidSchema(sch)
    ensures r.Ok? <==> AllInsertable(sch, Appended(sch, Objects(items), env))
    ensures r.Ok? ==> r.value == t + Appended(sch, Objects(items), env)
  {
    InsertRows(sch, t, Appended(sch, Objects(items), env))
  }

  function InsertOnly(sch: Schema, t: Table, data: Value, env: Env): (r: InsertResult)
    requires ValidSchema(sch)
    ensures r.Rejected? <==> !data.Obj? && !data.Arr?
    ensures r.Applied? ==> r.table == t + Appended(sch, Objects(ArgToArr(data)), env)
    ensures r.Threw? <==> (data.Obj? || data.Arr?) && !AllInsertable(sch, Appended(sch, Objects(ArgToArr(data)), env))
  {
    if !data.Obj? && !data.Arr? then Rejected
    else
      match InsertOnlyItems(sch, t, ArgToArr(data), env)
      case Ok(t') => Applied(t')
      case Err(e) => Threw(e)
  }

  /**
   * `insertOnly` does no lookup: the same object given twice leaves two rows
   * under one `url_hash`, which `insert` never does.
   */
  lemma InsertOnlyDuplicates(sch: Schema, t: Table, fields: map<string, Value>, env: Env)
    requires ValidSchema(sch)
    requires Insertable(sch, Normalize(sch, fields, None, env))
    ensures var r := InsertOnly(sch, t, Arr([Obj(fields), Obj(fields)]), env);
            r.Applied? && |r.table| == |t| + 2
            && Lookup(r.table[|t|], "url_hash") == Lookup(r.table[|t| + 1], "url_hash")
  {
    ObjectsPair(fields);
    AppendedPair(sch, fields, env);
    InsertRowsPair(sch, t, Normalize(sch, fields, None, env));
  }

  lemma InsertRowsPair(sch: Schema, t: Table, row: Row)
    requires row.Keys == ColumnSet(sch.defaults) && Insertable(sch, row)
    ensures InsertRows(sch, t, [row, row]) == Ok(t + [row, row])
  {
    assert AllInsertable(sch, [row, row]);
  }

  lemma ObjectsPair(fields: map<string, Value>)
    ensures Objects([Obj(fields), Obj(fields)]) == [fields, fields]
  {
    var items := [Obj(fields), Obj(fields)];
    assert items[1..] == [Obj(fields)] && items[1..][1..] == [];
  }

  lemma AppendedPair(sch: Schema, fields: map<string, Value>, env: Env)
    requires ValidSchema(sch)
    ensures var row := Normalize(sch, fields, None, env);
            Appended(sch, [fields, fields], env) == [row, row]
  {
    var os := [fields, fields];
    assert os[1..] == [fields] && os[1..][1..] == [];
  }

  /** `DELETE … WHERE url_hash = ?`: the table without the rows stored under `key`. */
  function Without(t: Table, key: Value): (t': Table)
    ensures |t'| <= |t|
    ensures forall row :: row in t' ==> row in t && Lookup(row, "url_hash") != key
    ensures forall i :: 0 <= i < |t| && Lookup(t[i], "url_hash") != key ==> t[i] in t'
    ensures (forall i :: 0 <= i < |t| ==> Lookup(t[i], "url_hash") != key) ==> t' == t
  {
    if t == [] then []
    else
      var rest := Without(t[1..], key);
      assert forall i :: 1 <= i < |t| ==> t[i] == t[1..][i - 1];
      if Lookup(t[0], "url_hash") == key then rest
      else
        assert t == [t[0]] + t[1..];
        [t[0]] + rest
  }

  /** `deleteByUrl(url)`: the new table and the statement's `changes` count. */
  function DeleteByUrl(t: Table, url: Value, fp: string -> string): (r: (Table, nat))
    ensures r.0 == Without(t, UrlKey(url, fp)) && r.1 == |t| - |r.0|
  {
    var t' := Without(t, UrlKey(url, fp));
    (t', |t| - |t'|)
  }

  function DeleteEach(t: Table, us: seq<Value>, fp: string -> string): (r: (Table, seq<nat>))
    ensures |r.1| == |us|
    ensures forall row :: row in r.0 ==> row in t && forall j :: 0 <= j < |us| ==> Lookup(row, "url_hash") != UrlKey(us[j], fp)
    ensures forall i :: 0 <= i < |t| && (forall j :: 0 <= j < |us| ==> Lookup(t[i], "url_hash") != UrlKey(us[j], fp)) ==> t[i] in r.0
    decreases |us|
  {
    if us == [] then (t, [])
    else
      var (t1, n) := DeleteByUrl(t, us[0], fp);
      var (t2, ns) := DeleteEach(t1, us[1..], fp);
      assert forall j :: 1 <= j < |us| ==> us[j] == us[1..][j - 1];
      forall i | 0 <= i < |t| && (forall j :: 0 <= j < |us| ==> Lookup(t[i], "url_hash") != UrlKey(us[j], fp))
        ensures t[i] in t2
      {
        assert t[i] in t1;
        var k :| 0 <= k < |t1| && t1[k] == t[i];
      }
      (t2, [n] + ns)
  }

  /** A row stored under none of the urls' keys. */
  predicate Unlisted(row: Row, urls: seq<Value>, fp: string -> string) {
    forall j :: 0 <= j < |urls| ==> Lookup(row, "url_hash") != UrlKey(urls[j], fp)
  }

  /** `after` is `before` less exactly the rows stored under one of the urls' keys. */
  predicate DeletedExactly(before: Table, after: Table, urls: seq<Value>, fp: string -> string) {
    (forall row :: row in after ==> row in before && Unlisted(row, urls, fp))
    && forall i :: 0 <= i < |before| && Unlisted(before[i], urls, fp) ==> before[i] in after
  }

  /** `deleteByUrls(urls)`: one result per url, in input order; exactly the rows under those urls' keys are removed. */
  function DeleteByUrls(t: Table, urls: Value, fp: string -> string): (r: (Table, seq<nat>))
    ensures |r.1| == |UrlList(urls)|
    ensures forall row :: row in r.0 ==> row in t
    ensures forall row, j :: row in r.0 && 0 <= j < |UrlList(urls)| ==> Lookup(row, "url_hash") != UrlKey(UrlList(urls)[j], fp)
    ensures DeletedExactly(t, r.0, UrlList(urls), fp)
    ensures !Truthy(urls) ==> r == (t, [])
  {
    DeleteEach(t, UrlList(urls), fp)
  }
}

=== FILE: hot_mod.dfy ===
/**
 * The bookkeeping helpers of the hot-reload module (bin/hotMod.js): the
 * ignore-rule predicate, reload and change callback registration, the watch
 * registry, the parent-module sets, the bounded search for child modules and
 * the reload-handler vote. Node's module loader, the file watcher and the
 * cache purge are not part of this model; what the helpers read from them
 * (built-in module names, `require.cache`, a callback's result) arrives as
 * parameters in a `Host`.
 */
module HotMod {
  import opened Js

  /** A rule of `opts.ignore`: a regular expression, a function, a path, or any other value. */
  datatype IgnoreRule = Regex(re: nat) | Fn(f: nat) | Exact(s: string) | Inert(v: Value)

  /** `opts.ignore`: one rule, or an array of them. */
  datatype IgnoreArg = Single(rule: IgnoreRule) | List(rules: seq<IgnoreRule>)

  /** The options the helpers read; `disableWatch` is compared with `=== false`. */
  datatype Opts = Opts(ignore: IgnoreArg, disableWatch: Value)

  /** A module object: its identity and its `filename` (the empty text when unset). */
  datatype ModuleObj = ModuleObj(ref: nat, filename: string)

  /**
   * What the helpers ask of the environment: whether a path names a built-in
   * module, `RegExp.prototype.test`, the result of calling a rule function,
   * the `id` property a callback function carries, module path resolution,
   * `require.cache`, and the hot-reload module's own file name.
   */
  datatype Host = Host(
    opts: Opts,
    builtin: string -> bool,
    test: (nat, string) -> bool,
    call: (nat, string) -> Value,
    idProp: nat -> Value,
    resolve: Value -> string,
    cache: string -> Option<ModuleObj>,
    self: string)

  // ---------------------------------------------------------------------
  // isNeedIgnore
  // ---------------------------------------------------------------------

  function IgnoreList(a: IgnoreArg): seq<IgnoreRule> {
    match a
    case Single(r) => [r]
    case List(rs) => rs
  }

  /** One rule hits: a regular expression that tests true, a function returning exactly `true`, or an equal path. */
  predicate Hits(rule: IgnoreRule, path: string, h: Host) {
    match rule
    case Regex(re) => h.test(re, path)
    case Fn(f) => h.call(f, path) == Bool(true)
    case Exact(s) => s == path
    case Inert(_) => false
  }

  /** Whether a path stays out of the hot-module registry: empty, built in, or hit by some rule. */
  predicate NeedIgnore(path: string, h: Host) {
    path == "" || h.builtin(path)
    || exists i :: 0 <= i < |IgnoreList(h.opts.ignore)| && Hits(IgnoreList(h.opts.ignore)[i], path, h)
  }

  /** `isNeedIgnore(path)`: the first-hit loop over the wrapped rule list. */
  method IsNeedIgnore(path: string, h: Host) returns (ignore: bool)
    ensures ignore <==> NeedIgnore(path, h)
  {
    if path == "" || h.builtin(path) {
      return true;
    }
    var rules := IgnoreList(h.opts.ignore);
    ignore := false;
    var i := 0;
    while i < |rules|
      invariant 0 <= i <= |rules|
      invariant !ignore
      invariant forall j :: 0 <= j < i ==> !Hits(rules[j], path, h)
    {
      if Hits(rules[i], path, h) {
        ignore := true;
        return;
      }
      i := i + 1;
    }
  }

  // ---------------------------------------------------------------------
  // Reload handlers: onReload and execReloadHandlers
  // ---------------------------------------------------------------------

  /** An entry of `module.hot.reloadHandlers`: a function (by identity) or any other value. */
  datatype Handler = Callable(f: nat) | NotCallable(v: Value)

  /** What calling a handler did: returned a value, or threw. */
  datatype Outcome = Returned(v: Value) | Threw

  /** `hot.onReload(callback)`: appends a function that is not already registered. */
  function OnReload(hs: seq<Handler>, cb: Handler): (r: seq<Handler>)
    ensures cb.Callable? && cb !in hs ==> r == hs + [cb]
    ensures !cb.Callable? || cb in hs ==> r == hs
    ensures forall x :: x in r <==> x in hs || (x == cb && cb.Callable?)
  {
    if cb.Callable? && cb !in hs then hs + [cb] else hs
  }

  /** No handler registered twice. */
  predicate Distinct(hs: seq<Handler>) {
    forall i, j :: 0 <= i < j < |hs| ==> hs[i] != hs[j]
  }

  /** The handlers after registering each callback in turn. */
  function RegisterAll(hs: seq<Handler>, cbs: seq<Handler>): seq<Handler>
    decreases |cbs|
  {
    if cbs == [] then hs else RegisterAll(OnReload(hs, cbs[0]), cbs[1..])
  }

  /**
   * Starting from no handlers, any sequence of `onReload` calls leaves each
   * function offered exactly once and nothing else.
   */
  lemma {:induction false} RegisterAllDistinct(hs: seq<Handler>, cbs: seq<Handler>)
    requires Distinct(hs) && forall x :: x in hs ==> x.Callable?
    ensures Distinct(RegisterAll(hs, cbs))
    ensures forall x :: x in RegisterAll(hs, cbs) <==> x in hs || (x in cbs && x.Callable?)
    decreases |cbs|
  {
    if cbs != [] {
      var hs1 := OnReload(hs, cbs[0]);
      if cbs[0].Callable? && cbs[0] !in hs {
        forall i, j | 0 <= i < j < |hs1| ensures hs1[i] != hs1[j] {
          if j == |hs| {
            assert hs1[i] == hs[i];
          }
        }
      }
      RegisterAllDistinct(hs1, cbs[1..]);
      assert forall x :: x in cbs <==> x == cbs[0] || x in cbs[1..];
    }
  }

  /** The functions among the handlers, in order. */
  function Callables(hs: seq<Handler>): (r: seq<nat>)
    ensures |r| <= |hs|
  {
    if hs == [] then []
    else if hs[0].Callable? then [hs[0].f] + Callables(hs[1..])
    else Callables(hs[1..])
  }

  /** `Callables` lists exactly the registered functions. */
  lemma {:induction false} CallablesMembers(hs: seq<Handler>)
    ensures forall f :: f in Callables(hs) <==> Callable(f) in hs
  {
    if hs != [] {
      CallablesMembers(hs[1..]);
      assert forall x :: x in hs <==> x == hs[0] || x in hs[1..];
    }
  }

  /** A handler that asks to cancel the reload: a function that returned exactly `true`. */
  predicate Cancels(hd: Handler, source: string, run: (nat, string) -> Outcome) {
    hd.Callable? && run(hd.f, source) == Returned(Bool(true))
  }

  /**
   * `execReloadHandlers(mod, triggerSource)`: with no module, no `hot` or no
   * handler list, nothing runs and the reload goes ahead; otherwise every
   * function runs in order, a throwing one counting as not cancelling, and
   * the reload is cancelled iff some function returned exactly `true`.
   */
  method ExecReloadHandlers(handlers: Option<seq<Handler>>, source: string, run: (nat, string) -> Outcome)
    returns (cancel: bool, ran: seq<nat>)
    ensures ran == (if handlers.Some? then Callables(handlers.value) else [])
    ensures cancel <==> handlers.Some? && exists i :: 0 <= i < |handlers.value| && Cancels(handlers.value[i], source, run)
  {
    if handlers.None? {
      return false, [];
    }
    cancel, ran := RunHandlers(handlers.value, source, run);
  }

  /** The loop of `execReloadHandlers` over a handler list. */
  method RunHandlers(hs: seq<Handler>, source: string, run: (nat, string) -> Outcome)
    returns (cancel: bool, ran: seq<nat>)
    ensures ran == Callables(hs)
    ensures cancel == AnyCancels(hs, source, run)
  {
    cancel := false;
    ran := [];
    var i := 0;
    while i < |hs|
      invariant 0 <= i <= |hs|
      invariant ran + Callables(hs[i..]) == Callables(hs)
      invariant (cancel || AnyCancels(hs[i..], source, run)) == AnyCancels(hs, source, run)
    {
      HandlerStep(hs, i, source, run);
      if hs[i].Callable? {
        ran := ran + [hs[i].f];
        cancel := cancel || run(hs[i].f, source) == Returned(Bool(true));
      }
      i := i + 1;
    }
  }

  /** Whether some handler cancels, scanning from the first. */
  function AnyCancels(hs: seq<Handler>, source: string, run: (nat, string) -> Outcome): (b: bool)
    ensures b <==> exists i :: 0 <= i < |hs| && Cancels(hs[i], source, run)
  {
    if hs == [] then false
    else
      var b := Cancels(hs[0], source, run) || AnyCancels(hs[1..], source, run);
      assert forall i :: 1 <= i < |hs| ==> hs[i] == hs[1..][i - 1];
      b
  }

  /** One step of the handler loop: the `i`-th handler's function and vote, then the rest. */
  lemma HandlerStep(hs: seq<Handler>, i: nat, source: string, run: (nat, string) -> Outcome)
    requires i < |hs|
    ensures Callables(hs[i..]) == (if hs[i].Callable? then [hs[i].f] else []) + Callables(hs[i + 1..])
    ensures AnyCancels(hs[i..], source, run) == (Cancels(hs[i], source, run) || AnyCancels(hs[i + 1..], source, run))
  {
    assert hs[i..][1..] == hs[i + 1..];
  }

  // ---------------------------------------------------------------------
  // The hot-module registry: runOnChange and addToWatch
  // ---------------------------------------------------------------------

  /** An `onChange` callback in the registry, with the `conf.id` it was registered under. */
  datatype Registration = Registration(callback: nat, id: Value)

  /** An entry of `hotModuleSet`: the change callbacks and the module object, once one is known. */
  datatype HotEntry = HotEntry(onChange: seq<Registration>, owner: Option<ModuleObj>)

  /** The state the helpers keep: `hotModuleSet`, `parentModuleSet`, the watched paths and the modules given a `hot` object. */
  datatype HotState = HotState(
    hotSet: map<string, HotEntry>,
    parents: map<string, set<string>>,
    watched: seq<string>,
    hooked: set<nat>)

  /** The argument of `hot.runOnChange(conf)`. */
  datatype OnChangeConf = OnChangeConf(modulePath: Value, onChange: Handler, id: Value, autoRequire: bool)

  /** `false` for bad arguments, `true` for an id already registered, `undefined` after registering. */
  datatype RunResult = BadArguments | AlreadyRegistered | Registered

  /** The duplicate test as written: the `id` property of each registered function against `conf.id`. */
  predicate DuplicateAsWritten(e: HotEntry, id: Value, h: Host) {
    exists i :: 0 <= i < |e.onChange| && h.idProp(e.onChange[i].callback) == id
  }

  /** The duplicate test the registry needs: the id each callback was registered under against `conf.id`. */
  predicate Duplicate(e: HotEntry, id: Value) {
    exists i :: 0 <= i < |e.onChange| && e.onChange[i].id == id
  }

  /** What `runOnChange` does once the duplicate test is decided: push the callback unless it is a duplicate. */
  function RegisterChange(reg: map<string, HotEntry>, path: string, conf: OnChangeConf, duplicate: bool): (r: (map<string, HotEntry>, RunResult))
    requires conf.onChange.Callable?
  {
    if duplicate then (reg, AlreadyRegistered)
    else
      var e := if path in reg then reg[path] else HotEntry([], None);
      (reg[path := e.(onChange := e.onChange + [Registration(conf.onChange.f, conf.id)])], Registered)
  }

  /**
   * `hot.runOnChange(conf)` as written. The third component says whether the
   * callback ran at once (`autoRequire`).
   */
  function RunOnChange(reg: map<string, HotEntry>, conf: OnChangeConf, h: Host): (r: (map<string, HotEntry>, RunResult, bool))
    ensures !Truthy(conf.modulePath) || !conf.onChange.Callable? <==> r.1 == BadArguments
    ensures r.1 == BadArguments ==> r.0 == reg && !r.2
    ensures r.1 != BadArguments ==> r.2 == conf.autoRequire
    ensures r.1 == AlreadyRegistered ==> r.0 == reg
    ensures r.1 == Registered ==>
      var p := h.resolve(conf.modulePath);
      p in r.0 && r.0[p].onChange == (if p in reg then reg[p].onChange else []) + [Registration(conf.onChange.f, conf.id)]
      && r.0[p].owner == (if p in reg then reg[p].owner else None)
      && forall q :: q != p ==> (q in r.0 <==> q in reg) && (q in reg ==> r.0[q] == reg[q])
  {
    if !Truthy(conf.modulePath) || !conf.onChange.Callable? then (reg, BadArguments, false)
    else
      var p := h.resolve(conf.modulePath);
      var dup := p in reg && Truthy(conf.id) && DuplicateAsWritten(reg[p], conf.id, h);
      var (reg', res) := RegisterChange(reg, p, conf, dup);
      (reg', res, conf.autoRequire)
  }

  /** `runOnChange` with the duplicate test reading the id each callback was registered under. */
  function RunOnChangeCorrected(reg: map<string, HotEntry>, conf: OnChangeConf, h: Host): (r: (map<string, HotEntry>, RunResult, bool))
    ensures !Truthy(conf.modulePath) || !conf.onChange.Callable? <==> r.1 == BadArguments
    ensures r.1 == BadArguments ==> r.0 == reg && !r.2
    ensures r.1 == AlreadyRegistered <==>
      Truthy(conf.modulePath) && conf.onChange.Callable? && Truthy(conf.id)
      && h.resolve(conf.modulePath) in reg && Duplicate(reg[h.resolve(conf.modulePath)], conf.id)
  {
    if !Truthy(conf.modulePath) || !conf.onChange.Callable? then (reg, BadArguments, false)
    else
      var p := h.resolve(conf.modulePath);
      var dup := p in reg && Truthy(conf.id) && Duplicate(reg[p], conf.id);
      var (reg', res) := RegisterChange(reg, p, conf, dup);
      (reg', res, conf.autoRequire)
  }

  /** Every truthy registration id occurs at most once per module path. */
  predicate IdsUnique(reg: map<string, HotEntry>) {
    forall p, i, j :: p in reg && 0 <= i < j < |reg[p].onChange| && Truthy(reg[p].onChange[i].id)
      ==> reg[p].onChange[i].id != reg[p].onChange[j].id
  }

  /** With the corrected test, registering under an id never leaves two callbacks with that id. */
  lemma CorrectedKeepsIdsUnique(reg: map<string, HotEntry>, conf: OnChangeConf, h: Host)
    requires IdsUnique(reg)
    ensures IdsUnique(RunOnChangeCorrected(reg, conf, h).0)
  {
    var r := RunOnChangeCorrected(reg, conf, h);
    if r.1 == Registered {
      var p := h.resolve(conf.modulePath);
      var old_ := if p in reg then reg[p].onChange else [];
      assert r.0[p].onChange == old_ + [Registration(conf.onChange.f, conf.id)];
      forall q, i, j | q in r.0 && 0 <= i < j < |r.0[q].onChange| && Truthy(r.0[q].onChange[i].id)
        ensures r.0[q].onChange[i].id != r.0[q].onChange[j].id
      {
        if q == p && j == |old_| {
          assert r.0[q].onChange[i] == old_[i];
          assert !(Truthy(conf.id) && p in reg && Duplicate(reg[p], conf.id));
          if Truthy(conf.id) && p in reg {
            assert reg[p].onChange[i].id != conf.id;
          }
        }
      }
    }
  }

  /**
   * As written, the duplicate test reads a property no callback carries: two
   * registrations under the same id from fresh functions both land in the
   * registry, and a change runs both.
   */
  lemma SameIdRegisteredTwice(h: Host)
    requires forall f :: h.idProp(f) == Undef
    ensures
      var conf1 := OnChangeConf(Str("./page"), Callable(1), Str("page"), false);
      var conf2 := OnChangeConf(Str("./page"), Callable(2), Str("page"), false);
      var s1 := RunOnChange(map[], conf1, h).0;
      var s2 := RunOnChange(s1, conf2, h);
      s2.1 == Registered && !IdsUnique(s2.0)
      && RunOnChangeCorrected(RunOnChangeCorrected(map[], conf1, h).0, conf2, h).1 == AlreadyRegistered
  {
    var conf1 := OnChangeConf(Str("./page"), Callable(1), Str("page"), false);
    var conf2 := OnChangeConf(Str("./page"), Callable(2), Str("page"), false);
    var p := h.resolve(Str("./page"));
    var s1 := RunOnChange(map[], conf1, h).0;
    assert s1[p].onChange == [Registration(1, Str("page"))];
    assert !DuplicateAsWritten(s1[p], Str("page"), h);
    var s2 := RunOnChange(s1, conf2, h).0;
    assert s2[p].onChange == [Registration(1, Str("page")), Registration(2, Str("page"))];
    assert s2[p].onChange[0].id == s2[p].onChange[1].id;
    var c1 := RunOnChangeCorrected(map[], conf1, h).0;
    assert c1[p].onChange[0].id == Str("page");
  }

  /** The argument of `addToWatch`: a falsy value, a path looked up in `require.cache`, or a module object. */
  datatype ModRef = Falsy | ByPath(path: string) | ByObject(m: ModuleObj)

  /** `false` for no module or a skipped one, `undefined` once registered, or the TypeError of writing into a missing entry. */
  datatype AddResult = NoModule | Skipped | Added | TypeError

  function ModuleOf(ref: ModRef, h: Host): Option<ModuleObj> {
    match ref
    case Falsy => None
    case ByPath(p) => h.cache(p)
    case ByObject(m) => Some(m)
  }

  /** The skip test: the same module object already registered, an ignored path, or the hot-reload module itself. */
  predicate SkipWatch(s: HotState, m: ModuleObj, h: Host) {
    (m.filename in s.hotSet && s.hotSet[m.filename].owner == Some(m))
    || NeedIgnore(m.filename, h) || m.filename == h.self
  }

  /**
   * `addToWatch(module)` as written: a new path gets an entry and a watch
   * only when `disableWatch` is exactly `false`; the module then gets its
   * `hot` object, and the entry's `module` is reg, which throws when no
   * entry exists.
   */
  function AddToWatch(s: HotState, ref: ModRef, h: Host): (r: (HotState, AddResult))
    ensures ModuleOf(ref, h).None? <==> r.1 == NoModule
    ensures r.1 == NoModule || r.1 == Skipped ==> r.0 == s
    ensures ModuleOf(ref, h).Some? ==> (r.1 == Skipped <==> SkipWatch(s, ModuleOf(ref, h).value, h))
    ensures r.1 == Added ==>
      var m := ModuleOf(ref, h).value;
      m.filename in r.0.hotSet && r.0.hotSet[m.filename].owner == Some(m) && m.ref in r.0.hooked
    ensures r.1 == TypeError <==>
      ModuleOf(ref, h).Some? && !SkipWatch(s, ModuleOf(ref, h).value, h)
      && ModuleOf(ref, h).value.filename !in s.hotSet && h.opts.disableWatch != Bool(false)
    ensures r.0.parents == s.parents
  {
    var mo := ModuleOf(ref, h);
    if mo.None? then (s, NoModule)
    else
      var m := mo.value;
      var p := m.filename;
      if SkipWatch(s, m, h) then (s, Skipped)
      else
        var s1 := if p !in s.hotSet && h.opts.disableWatch == Bool(false)
          then s.(hotSet := s.hotSet[p := HotEntry([], Some(m))], watched := s.watched + [p])
          else s;
        var s2 := s1.(hooked := s1.hooked + {m.ref});
        if p in s2.hotSet then (s2.(hotSet := s2.hotSet[p := s2.hotSet[p].(owner := Some(m))]), Added)
        else (s2, TypeError)
  }

  /** `addToWatch` creating the entry whenever it is missing, and watching the path only when watching is on. */
  function AddToWatchCorrected(s: HotState, ref: ModRef, h: Host): (r: (HotState, AddResult))
    ensures r.1 != TypeError
    ensures ModuleOf(ref, h).None? <==> r.1 == NoModule
    ensures r.1 == NoModule || r.1 == Skipped ==> r.0 == s
    ensures ModuleOf(ref, h).Some? ==> (r.1 == Skipped <==> SkipWatch(s, ModuleOf(ref, h).value, h))
    ensures r.1 == Added ==>
      var m := ModuleOf(ref, h).value;
      m.filename in r.0.hotSet && r.0.hotSet[m.filename].owner == Some(m) && m.ref in r.0.hooked
      && (m.filename in r.0.watched <==> m.filename in s.watched || (m.filename !in s.hotSet && h.opts.disableWatch == Bool(false)))
  {
    var mo := ModuleOf(ref, h);
    if mo.None? then (s, NoModule)
    else
      var m := mo.value;
      var p := m.filename;
      if SkipWatch(s, m, h) then (s, Skipped)
      else
        var watched := if p !in s.hotSet && h.opts.disableWatch == Bool(false) then s.watched + [p] else s.watched;
        var e := if p in s.hotSet then s.hotSet[p] else HotEntry([], None);
        (s.(hotSet := s.hotSet[p := e.(owner := Some(m))], watched := watched, hooked := s.hooked + {m.ref}), Added)
  }

  /** Registering a module twice is harmless: the second call finds it registered and changes nothing. */
  lemma AddToWatchSettles(s: HotState, ref: ModRef, h: Host)
    requires AddToWatch(s, ref, h).1 == Added
    ensures AddToWatch(AddToWatch(s, ref, h).0, ref, h) == (AddToWatch(s, ref, h).0, Skipped)
  {
  }

  /** The same for the corrected registration, which always reaches `Added` for a module it does not skip. */
  lemma AddToWatchCorrectedSettles(s: HotState, ref: ModRef, h: Host)
    requires AddToWatchCorrected(s, ref, h).1 == Added
    ensures AddToWatchCorrected(AddToWatchCorrected(s, ref, h).0, ref, h) == (AddToWatchCorrected(s, ref, h).0, Skipped)
  {
  }

  /**
   * With watching disabled, the first `addToWatch` of any module that is not
   * skipped throws as written, while the corrected registration records it.
   */
  lemma DisabledWatchThrows(s: HotState, m: ModuleObj, h: Host)
    requires h.opts.disableWatch == Bool(true)
    requires m.filename !in s.hotSet && !NeedIgnore(m.filename, h) && m.filename != h.self
    ensures AddToWatch(s, ByObject(m), h).1 == TypeError
    ensures AddToWatchCorrected(s, ByObject(m), h).1 == Added
    ensures AddToWatchCorrected(s, ByObject(m), h).0.watched == s.watched
  {
  }

  // ---------------------------------------------------------------------
  // collectToParentModuleSet
  // ---------------------------------------------------------------------

  /** The loading parent module as the hook sees it: its `filename` and `id` (the empty text when unset). */
  datatype Parent = Parent(filename: string, id: string)

  function ParentKey(p: Parent): string {
    if p.filename != "" then p.filename else p.id
  }

  /** Whether a load is skipped: no parent, an ignored path, or the hot-reload module itself. */
  predicate SkipParent(path: string, parent: Option<Parent>, h: Host) {
    parent.None? || NeedIgnore(path, h) || path == h.self
  }

  /** Every reg of the first map is kept, possibly grown, in the second. */
  predicate Grows(a: map<string, set<string>>, b: map<string, set<string>>) {
    forall k :: k in a ==> k in b && a[k] <= b[k]
  }

  /**
   * `collectToParentModuleSet(modulePath, parent)`: records that the parent
   * loaded the path, under the parent's `filename || id`; the path's reg is
   * created even when that key is empty.
   */
  function CollectParent(parents: map<string, set<string>>, path: string, parent: Option<Parent>, h: Host): (r: map<string, set<string>>)
    ensures SkipParent(path, parent, h) ==> r == parents
    ensures !SkipParent(path, parent, h) ==>
      path in r && (ParentKey(parent.value) != "" ==> ParentKey(parent.value) in r[path])
      && r[path] - (if path in parents then parents[path] else {}) <= {ParentKey(parent.value)}
    ensures Grows(parents, r)
    ensures forall k :: k in r && k != path ==> k in parents && r[k] == parents[k]
  {
    if SkipParent(path, parent, h) then parents
    else
      var current := if path in parents then parents[path] else {};
      var key := ParentKey(parent.value);
      parents[path := if key != "" then current + {key} else current]
  }

  /** A module load as the loader hook reports it. */
  datatype Load = Load(path: string, parent: Option<Parent>)

  /** The parent sets after a sequence of loads. */
  function CollectAll(parents: map<string, set<string>>, loads: seq<Load>, h: Host): map<string, set<string>>
    decreases |loads|
  {
    if loads == [] then parents
    else CollectAll(CollectParent(parents, loads[0].path, loads[0].parent, h), loads[1..], h)
  }

  /** A load that records its parent's key. */
  predicate Records(ld: Load, h: Host) {
    !SkipParent(ld.path, ld.parent, h) && ParentKey(ld.parent.value) != ""
  }

  /**
   * The parent sets only grow: after any sequence of loads every earlier
   * entry is still there, and every parent that loaded a watched path is
   * listed under it.
   */
  lemma {:induction false} CollectAllGrows(parents: map<string, set<string>>, loads: seq<Load>, h: Host)
    ensures Grows(parents, CollectAll(parents, loads, h))
    ensures forall i :: 0 <= i < |loads| && Records(loads[i], h) ==>
      loads[i].path in CollectAll(parents, loads, h) && ParentKey(loads[i].parent.value) in CollectAll(parents, loads, h)[loads[i].path]
    decreases |loads|
  {
    if loads != [] {
      var p1 := CollectParent(parents, loads[0].path, loads[0].parent, h);
      CollectAllGrows(p1, loads[1..], h);
      var r := CollectAll(parents, loads, h);
      assert r == CollectAll(p1, loads[1..], h);
      forall i | 0 <= i < |loads| && Records(loads[i], h)
        ensures loads[i].path in r && ParentKey(loads[i].parent.value) in r[loads[i].path]
      {
        if i > 0 {
          assert loads[1..][i - 1] == loads[i];
        }
      }
    }
  }

  // ---------------------------------------------------------------------
  // searchChildrenModule
  // ---------------------------------------------------------------------

  /** The deepest level whose children are still examined. */
  const TraverseLimit: nat := 20

  /**
   * A loaded module as the search sees it: `id`, `filename` (the empty text
   * when unset), `path` (its directory) and its children, as indices into
   * the module graph.
   */
  datatype ModNode = ModNode(id: string, filename: string, path: string, children: seq<nat>)

  type Graph = seq<ModNode>

  /** Every child index names a module of the graph. */
  predicate WellFormed(g: Graph) {
    forall n, j :: 0 <= n < |g| && 0 <= j < |g[n].children| ==> g[n].children[j] < |g|
  }

  /** The key a found module is recorded under: `filename || id`. */
  function Key(m: ModNode): string {
    if m.filename != "" then m.filename else m.id
  }

  /** The whitespace characters of JavaScript regular expressions (`\s`). */
  predicate IsSpace(c: char) {
    c == ' ' || c == '\t' || c == '\n' || c == '\r' || c == '\U{000B}' || c == '\U{000C}'
    || c == '\U{00A0}' || c == '\U{1680}' || ('\U{2000}' <= c <= '\U{200A}')
    || c == '\U{2028}' || c == '\U{2029}' || c == '\U{202F}' || c == '\U{205F}' || c == '\U{3000}' || c == '\U{FEFF}'
  }

  /** `/\S+node_modules\S+/.test(path)`: `node_modules` with a non-space character on each side. */
  predicate InNodeModules(path: string) {
    exists i :: 0 <= i < |path| && NodeModulesAt(path, i)
  }

  /** `node_modules` starts at index `i`, with a non-space character right before and right after it. */
  predicate NodeModulesAt(path: string, i: int) {
    1 <= i && i + 12 < |path| && path[i..i + 12] == "node_modules"
    && !IsSpace(path[i - 1]) && !IsSpace(path[i + 12])
  }

  /** The modules reachable through the listed children in at most `k` steps, the listed ones taking one. */
  function Below(g: Graph, cs: seq<nat>, k: nat): (r: set<nat>)
    requires WellFormed(g) && forall j :: 0 <= j < |cs| ==> cs[j] < |g|
    ensures forall m :: m in r ==> m < |g|
    decreases k, |cs|
  {
    if k == 0 || cs == [] then {}
    else {cs[0]} + Below(g, g[cs[0]].children, k - 1) + Below(g, cs[1..], k)
  }

  /** A listed child is reachable in one step, and whatever its children reach in `k - 1` steps is reachable in `k`. */
  lemma {:induction false} BelowStep(g: Graph, cs: seq<nat>, j: nat, k: nat)
    requires WellFormed(g) && (forall i :: 0 <= i < |cs| ==> cs[i] < |g|)
    requires j < |cs| && k >= 1
    ensures cs[j] in Below(g, cs, k)
    ensures Below(g, g[cs[j]].children, k - 1) <= Below(g, cs, k)
    decreases j
  {
    if j > 0 {
      BelowStep(g, cs[1..], j - 1, k);
      assert cs[1..][j - 1] == cs[j];
    }
  }

  /** A key found for some module reachable through the children within the bound, outside `node_modules`. */
  predicate FoundBelow(g: Graph, cs: seq<nat>, k: nat, key: string)
    requires WellFormed(g) && forall j :: 0 <= j < |cs| ==> cs[j] < |g|
  {
    exists m :: m in Below(g, cs, k) && Key(g[m]) == key && !InNodeModules(g[m].path)
  }

  /**
   * `traverse(mod, deep)`: below the depth limit, look at each child in
   * order and, unless it lies in `node_modules` or its id is already
   * recorded, record its key and descend.
   */
  function Traverse(g: Graph, n: nat, deep: nat, seen: set<string>): (r: set<string>)
    requires WellFormed(g) && n < |g| && deep <= TraverseLimit + 1
    ensures seen <= r
    ensures deep > TraverseLimit ==> r == seen
    ensures forall key :: key in r && key !in seen ==> FoundBelow(g, g[n].children, TraverseLimit + 1 - deep, key)
    ensures deep <= TraverseLimit ==> forall j :: 0 <= j < |g[n].children| && !InNodeModules(g[g[n].children[j]].path) ==>
      g[g[n].children[j]].id in r || Key(g[g[n].children[j]]) in r
    decreases TraverseLimit + 1 - deep, 1, 0
  {
    if deep > TraverseLimit then seen else Visit(g, n, 0, deep, seen)
  }

  /** The `forEach` over a module's children from the `i`-th on. */
  function Visit(g: Graph, n: nat, i: nat, deep: nat, seen: set<string>): (r: set<string>)
    requires WellFormed(g) && n < |g| && i <= |g[n].children| && deep <= TraverseLimit
    ensures seen <= r
    ensures forall key :: key in r && key !in seen ==> FoundBelow(g, g[n].children, TraverseLimit + 1 - deep, key)
    ensures forall j :: i <= j < |g[n].children| && !InNodeModules(g[g[n].children[j]].path) ==>
      g[g[n].children[j]].id in r || Key(g[g[n].children[j]]) in r
    decreases TraverseLimit + 1 - deep, 0, |g[n].children| - i
  {
    var cs := g[n].children;
    if i == |cs| then seen
    else
      var c := cs[i];
      var seen1 := if !InNodeModules(g[c].path) && g[c].id !in seen then Traverse(g, c, deep + 1, seen + {Key(g[c])}) else seen;
      var r := Visit(g, n, i + 1, deep, seen1);
      BelowStep(g, cs, i, TraverseLimit + 1 - deep);
      r
  }

  /**
   * `searchChildrenModule(modulePath)`: the keys of the modules found below
   * the given one (none when it is not loaded).
   */
  function SearchChildren(g: Graph, root: Option<nat>): (r: set<string>)
    requires WellFormed(g) && (root.Some? ==> root.value < |g|)
    ensures root.None? ==> r == {}
    ensures root.Some? ==> forall key :: key in r ==> FoundBelow(g, g[root.value].children, TraverseLimit + 1, key)
    ensures root.Some? ==> forall j :: 0 <= j < |g[root.value].children| && !InNodeModules(g[g[root.value].children[j]].path) ==>
      g[g[root.value].children[j]].id in r || Key(g[g[root.value].children[j]]) in r
  {
    if root.None? then {} else Traverse(g, root.value, 0, {})
  }
}

=== FILE: intercepter.dfy ===
/**
 * Request interception setup (bin/pptr/intercepter.js): installed once per
 * page, and, until a first request is recorded, a reload of the page when
 * interception appears to have started late, at most twice.
 */
module Intercepter {
  /** The most automatic reloads a page gets. */
  const MaxReloads: nat := 2

  /** The lifecycle listeners registered on the first recorded request. */
  const LifecycleListeners: nat := 4

  /**
   * The flags `setIntercepter` and the request listener keep on a page:
   * `_isSetRequestInterception_`, `_firstReques_` (the empty text while
   * unset, as the source treats it as falsy), `_autoReloadCount_` and
   * `_globalInit_`, with the listeners registered so far.
   */
  datatype Page = Page(
    interceptSet: bool,
    firstRequest: string,
    reloads: nat,
    globalInit: bool,
    requestListeners: nat,
    lifecycleListeners: nat)

  const NewPage := Page(false, "", 0, false, 0, 0)

  /** `setIntercepter(page)` for a page that may or may not support interception. */
  function SetIntercepter(p: Page, supportsInterception: bool): (p': Page)
    ensures p'.requestListeners == p.requestListeners + (if supportsInterception && !p.interceptSet then 1 else 0)
    ensures p'.interceptSet == (p.interceptSet || supportsInterception)
    ensures p'.firstRequest == p.firstRequest && p'.reloads == p.reloads && p'.globalInit == p.globalInit
    ensures p'.lifecycleListeners == p.lifecycleListeners
  {
    if supportsInterception && !p.interceptSet then p.(interceptSet := true, requestListeners := p.requestListeners + 1)
    else p
  }

  /** What the request listener did besides handing the request on. */
  datatype Step = Reloaded | Recorded | Passed

  /** Whether the first-request check reloads: not a document, not the page's own url, and reloads left. */
  predicate NeedReload(p: Page, resourceType: string, pageUrl: string, reqUrl: string) {
    resourceType != "document" && pageUrl != reqUrl && p.reloads < MaxReloads
  }

  /**
   * The request listener: while no first request is recorded, reload or
   * record this one (registering the lifecycle listeners once); then the
   * request always goes to `requestHandler`, which the model leaves to the
   * request handler module.
   */
  function OnRequest(p: Page, resourceType: string, pageUrl: string, reqUrl: string): (r: (Page, Step))
    ensures p.firstRequest != "" ==> r == (p, Passed)
    ensures p.firstRequest == "" ==> (r.1 == Reloaded <==> NeedReload(p, resourceType, pageUrl, reqUrl))
    ensures r.1 == Reloaded ==> r.0 == p.(reloads := p.reloads + 1)
    ensures r.1 == Recorded ==> r.0.firstRequest == reqUrl && r.0.globalInit && r.0.reloads == p.reloads
    ensures r.0.interceptSet == p.interceptSet && r.0.requestListeners == p.requestListeners
  {
    if p.firstRequest != "" then (p, Passed)
    else if NeedReload(p, resourceType, pageUrl, reqUrl) then (p.(reloads := p.reloads + 1), Reloaded)
    else
      var p1 := p.(firstRequest := reqUrl);
      if !p1.globalInit then (p1.(globalInit := true, lifecycleListeners := p1.lifecycleListeners + LifecycleListeners), Recorded)
      else (p1, Recorded)
  }

  /** The page's flags stay consistent: reloads bounded, lifecycle listeners registered with the flag, interception once. */
  predicate Inv(p: Page) {
    p.reloads <= MaxReloads
    && p.lifecycleListeners == (if p.globalInit then LifecycleListeners else 0)
    && p.requestListeners == (if p.interceptSet then 1 else 0)
  }

  /** A request as the listener sees it. */
  datatype Request = Request(resourceType: string, pageUrl: string, url: string)

  /**
   * Events on a page: `setIntercepter` calls, intercepted requests, and the
   * settling of the `page.reload()` the `i`-th waiting request awaits
   * (resolved or rejected).
   */
  datatype Event = Setup(supportsInterception: bool) | Intercepted(req: Request) | ReloadSettled(i: nat, resolved: bool)

  /**
   * The page, the requests whose listener is awaiting `page.reload()`, the
   * requests handed to `requestHandler` in the order they reached it, and
   * the requests whose listener threw because the reload rejected, so that
   * they never reach it.
   */
  datatype Trace = Trace(page: Page, parked: seq<Request>, handled: seq<Request>, dropped: seq<Request>)

  /** The requests among the events, in order. */
  function RequestsOf(events: seq<Event>): (r: seq<Request>)
    ensures |r| <= |events|
    ensures forall q :: q in r <==> Intercepted(q) in events
  {
    if events == [] then []
    else
      var rest := RequestsOf(events[1..]);
      assert forall e :: e in events <==> e == events[0] || e in events[1..];
      if events[0].Intercepted? then [events[0].req] + rest else rest
  }

  /** Every request the trace has seen, wherever it is. */
  function Seen(t: Trace): seq<Request> {
    t.parked + t.handled + t.dropped
  }

  /**
   * One event. A request that reloads the page waits for the reload before
   * `await requestHandler(req, page)`; any other request reaches it at once.
   */
  function Advance(t: Trace, e: Event): (r: Trace)
    ensures |t.handled| <= |r.handled| && r.handled[..|t.handled|] == t.handled
    ensures |t.dropped| <= |r.dropped| && r.dropped[..|t.dropped|] == t.dropped
    ensures |Seen(r)| == |Seen(t)| + (if e.Intercepted? then 1 else 0)
  {
    match e
    case Setup(ok) => t.(page := SetIntercepter(t.page, ok))
    case Intercepted(q) =>
      var (p1, step) := OnRequest(t.page, q.resourceType, q.pageUrl, q.url);
      if step == Reloaded then t.(page := p1, parked := t.parked + [q])
      else t.(page := p1, handled := t.handled + [q])
    case ReloadSettled(i, ok) =>
      if i >= |t.parked| then t
      else
        var q := t.parked[i];
        var rest := t.parked[..i] + t.parked[i + 1..];
        if ok then t.(parked := rest, handled := t.handled + [q])
        else t.(parked := rest, dropped := t.dropped + [q])
  }

  /** The trace after the events. */
  function Run(t: Trace, events: seq<Event>): (r: Trace)
    ensures |t.handled| <= |r.handled| && r.handled[..|t.handled|] == t.handled
    ensures |t.dropped| <= |r.dropped| && r.dropped[..|t.dropped|] == t.dropped
    ensures |Seen(r)| == |Seen(t)| + |RequestsOf(events)|
    decreases |events|
  {
    if events == [] then t
    else
      var r := Run(Advance(t, events[0]), events[1..]);
      assert r.handled[..|t.handled|] == r.handled[..|Advance(t, events[0]).handled|][..|t.handled|];
      assert r.dropped[..|t.dropped|] == r.dropped[..|Advance(t, events[0]).dropped|][..|t.dropped|];
      r
  }

  /** A new page's trace: nothing seen yet. */
  const Empty := Trace(NewPage, [], [], [])

  /** The page's flags stay consistent, and no more requests wait on a reload than reloads happened. */
  predicate TraceInv(t: Trace) {
    Inv(t.page) && |t.parked| <= t.page.reloads
  }

  lemma StepKeepsInv(t: Trace, e: Event)
    requires TraceInv(t)
    ensures TraceInv(Advance(t, e))
  {
    match e
    case Setup(ok) =>
    case Intercepted(q) =>
    case ReloadSettled(i, ok) =>
  }

  /** Settling a reload moves one waiting request and loses none. */
  lemma SettleConserves(t: Trace, i: nat, ok: bool)
    requires i < |t.parked|
    ensures multiset(Seen(Advance(t, ReloadSettled(i, ok)))) == multiset(Seen(t))
  {
    var q := t.parked[i];
    var rest := t.parked[..i] + t.parked[i + 1..];
    assert t.parked == t.parked[..i] + [q] + t.parked[i + 1..];
    assert multiset(t.parked) == multiset(rest) + multiset{q};
  }

  /** Each step keeps every request it has seen and adds the one it intercepts. */
  lemma StepConserves(t: Trace, e: Event)
    ensures multiset(Seen(Advance(t, e))) == multiset(Seen(t)) + (if e.Intercepted? then multiset{e.req} else multiset{})
  {
    match e
    case Setup(ok) =>
    case Intercepted(q) =>
      var r := Advance(t, e);
      assert r.parked + r.handled == t.parked + t.handled + [q] || r.parked + r.handled == t.parked + [q] + t.handled;
      assert r.dropped == t.dropped;
    case ReloadSettled(i, ok) =>
      if i < |t.parked| {
        SettleConserves(t, i, ok);
      }
  }

  /**
   * Over any sequence of setups, requests and reloads settling:
   * interception and its listener are installed at most once, the
   * lifecycle listeners at most once, there are at most two reloads, at
   * most two requests wait on one, and no request is lost or duplicated:
   * each one is waiting, handled, or dropped.
   */
  lemma {:induction false} RunKeepsInv(t: Trace, events: seq<Event>)
    requires TraceInv(t)
    ensures TraceInv(Run(t, events))
    ensures multiset(Seen(Run(t, events))) == multiset(Seen(t)) + multiset(RequestsOf(events))
    decreases |events|
  {
    if events != [] {
      StepKeepsInv(t, events[0]);
      StepConserves(t, events[0]);
      RunKeepsInv(Advance(t, events[0]), events[1..]);
      if events[0].Intercepted? {
        assert multiset(RequestsOf(events)) == multiset{events[0].req} + multiset(RequestsOf(events[1..]));
      }
    }
  }

  /**
   * Once a first request is recorded and no request waits on a reload,
   * every later request reaches `requestHandler`, in the order it arrived,
   * and the first request and the reload count stay as they are.
   */
  lemma {:induction false} RecordedInOrder(t: Trace, events: seq<Event>)
    requires t.page.firstRequest != "" && t.parked == []
    ensures var r := Run(t, events);
            r.handled == t.handled + RequestsOf(events) && r.parked == [] && r.dropped == t.dropped
            && r.page.firstRequest == t.page.firstRequest && r.page.reloads == t.page.reloads
    decreases |events|
  {
    if events != [] {
      var t1 := Advance(t, events[0]);
      match events[0] {
        case Setup(ok) =>
          assert t1 == t.(page := SetIntercepter(t.page, ok));
          assert RequestsOf(events) == RequestsOf(events[1..]);
        case Intercepted(q) =>
          assert t1 == t.(handled := t.handled + [q]);
          assert RequestsOf(events) == [q] + RequestsOf(events[1..]);
          assert t1.handled + RequestsOf(events[1..]) == t.handled + RequestsOf(events);
        case ReloadSettled(i, ok) =>
          assert t1 == t;
          assert RequestsOf(events) == RequestsOf(events[1..]);
      }
      RecordedInOrder(t1, events[1..]);
      assert Run(t, events) == Run(t1, events[1..]);
    }
  }

  /**
   * A request that reloads the page reaches `requestHandler` after a
   * request that arrives while the reload is pending.
   */
  lemma ReloadReorders(a: Request, b: Request)
    requires a.resourceType != "document" && a.pageUrl != a.url && b.resourceType == "document"
    ensures Run(Empty, [Setup(true), Intercepted(a), Intercepted(b), ReloadSettled(0, true)]).handled == [b, a]
  {
    var t1 := Advance(Empty, Setup(true));
    var t2 := Advance(t1, Intercepted(a));
    assert t2.parked == [a] && t2.handled == [];
    var t3 := Advance(t2, Intercepted(b));
    assert t3.handled == [b];
    var t4 := Advance(t3, ReloadSettled(0, true));
    assert t4.handled == [b, a];
    assert Run(t3, [ReloadSettled(0, true)]) == t4;
    assert Run(t2, [Intercepted(b), ReloadSettled(0, true)]) == t4;
    assert Run(t1, [Intercepted(a), Intercepted(b), ReloadSettled(0, true)]) == t4;
  }

  /** A request whose reload rejects never reaches `requestHandler`. */
  lemma ReloadRejectDrops(a: Request)
    requires a.resourceType != "document" && a.pageUrl != a.url
    ensures var r := Run(Empty, [Setup(true), Intercepted(a), ReloadSettled(0, false)]);
            r.handled == [] && r.dropped == [a]
  {
    var t1 := Advance(Empty, Setup(true));
    var t2 := Advance(t1, Intercepted(a));
    assert t2.parked == [a];
    var t3 := Advance(t2, ReloadSettled(0, false));
    assert Run(t2, [ReloadSettled(0, false)]) == t3;
    assert Run(t1, [Intercepted(a), ReloadSettled(0, false)]) == t3;
  }
}

=== FILE: js.dfy ===
/**
 * JavaScript values and the coercions the modelled code relies on.
 *
 * Numbers are integers: every number the cache core stores or compares is a
 * millisecond timestamp, a count or a length. Functions and regular
 * expressions never reach the store; where the rule-matching code holds them,
 * its own module gives them a datatype.
 */
module Js {

  datatype Option<+T> = None | Some(value: T)

  datatype Result<+T, +E> = Ok(value: T) | Err(error: E)

  datatype Value =
    | Undef
    | Null
    | Bool(b: bool)
    | Num(n: int)
    | Str(s: string)
    | Obj(fields: map<string, Value>)
    | Arr(items: seq<Value>)

  /** JavaScript truthiness: `undefined`, `null`, `false`, `0` and `''` are falsy. */
  predicate Truthy(v: Value) {
    match v
    case Undef => false
    case Null => false
    case Bool(b) => b
    case Num(n) => n != 0
    case Str(s) => s != ""
    case Obj(_) => true
    case Arr(_) => true
  }

  /** Property read `v[k]`: `undefined` unless `v` is an object holding `k`. */
  function Get(v: Value, k: string): Value {
    if v.Obj? && k in v.fields then v.fields[k] else Undef
  }

  /** `argToArr(x)`: the array itself, or a one-element array holding `x`. */
  function ArgToArr(v: Value): seq<Value> {
    if v.Arr? then v.items else [v]
  }

  function DigitChar(d: nat): char
    requires d < 10
  {
    "0123456789"[d]
  }

  function NatToString(n: nat): string
    decreases n
  {
    if n < 10 then [DigitChar(n)] else NatToString(n / 10) + [DigitChar(n % 10)]
  }

  function IntToString(n: int): string {
    if n < 0 then "-" + NatToString(-n) else NatToString(n)
  }

  /** `String(v)`, the text every fingerprint is computed over. */
  function JsString(v: Value): string
    decreases v
  {
    match v
    case Undef => "undefined"
    case Null => "null"
    case Bool(b) => if b then "true" else "false"
    case Num(n) => IntToString(n)
    case Str(s) => s
    case Obj(_) => "[object Object]"
    case Arr(items) => JoinFrom(v, 0)
  }

  /** `Array.prototype.join(',')` from index `i` on, `null`/`undefined` as empty text. */
  function JoinFrom(whole: Value, i: nat): string
    requires whole.Arr? && i <= |whole.items|
    decreases whole, |whole.items| - i
  {
    if i == |whole.items| then ""
    else
      var x := whole.items[i];
      var head := if x.Undef? || x.Null? then "" else JsString(x);
      if i + 1 == |whole.items| then head else head + "," + JoinFrom(whole, i + 1)
  }

  /** `s.includes(t)`: `t` occurs in `s` as a contiguous substring. */
  predicate Includes(s: string, t: string) {
    exists i :: 0 <= i <= |s| - |t| && StartsWith(s[i..], t)
  }

  predicate StartsWith(s: string, prefix: string) {
    |prefix| <= |s| && s[..|prefix|] == prefix
  }

  function Count<T(==)>(s: seq<T>, x: T): nat {
    if s == [] then 0 else (if s[0] == x then 1 else 0) + Count(s[1..], x)
  }
}

=== FILE: pipeline.dfy ===
/**
 * The ordered work queue of `Pipeline` (bin/Pipeline.js) as a state machine.
 *
 * Pushing appends to the queue and starts a drain unless one is running. The
 * drain takes items from the head one at a time and waits for the handler's
 * promise before taking the next. The asynchronous scheduler is replaced by
 * explicit events: a push, the completion of the handler call in flight, and
 * the resumption of `_handler` after `handle` has returned (which resets
 * `isWorking`).
 */
module Pipeline {
  import opened Js

  /** What happens to a handler rejection. */
  datatype ErrorPath =
    | Reported           // `onerror` is a function and its promise fulfilled; the default is an async no-op
    | ReportRejected     // `onerror`'s promise rejected: that error is caught and logged
    | Logged             // `onerror` is not a function: the error is logged
    | ReportNotThenable  // `onerror` returned a non-promise, so calling `.catch` on its result throws

  /** How one handler call ended, as seen by the drain loop. */
  datatype Outcome =
    | Resolved
    | Rejected(path: ErrorPath)
    | NotThenable        // the handler threw synchronously or returned a non-promise: `.catch` is not callable

  /** The promise chain awaited for one item itself rejects, which rejects the whole pass. */
  predicate AbortsPass(o: Outcome) {
    o.NotThenable? || o == Rejected(ReportNotThenable)
  }

  datatype Handled<T> = Handled(item: T, outcome: Outcome)

  /**
   * A usable instance. `inflight` is the item whose handler call is awaited;
   * `passLeft` counts the calls left in the current pass of `handle`, the one
   * in flight included; `done` logs every finished call in order.
   */
  datatype Pipe<T> = Pipe(queue: seq<T>, inflight: Option<T>, working: bool, passLeft: nat, done: seq<Handled<T>>)

  /** The constructor returns early, leaving `dataQueue` unset, when the handler is not a function. */
  datatype Instance<T> = Unusable | Usable(pipe: Pipe<T>)

  datatype Error = QueueMissing   // `this.dataQueue.push` on an unset queue throws a TypeError

  datatype Event<T> =
    | Push(item: T)
    | Complete(outcome: Outcome)   // the awaited handler call of the item in flight settles
    | Settle                       // `_handler` resumes after `handle` returned and resets `isWorking`

  function Opt<T>(o: Option<T>): seq<T> {
    if o.Some? then [o.value] else []
  }

  /** Items pushed but not yet handed back by a handler call, in order. */
  function Pending<T>(p: Pipe<T>): seq<T> {
    Opt(p.inflight) + p.queue
  }

  function Items<T>(log: seq<Handled<T>>): seq<T> {
    if log == [] then [] else Items(log[..|log| - 1]) + [log[|log| - 1].item]
  }

  function Empty<T>(): Pipe<T> {
    Pipe([], None, false, 0, [])
  }

  /** `new Pipeline(handler, onerror)`. */
  function Construct<T>(handlerIsFunction: bool): (inst: Instance<T>)
    ensures inst.Usable? <==> handlerIsFunction
    ensures inst.Usable? ==> inst.pipe.queue == [] && !inst.pipe.working && inst.pipe.done == []
  {
    if handlerIsFunction then Usable(Empty()) else Unusable
  }

  /** A pass of `handle`: remember the queue length, then shift the head into the handler. */
  function StartPass<T>(queue: seq<T>, done: seq<Handled<T>>): (p: Pipe<T>)
    requires |queue| > 0
    ensures Pending(p) == queue && p.working && p.inflight.Some?
  {
    Pipe(queue[1..], Some(queue[0]), true, |queue|, done)
  }

  /**
   * What every reachable state satisfies: a call is in flight only during a
   * drain, and the current pass never outlasts the queue.
   */
  predicate Inv<T>(p: Pipe<T>) {
    && (p.inflight.Some? ==> p.working && 1 <= p.passLeft <= |p.queue| + 1)
    && (p.inflight.None? ==> p.passLeft == 0)
  }

  /** `pushToHandler(data)`: append, then `_handler`, which returns at once while a drain runs. */
  function OnPush<T>(p: Pipe<T>, x: T): (p': Pipe<T>)
    requires Inv(p)
    ensures Pending(p') == Pending(p) + [x]
    ensures p'.done == p.done && p'.working
    ensures p.working ==> p'.inflight == p.inflight
    ensures !p.working ==> p'.inflight == Some(Pending(p')[0])
  {
    var q := p.queue + [x];
    if p.working then p.(queue := q)
    else StartPass(q, p.done)
  }

  /**
   * The handler call in flight settles with outcome `o`. The loop of `handle`
   * shifts the next item while the pass lasts; at its end a non-empty queue
   * starts another pass, an empty one ends `handle`. With `fixed` set, a
   * non-promise result is treated as a rejection instead of aborting.
   */
  function OnComplete<T>(p: Pipe<T>, o: Outcome, fixed: bool): (p': Pipe<T>)
    requires p.inflight.Some?
    ensures p'.done == p.done + [Handled(p.inflight.value, o)]
    ensures Pending(p') == p.queue && p'.working
    ensures (fixed || !AbortsPass(o)) ==> (p'.inflight.None? <==> p.queue == [])
    ensures !fixed && AbortsPass(o) ==> p'.inflight.None?
  {
    var d := p.done + [Handled(p.inflight.value, o)];
    var left := if p.passLeft > 0 then p.passLeft - 1 else 0;
    if !fixed && AbortsPass(o) then Pipe(p.queue, None, true, 0, d)
    else if left > 0 && |p.queue| > 0 then Pipe(p.queue[1..], Some(p.queue[0]), true, left, d)
    else if |p.queue| > 0 then StartPass(p.queue, d)
    else Pipe([], None, true, 0, d)
  }

  /**
   * `_handler` resumes after `handle` and resets `isWorking`. Pushes that
   * arrived after `handle` last looked at the queue only appended. With
   * `fixed` set, the queue is looked at once more and a new drain starts.
   */
  function OnSettle<T>(p: Pipe<T>, fixed: bool): (p': Pipe<T>)
    requires p.inflight.None?
    ensures p'.done == p.done && Pending(p') == p.queue
    ensures !fixed ==> !p'.working
    ensures fixed ==> (!p'.working <==> p.queue == [])
  {
    if fixed && |p.queue| > 0 then StartPass(p.queue, p.done)
    else Pipe(p.queue, None, false, 0, p.done)
  }

  predicate Enabled<T>(p: Pipe<T>, e: Event<T>) {
    match e
    case Push(_) => true
    case Complete(_) => p.inflight.Some?
    case Settle => p.working && p.inflight.None?
  }

  /** One event; an event that cannot happen in this state leaves it unchanged. */
  function Step<T>(p: Pipe<T>, e: Event<T>, fixed: bool): Pipe<T>
    requires Inv(p)
  {
    if !Enabled(p, e) then p
    else match e
      case Push(x) => OnPush(p, x)
      case Complete(o) => OnComplete(p, o, fixed)
      case Settle => OnSettle(p, fixed)
  }

  lemma StepKeepsInv<T>(p: Pipe<T>, e: Event<T>, fixed: bool)
    requires Inv(p)
    ensures Inv(Step(p, e, fixed))
  {
  }

  function Run<T>(p: Pipe<T>, events: seq<Event<T>>, fixed: bool): (p': Pipe<T>)
    requires Inv(p)
    ensures Inv(p')
    decreases |events|
  {
    if events == [] then p
    else
      StepKeepsInv(p, events[0], fixed);
      Run(Step(p, events[0], fixed), events[1..], fixed)
  }

  /** The items of the `Push` events, in order. */
  function Pushes<T>(events: seq<Event<T>>): seq<T> {
    if events == [] then []
    else (if events[0].Push? then [events[0].item] else []) + Pushes(events[1..])
  }

  /** `pushToHandler` on an instance whose constructor returned early throws. */
  function PushToHandler<T>(inst: Instance<T>, x: T): (r: Result<Instance<T>, Error>)
    requires inst.Usable? ==> Inv(inst.pipe)
    ensures r.Err? <==> inst.Unusable?
    ensures r.Ok? ==> r.value.Usable? && Pending(r.value.pipe) == Pending(inst.pipe) + [x]
  {
    if inst.Unusable? then Err(QueueMissing) else Ok(Usable(OnPush(inst.pipe, x)))
  }

  lemma ItemsAppend<T>(log: seq<Handled<T>>, h: Handled<T>)
    ensures Items(log + [h]) == Items(log) + [h.item]
  {
    assert (log + [h])[..|log|] == log;
  }

  /**
   * Nothing is lost, duplicated or reordered: the handled items followed by
   * the pending ones are always the earlier ones followed by everything pushed.
   */
  lemma {:induction false} Conservation<T>(p: Pipe<T>, events: seq<Event<T>>, fixed: bool)
    requires Inv(p)
    ensures Items(Run(p, events, fixed).done) + Pending(Run(p, events, fixed))
         == Items(p.done) + Pending(p) + Pushes(events)
    decreases |events|
  {
    if events != [] {
      var e := events[0];
      var q := Step(p, e, fixed);
      StepConserves(p, e, fixed);
      Conservation(q, events[1..], fixed);
      RunCons(p, events, fixed);
      PushesCons(events);
      var r := Run(q, events[1..], fixed);
      Regroup(Items(r.done) + Pending(r), Items(q.done) + Pending(q), Items(p.done) + Pending(p), Pushes([e]), Pushes(events[1..]));
    }
  }

  lemma RunCons<T>(p: Pipe<T>, events: seq<Event<T>>, fixed: bool)
    requires Inv(p) && events != []
    ensures Inv(Step(p, events[0], fixed))
    ensures Run(p, events, fixed) == Run(Step(p, events[0], fixed), events[1..], fixed)
  {
    StepKeepsInv(p, events[0], fixed);
  }

  lemma PushesCons<T>(events: seq<Event<T>>)
    requires events != []
    ensures Pushes(events) == Pushes([events[0]]) + Pushes(events[1..])
  {
    assert [events[0]][1..] == [];
  }

  lemma Regroup<T>(x: seq<T>, y: seq<T>, a: seq<T>, b: seq<T>, c: seq<T>)
    requires x == y + c && y == a + b
    ensures x == a + (b + c)
  {
  }

  /** One step moves an item from pending to handled, appends a pushed one, or changes nothing of either. */
  lemma StepConserves<T>(p: Pipe<T>, e: Event<T>, fixed: bool)
    requires Inv(p)
    ensures Inv(Step(p, e, fixed))
    ensures Items(Step(p, e, fixed).done) + Pending(Step(p, e, fixed)) == Items(p.done) + Pending(p) + Pushes([e])
  {
    StepKeepsInv(p, e, fixed);
    assert [e][1..] == [];
    if !e.Push? {
      assert Pushes([e]) == [];
    }
    if Enabled(p, e) {
      match e
      case Push(x) => PushConserves(p, x);
      case Complete(o) => CompleteConserves(p, o, fixed);
      case Settle => assert Pending(Step(p, e, fixed)) == Pending(p);
    }
  }

  lemma PushConserves<T>(p: Pipe<T>, x: T)
    requires Inv(p)
    ensures Items(OnPush(p, x).done) + Pending(OnPush(p, x)) == Items(p.done) + Pending(p) + [x]
  {
  }

  lemma CompleteConserves<T>(p: Pipe<T>, o: Outcome, fixed: bool)
    requires p.inflight.Some?
    ensures Items(OnComplete(p, o, fixed).done) + Pending(OnComplete(p, o, fixed)) == Items(p.done) + Pending(p)
  {
    ItemsAppend(p.done, Handled(p.inflight.value, o));
    assert Pending(p) == [p.inflight.value] + p.queue;
  }

  /** From a fresh instance, items reach the handler exactly once each, in push order. */
  lemma HandledInPushOrder<T>(events: seq<Event<T>>, fixed: bool)
    ensures Items(Run(Empty(), events, fixed).done) + Pending(Run(Empty(), events, fixed)) == Pushes(events)
  {
    Conservation(Empty<T>(), events, fixed);
  }

  /** A drain never idles over queued work: `isWorking` is false only when nothing is pending. */
  predicate Quiet<T>(p: Pipe<T>) {
    !p.working ==> Pending(p) == []
  }

  /** With the corrected completion and settling, no reachable state strands a pushed item. */
  lemma {:induction false} FixedNeverStrands<T>(p: Pipe<T>, events: seq<Event<T>>)
    requires Inv(p) && Quiet(p)
    ensures Quiet(Run(p, events, true))
    decreases |events|
  {
    if events != [] {
      StepKeepsInv(p, events[0], true);
      FixedNeverStrands(Step(p, events[0], true), events[1..]);
    }
  }

  /** As written: a handler that returns a non-promise ends the drain with `b` still queued. */
  lemma NotThenableStrands<T>(a: T, b: T)
    ensures var p := Run(Empty(), [Push(a), Push(b), Complete(NotThenable), Settle], false);
            !p.working && p.queue == [b]
  {
    var p1 := Step(Empty(), Push(a), false);
    var p2 := Step(p1, Push(b), false);
    var p3 := Step(p2, Complete(NotThenable), false);
    assert p3.queue == [b] && p3.inflight.None? && p3.working;
    var evs := [Push(a), Push(b), Complete(NotThenable), Settle];
    assert Run(Empty(), evs, false) == Run(p1, evs[1..], false);
    assert Run(p1, evs[1..], false) == Run(p2, evs[2..], false);
    assert Run(p2, evs[2..], false) == Run(p3, evs[3..], false);
    assert Run(p3, evs[3..], false) == Run(Step(p3, Settle, false), [], false);
  }

  /** As written: a push between the last look at the queue and the reset of `isWorking` is stranded. */
  lemma LatePushStrands<T>(a: T, b: T)
    ensures var p := Run(Empty(), [Push(a), Complete(Resolved), Push(b), Settle], false);
            !p.working && p.queue == [b]
  {
    var p1 := Step(Empty(), Push(a), false);
    var p2 := Step(p1, Complete(Resolved), false);
    assert p2.working && p2.inflight.None? && p2.queue == [];
    var p3 := Step(p2, Push(b), false);
    assert p3.queue == [b] && p3.inflight.None? && p3.working;
    var evs := [Push(a), Complete(Resolved), Push(b), Settle];
    assert Run(Empty(), evs, false) == Run(p1, evs[1..], false);
    assert Run(p1, evs[1..], false) == Run(p2, evs[2..], false);
    assert Run(p2, evs[2..], false) == Run(p3, evs[3..], false);
    assert Run(p3, evs[3..], false) == Run(Step(p3, Settle, false), [], false);
  }
}

=== FILE: request_handler.dfy ===
/**
 * The per-request handler (bin/pptr/requestHandler.js): `abortReq` and
 * `continueReq` guard the browser's `abort()` and `continue()` with the
 * `_isAbort_` flag; the global `interceptResourceType` aborts first, then
 * the adaptor's request hook runs, then the request is continued.
 */
module RequestHandler {
  import opened Js
  import Adaptor

  /** A call the browser receives. */
  datatype Event = Abort | Continue

  /** A request: the `_isAbort_` flag and the calls made so far, in order. */
  datatype Req = Req(isAbort: bool, log: seq<Event>)

  /** A call the adaptor's hook (or a handler it runs) makes on the request. */
  datatype Action = AbortReq | ContinueReq

  /** Exactly the requests whose flag is set have had `abort()`, once, and nothing after it. */
  predicate Inv(r: Req) {
    Count(r.log, Abort) == (if r.isAbort then 1 else 0)
    && (r.isAbort ==> r.log[|r.log| - 1] == Abort)
  }

  /** `req.abortReq()`. */
  function DoAbort(r: Req): (r': Req)
    requires Inv(r)
    ensures Inv(r') && r'.isAbort
    ensures r.isAbort ==> r' == r
    ensures !r.isAbort ==> r'.log == r.log + [Abort]
  {
    if !r.isAbort then
      CountAppend(r.log, [Abort], Abort);
      Req(true, r.log + [Abort])
    else r
  }

  /** `req.continueReq()`: a no-op once aborted. */
  function DoContinue(r: Req): (r': Req)
    requires Inv(r)
    ensures Inv(r') && r'.isAbort == r.isAbort
    ensures r.isAbort ==> r' == r
    ensures !r.isAbort ==> r'.log == r.log + [Continue]
  {
    if !r.isAbort then
      CountAppend(r.log, [Continue], Abort);
      Req(false, r.log + [Continue])
    else r
  }

  lemma {:induction false} CountAppend(a: seq<Event>, b: seq<Event>, x: Event)
    ensures Count(a + b, x) == Count(a, x) + Count(b, x)
    decreases |a|
  {
    if a == [] {
      assert a + b == b;
    } else {
      assert (a + b)[0] == a[0];
      assert (a + b)[1..] == a[1..] + b;
      CountAppend(a[1..], b, x);
    }
  }

  function Apply(r: Req, actions: seq<Action>): (r': Req)
    requires Inv(r)
    ensures Inv(r')
    ensures r.isAbort ==> r' == r
    decreases |actions|
  {
    if actions == [] then r
    else
      var r1 := if actions[0] == AbortReq then DoAbort(r) else DoContinue(r);
      Apply(r1, actions[1..])
  }

  /**
   * How `await adaptor.request(req, page)` ends: it completes, or it
   * rejects because an asynchronous `onRequest` rejected (`Promise.all`)
   * or a synchronous one threw. `actions` are the calls made before that.
   */
  datatype HookEnd = Completes | Rejects

  /** The request before the adaptor runs: aborted when the global `interceptResourceType` array lists its type. */
  function Start(appIntercept: Value, resourceType: Value): (r: Req)
    ensures Inv(r) && (r.log == [] || r.log == [Abort])
    ensures r.isAbort <==> Adaptor.Intercepts(appIntercept, resourceType)
  {
    var r0 := Req(false, []);
    if Adaptor.Intercepts(appIntercept, resourceType) then DoAbort(r0) else r0
  }

  /**
   * `requestHandler(req, page)` as written: abort when the global
   * `interceptResourceType` array lists the type, run the adaptor's calls,
   * then `continueReq()` — which is skipped when the adaptor rejects,
   * since the `await` throws first.
   */
  function Handle(appIntercept: Value, resourceType: Value, actions: seq<Action>, end: HookEnd): (r: Req)
    ensures Inv(r)
    ensures Adaptor.Intercepts(appIntercept, resourceType) ==> r.log == [Abort]
    ensures end == Rejects ==> r == Apply(Start(appIntercept, resourceType), actions)
    ensures end == Completes ==> r == DoContinue(Apply(Start(appIntercept, resourceType), actions))
  {
    var r1 := Apply(Start(appIntercept, resourceType), actions);
    match end
    case Completes => DoContinue(r1)
    case Rejects => r1
  }

  /**
   * `requestHandler` with the continue in a `finally` block: the request is
   * continued (unless aborted) however the adaptor ends.
   */
  function HandleCorrected(appIntercept: Value, resourceType: Value, actions: seq<Action>, end: HookEnd): (r: Req)
    ensures Inv(r)
    ensures r == Handle(appIntercept, resourceType, actions, Completes)
  {
    DoContinue(Apply(Start(appIntercept, resourceType), actions))
  }

  /**
   * When the adaptor completes and no handler calls `continueReq` itself,
   * a request ends in exactly one of abort or continue.
   */
  lemma ExactlyOneOutcome(appIntercept: Value, resourceType: Value, actions: seq<Action>)
    requires forall i :: 0 <= i < |actions| ==> actions[i] == AbortReq
    ensures var r := Handle(appIntercept, resourceType, actions, Completes);
            r.log == [Abort] || r.log == [Continue]
  {
    OnlyAborts(Start(appIntercept, resourceType), actions);
  }

  /**
   * As written, a request of a type nobody intercepts whose adaptor
   * rejects before any `abortReq` is neither aborted nor continued: the
   * browser waits on it for good.
   */
  lemma RejectionStalls(appIntercept: Value, resourceType: Value, actions: seq<Action>)
    requires !Adaptor.Intercepts(appIntercept, resourceType)
    requires forall i :: 0 <= i < |actions| ==> actions[i] == AbortReq
    ensures Handle(appIntercept, resourceType, actions, Rejects).log == (if actions == [] then [] else [Abort])
  {
    OnlyAborts(Start(appIntercept, resourceType), actions);
  }

  /** With the continue in a `finally` block, every request ends in exactly one of abort or continue, however the adaptor ends. */
  lemma CorrectedExactlyOneOutcome(appIntercept: Value, resourceType: Value, actions: seq<Action>, end: HookEnd)
    requires forall i :: 0 <= i < |actions| ==> actions[i] == AbortReq
    ensures var r := HandleCorrected(appIntercept, resourceType, actions, end);
            (r.log == [Abort] <==> r.isAbort) && (r.log == [Continue] <==> !r.isAbort)
  {
    OnlyAborts(Start(appIntercept, resourceType), actions);
  }

  /** Running only `abortReq` calls aborts iff there is at least one and the request was not aborted already. */
  lemma {:induction false} OnlyAborts(r: Req, actions: seq<Action>)
    requires Inv(r) && (r.log == [] || r.log == [Abort])
    requires forall i :: 0 <= i < |actions| ==> actions[i] == AbortReq
    ensures var r' := Apply(r, actions);
            r'.log == (if r.isAbort || |actions| > 0 then [Abort] else []) && r'.isAbort == (r.isAbort || |actions| > 0)
    decreases |actions|
  {
    if actions != [] && !r.isAbort {
      OnlyAborts(DoAbort(r), actions[1..]);
    }
  }

  /** The adaptor's own calls: `abortReq` once per matched configuration intercepting the type. */
  function AdaptorActions(matched: seq<Adaptor.Conf>, resourceType: Value): (a: seq<Action>)
    ensures |a| == Adaptor.RequestHook(matched, resourceType).abortCalls
    ensures forall i :: 0 <= i < |a| ==> a[i] == AbortReq
  {
    seq(Adaptor.RequestHook(matched, resourceType).abortCalls, _ => AbortReq)
  }

  /**
   * With handlers that do not touch the request and an adaptor that
   * completes, a request is aborted iff the global or a matched
   * configuration intercepts its type, and continued otherwise.
   */
  lemma AbortedIffIntercepted(appIntercept: Value, resourceType: Value, matched: seq<Adaptor.Conf>)
    ensures var r := Handle(appIntercept, resourceType, AdaptorActions(matched, resourceType), Completes);
            r.log == (if Adaptor.Intercepts(appIntercept, resourceType)
                         || exists i :: 0 <= i < |matched| && Adaptor.Intercepts(matched[i].interceptResourceType, resourceType)
                      then [Abort] else [Continue])
  {
    OnlyAborts(Start(appIntercept, resourceType), AdaptorActions(matched, resourceType));
  }
}

=== FILE: rules.dfy ===
/**
 * The rule values configuration supplies to the capture gate and the matchers
 * (bin/pptr/cacheResponse.js, bin/pptr/adaptor.js): a string, a regular
 * expression, or anything else, alone or in an array. A regular expression is
 * an opaque identifier; whether it matches is a function the caller passes.
 */
module Rules {
  import opened Js

  datatype Rule = Text(s: string) | Pattern(re: nat) | Other(v: Value)

  /** A rule setting: one value (possibly `undefined`) or an array of them. */
  datatype RuleArg = One(rule: Rule) | Many(rules: seq<Rule>)

  /** `RegExp.prototype.test` as a parameter. */
  type Tester = (nat, string) -> bool

  const Absent := One(Other(Undef))

  /** `argToArr(rules)`. */
  function ToList(a: RuleArg): seq<Rule> {
    match a
    case One(r) => [r]
    case Many(rs) => rs
  }

  predicate RuleTruthy(r: Rule) {
    match r
    case Text(s) => s != ""
    case Pattern(_) => true
    case Other(v) => Truthy(v)
  }

  predicate ArgTruthy(a: RuleArg) {
    match a
    case One(r) => RuleTruthy(r)
    case Many(_) => true
  }

  /** A string rule matches as a substring, a regular expression by its test; other rules never match. */
  predicate Matches(r: Rule, url: string, test: Tester) {
    match r
    case Text(s) => Includes(url, s)
    case Pattern(re) => test(re, url)
    case Other(_) => false
  }

  /** The first-match loop shared by the capture gate and `urlMatcher`. */
  function AnyMatch(rs: seq<Rule>, url: string, test: Tester): (b: bool)
    ensures b <==> exists i :: 0 <= i < |rs| && Matches(rs[i], url, test)
  {
    if rs == [] then false
    else if Matches(rs[0], url, test) then true
    else
      var b := AnyMatch(rs[1..], url, test);
      assert forall i :: 1 <= i < |rs| ==> rs[i] == rs[1..][i - 1];
      b
  }
}

=== FILE: save_guard.dfy ===
/**
 * Overlapping calls of `saveWithCacheRules` on one response
 * (bin/pptr/cacheResponse.js:146-208). The adaptor starts one call per
 * matching page configuration and then one for the global configuration,
 * awaiting none of them (bin/pptr/adaptor.js:194-205), so the calls enter
 * one after another before any of them has finished, and interleave at
 * their `await`s.
 *
 * A call is described by the verdict its gate reaches and by whether its
 * `save` resolves. Events enter the next call, resume a waiting call once
 * the promise it awaits has settled, and settle a running `save`; an event
 * that is not enabled changes nothing.
 */
module SaveGuard {
  import opened Js
  import opened CacheResponse

  datatype Call = Call(verdict: Verdict, saves: bool)

  /** Where a call is: not entered, awaiting another call's promise, saving, stranded, or returned. */
  datatype Phase = Ready | Awaiting(on: nat) | Saving | Stranded | Done(result: bool)

  /**
   * The calls' phases, how many have entered, the call whose promise is in
   * `_saveing_`, the `_saved_` flag, and how many `save`s have resolved.
   */
  datatype State = State(phases: seq<Phase>, entered: nat, saveing: Option<nat>, saved: bool, successes: nat)

  datatype Event = Enter | Resume(i: nat) | Settle(i: nat)

  function Init(n: nat): (s: State)
    ensures |s.phases| == n && forall i :: 0 <= i < n ==> s.phases[i] == Ready
    ensures s.entered == 0 && s.saveing == None && !s.saved && s.successes == 0
  {
    State(seq(n, _ => Ready), 0, None, false, 0)
  }

  /**
   * A call past its `await`: it returns `true` once the response is saved;
   * otherwise a failing gate returns `false`, a hanging one never returns,
   * and a passing one starts `save`.
   */
  function Begin(s: State, calls: seq<Call>, i: nat): (r: State)
    requires i < |s.phases| == |calls|
    ensures r == s.(phases := r.phases) && |r.phases| == |s.phases|
    ensures forall j :: 0 <= j < |s.phases| && j != i ==> r.phases[j] == s.phases[j]
    ensures r.phases[i] == Saving <==> !s.saved && calls[i].verdict == Pass
    ensures s.saved ==> r.phases[i] == Done(true)
  {
    var ph := if s.saved then Done(true)
              else match calls[i].verdict
                   case Fail => Done(false)
                   case Hang => Stranded
                   case Pass => Saving;
    s.(phases := s.phases[i := ph])
  }

  /** `res._saveing_ = new Promise(...)`, which a call skips when it returns early because the response is saved. */
  function Claim(s: State, i: nat): State {
    if s.saved then s else s.(saveing := Some(i))
  }

  /** `save` resolving sets `_saved_`; rejecting leaves it. */
  function Finish(s: State, calls: seq<Call>, i: nat): (r: State)
    requires i < |s.phases| == |calls| && s.phases[i] == Saving
    ensures r.phases == s.phases[i := Done(calls[i].saves)]
    ensures r.saved == (s.saved || calls[i].saves) && r.entered == s.entered && r.saveing == s.saveing
    ensures r.successes == s.successes + (if calls[i].saves then 1 else 0)
  {
    var ok := calls[i].saves;
    s.(phases := s.phases[i := Done(ok)], saved := s.saved || ok, successes := s.successes + (if ok then 1 else 0))
  }

  /** A waiting call may go on once the call it awaits has returned. */
  predicate CanResume(s: State, i: nat) {
    i < |s.phases| && s.phases[i].Awaiting? && s.phases[i].on < |s.phases| && s.phases[s.phases[i].on].Done?
  }

  /**
   * One event as written: an entering call awaits whatever `_saveing_` holds
   * and, once resumed, goes on without looking at `_saveing_` again.
   */
  function Step(s: State, calls: seq<Call>, e: Event): (r: State)
    requires |s.phases| == |calls|
    ensures |r.phases| == |calls|
    ensures (s.saved ==> r.saved) && s.entered <= r.entered && s.successes <= r.successes
  {
    match e
    case Enter =>
      if s.entered >= |calls| then s
      else
        var i := s.entered;
        var s1 := s.(entered := i + 1);
        if s.saveing.Some? then s1.(phases := s.phases[i := Awaiting(s.saveing.value)])
        else Claim(Begin(s1, calls, i), i)
    case Resume(i) =>
      if CanResume(s, i) then Claim(Begin(s, calls, i), i) else s
    case Settle(i) =>
      if i < |calls| && s.phases[i] == Saving then Finish(s, calls, i) else s
  }

  function Run(s: State, calls: seq<Call>, events: seq<Event>): (r: State)
    requires |s.phases| == |calls|
    ensures |r.phases| == |calls|
    ensures (s.saved ==> r.saved) && s.entered <= r.entered && s.successes <= r.successes
    decreases |events|
  {
    if events == [] then s else Run(Step(s, calls, events[0]), calls, events[1..])
  }

  /**
   * As written, a response is saved twice: the first configuration's gate
   * fails, the second one and the global one both await its promise, both
   * resume to find `_saved_` still false, and both save.
   */
  lemma DoubleSave()
    ensures var calls := [Call(Fail, true), Call(Pass, true), Call(Pass, true)];
            Run(Init(3), calls, [Enter, Enter, Enter, Resume(1), Resume(2), Settle(1), Settle(2)]).successes == 2
  {
    var calls := [Call(Fail, true), Call(Pass, true), Call(Pass, true)];
    var s0 := Init(3);
    var s1 := Step(s0, calls, Enter);
    assert s1.phases == [Done(false), Ready, Ready] && s1.saveing == Some(0);
    var s2 := Step(s1, calls, Enter);
    assert s2.phases == [Done(false), Awaiting(0), Ready];
    var s3 := Step(s2, calls, Enter);
    assert s3.phases == [Done(false), Awaiting(0), Awaiting(0)];
    var s4 := Step(s3, calls, Resume(1));
    assert s4.phases == [Done(false), Saving, Awaiting(0)] && !s4.saved;
    var s5 := Step(s4, calls, Resume(2));
    assert s5.phases == [Done(false), Saving, Saving];
    var s6 := Step(s5, calls, Settle(1));
    assert s6.successes == 1 && s6.phases[2] == Saving;
    var s7 := Step(s6, calls, Settle(2));
    assert s7.successes == 2;
    assert Run(s6, calls, [Settle(2)]) == s7;
    assert Run(s5, calls, [Settle(1), Settle(2)]) == s7;
    assert Run(s4, calls, [Resume(2), Settle(1), Settle(2)]) == s7;
    assert Run(s3, calls, [Resume(1), Resume(2), Settle(1), Settle(2)]) == s7;
    assert Run(s2, calls, [Enter, Resume(1), Resume(2), Settle(1), Settle(2)]) == s7;
    assert Run(s1, calls, [Enter, Enter, Resume(1), Resume(2), Settle(1), Settle(2)]) == s7;
  }

  /**
   * One event with the guard evidently intended: an entering call takes its
   * place in `_saveing_` at once, so each call waits for the one that
   * entered before it.
   */
  function ChainedStep(s: State, calls: seq<Call>, e: Event): (r: State)
    requires |s.phases| == |calls|
    ensures |r.phases| == |calls|
    ensures (s.saved ==> r.saved) && s.entered <= r.entered && s.successes <= r.successes
  {
    match e
    case Enter =>
      if s.entered >= |calls| then s
      else
        var i := s.entered;
        var s1 := s.(entered := i + 1, saveing := Some(i));
        if s.saveing.Some? then s1.(phases := s.phases[i := Awaiting(s.saveing.value)])
        else Begin(s1, calls, i)
    case Resume(i) =>
      if CanResume(s, i) then Begin(s, calls, i) else s
    case Settle(i) =>
      if i < |calls| && s.phases[i] == Saving then Finish(s, calls, i) else s
  }

  function ChainedRun(s: State, calls: seq<Call>, events: seq<Event>): (r: State)
    requires |s.phases| == |calls|
    ensures |r.phases| == |calls|
    ensures (s.saved ==> r.saved) && s.entered <= r.entered && s.successes <= r.successes
    decreases |events|
  {
    if events == [] then s else ChainedRun(ChainedStep(s, calls, events[0]), calls, events[1..])
  }

  predicate Began(ph: Phase) {
    ph.Saving? || ph.Stranded? || ph.Done?
  }

  /**
   * What the chained guard keeps: calls enter in order and each waits on
   * its predecessor; a call goes past its `await` only once every earlier
   * call has returned; a running `save` means the response is not saved;
   * and a resolved `save` is what marked it saved.
   */
  predicate ChainInv(s: State, calls: seq<Call>) {
    && |s.phases| == |calls| && s.entered <= |calls|
    && (forall i :: 0 <= i < |calls| ==> (s.phases[i] == Ready <==> i >= s.entered))
    && s.saveing == (if s.entered == 0 then None else Some(s.entered - 1))
    && (forall i :: 0 <= i < |calls| && s.phases[i].Awaiting? ==> i > 0 && s.phases[i].on == i - 1)
    && (forall p, q :: 0 <= p < q < |calls| && Began(s.phases[q]) ==> s.phases[p].Done?)
    && (forall i :: 0 <= i < |calls| && s.phases[i] == Saving ==> !s.saved)
    && s.successes == (if s.saved then 1 else 0)
  }

  lemma EnterKeepsInv(s: State, calls: seq<Call>)
    requires ChainInv(s, calls)
    ensures ChainInv(ChainedStep(s, calls, Enter), calls)
  {
    if s.entered < |calls| {
      var i := s.entered;
      var r := ChainedStep(s, calls, Enter);
      if s.saveing.None? {
        assert i == 0;
        assert forall q :: 0 < q < |calls| ==> r.phases[q] == Ready;
      }
    }
  }

  lemma ResumeKeepsInv(s: State, calls: seq<Call>, i: nat)
    requires ChainInv(s, calls) && CanResume(s, i)
    ensures ChainInv(ChainedStep(s, calls, Resume(i)), calls)
  {
    var r := ChainedStep(s, calls, Resume(i));
    assert r == Begin(s, calls, i);
    forall p, q | 0 <= p < q < |calls| && Began(r.phases[q]) ensures r.phases[p].Done? {
      if q == i {
        assert s.phases[i - 1].Done?;
        if p < i - 1 { assert Began(s.phases[i - 1]); }
      }
    }
  }

  lemma SettleKeepsInv(s: State, calls: seq<Call>, i: nat)
    requires ChainInv(s, calls) && i < |calls| && s.phases[i] == Saving
    ensures ChainInv(ChainedStep(s, calls, Settle(i)), calls)
  {
    var r := ChainedStep(s, calls, Settle(i));
    assert r == Finish(s, calls, i);
    forall j | 0 <= j < |calls| && r.phases[j] == Saving ensures !r.saved {
      assert j != i;
      if j < i { assert Began(s.phases[i]); } else { assert Began(s.phases[j]); }
    }
    forall p, q | 0 <= p < q < |calls| && Began(r.phases[q]) ensures r.phases[p].Done? {
      if q != i { assert Began(s.phases[q]); }
    }
  }

  lemma ChainedStepKeepsInv(s: State, calls: seq<Call>, e: Event)
    requires ChainInv(s, calls)
    ensures ChainInv(ChainedStep(s, calls, e), calls)
  {
    match e
    case Enter => EnterKeepsInv(s, calls);
    case Resume(i) => if CanResume(s, i) { ResumeKeepsInv(s, calls, i); }
    case Settle(i) => if i < |calls| && s.phases[i] == Saving { SettleKeepsInv(s, calls, i); }
  }

  lemma {:induction false} ChainedRunKeepsInv(s: State, calls: seq<Call>, events: seq<Event>)
    requires ChainInv(s, calls)
    ensures ChainInv(ChainedRun(s, calls, events), calls)
    decreases |events|
  {
    if events != [] {
      ChainedStepKeepsInv(s, calls, events[0]);
      ChainedRunKeepsInv(ChainedStep(s, calls, events[0]), calls, events[1..]);
    }
  }

  /**
   * With the chained guard, however the calls on one response interleave,
   * `save` resolves at most once, at most one `save` runs at a time, and
   * none runs once the response is saved.
   */
  lemma ChainedSavesOnce(calls: seq<Call>, events: seq<Event>)
    ensures var r := ChainedRun(Init(|calls|), calls, events);
            r.successes <= 1
            && (forall i, j :: 0 <= i < j < |calls| ==> !(r.phases[i] == Saving && r.phases[j] == Saving))
            && (r.saved ==> forall i :: 0 <= i < |calls| ==> r.phases[i] != Saving)
  {
    ChainedRunKeepsInv(Init(|calls|), calls, events);
    var r := ChainedRun(Init(|calls|), calls, events);
    forall i, j | 0 <= i < j < |calls| ensures !(r.phases[i] == Saving && r.phases[j] == Saving) {
      if r.phases[j] == Saving { assert Began(r.phases[j]); }
    }
  }
}

=== FILE: sql_fragment.dfy ===
/**
 * The statement shapes of bin/sqlite3/sqlFragment.js: the 24-column table,
 * the positional insert and update statements, and the select and index
 * builders. Statements are kept as the parts that decide their meaning
 * (columns, placeholder text, limits); the insert and update lists are the
 * source's own pieces, joined as it writes them.
 */
module SqlFragment {
  import opened Js

  const TableName := "website_data"

  /** The columns of `website_data`, in declaration order. */
  const Columns: seq<string> := [
    "host", "path", "url", "url_hash", "path_hash", "response_data_hash",
    "content_type", "create_time", "last_accessed", "server_time",
    "server_last_modified", "expire_time", "server_name", "request_header",
    "response_header", "content_encoding", "cache_name", "cache_control",
    "etag", "server_ip_address", "url_length", "response_data_length",
    "info", "update_count"
  ]

  /** The columns declared `NOT NULL`. */
  const NotNull: set<string> := {
    "host", "path", "url", "url_hash", "path_hash", "create_time",
    "last_accessed", "request_header", "response_header"
  }

  /** The pieces of a statement list, separated by `sep`. */
  function Join(pieces: seq<string>, sep: string): string {
    if pieces == [] then ""
    else if |pieces| == 1 then pieces[0]
    else pieces[0] + sep + Join(pieces[1..], sep)
  }

  /** The markers of the insert statement's `VALUES ( … )` list, as written. */
  const InsertMarks: seq<string> := [
    "?", "?", "?", "?", "?", "?", "?", "?", "?", "?", "?", "?",
    "?", "?", "?", "?", "?", "?", "?", "?", "?", "?", "?", "?"
  ]

  const InsertValues: string := Join(InsertMarks, ",")

  /** The assignments of the update statement's `SET` list, as written. */
  const UpdateAssignments: seq<string> := [
    "host = ?", "path = ?", "url = ?", "url_hash = ?", "path_hash = ?",
    "response_data_hash = ?", "content_type = ?", "create_time = ?", "last_accessed = ?",
    "server_time = ?", "server_last_modified = ?", "expire_time = ?", "server_name = ?",
    "request_header = ?", "response_header = ?", "content_encoding = ?", "cache_name = ?",
    "cache_control = ?", "etag = ?", "server_ip_address = ?", "url_length = ?",
    "response_data_length = ?", "info = ?", "update_count = ?"
  ]

  const UpdateSet: string := Join(UpdateAssignments, ", ")
  const UpdateWhere: string := "url_hash=?"

  /** How many parameters a statement text binds. */
  function CountMarks(s: string): nat {
    Count(s, '?')
  }

  lemma {:induction false} CountAppend(a: string, b: string)
    ensures Count(a + b, '?') == Count(a, '?') + Count(b, '?')
    decreases |a|
  {
    if a == [] {
      assert a + b == b;
    } else {
      assert (a + b)[0] == a[0];
      assert (a + b)[1..] == a[1..] + b;
      CountAppend(a[1..], b);
    }
  }

  /** A list of pieces with one marker each, joined by a separator without one, binds one value per piece. */
  lemma {:induction false} JoinBinds(pieces: seq<string>, sep: string)
    requires NoMark(sep)
    requires forall i :: 0 <= i < |pieces| ==> CountMarks(pieces[i]) == 1
    ensures CountMarks(Join(pieces, sep)) == |pieces|
    decreases |pieces|
  {
    if |pieces| > 1 {
      JoinBinds(pieces[1..], sep);
      NoMarkCount(sep);
      CountAppend(pieces[0], sep);
      CountAppend(pieces[0] + sep, Join(pieces[1..], sep));
    }
  }

  /** The insert statement binds exactly one value per column. */
  lemma InsertArity()
    ensures CountMarks(InsertValues) == |Columns| == 24
  {
    CountMark();
    forall i | 0 <= i < |InsertMarks| ensures CountMarks(InsertMarks[i]) == 1 {
      assert InsertMarks[i] == "?";
    }
    JoinBinds(InsertMarks, ",");
  }

  predicate NoMark(c: string) {
    '?' !in c
  }

  lemma {:induction false} NoMarkCount(c: string)
    requires NoMark(c)
    ensures Count(c, '?') == 0
    decreases |c|
  {
    if c != [] {
      assert c[0] in c;
      assert forall i :: 1 <= i < |c| ==> c[i] in c;
      assert NoMark(c[1..]) by {
        forall x | x in c[1..] ensures x in c { }
      }
      NoMarkCount(c[1..]);
    }
  }

  lemma CountMark()
    ensures Count("?", '?') == 1
  {
    assert Count("?", '?') == 1 + Count("", '?');
  }

  /** `col = ?` binds one value when the column name has no marker. */
  lemma AssignmentBinds(c: string)
    requires NoMark(c)
    ensures CountMarks(c + " = ?") == 1
  {
    NoMarkCount(c);
    NoMarkCount(" = ");
    CountMark();
    CountAppend(" = ", "?");
    assert " = ?" == " = " + "?";
    CountAppend(c, " = ?");
  }

  /** No column name contains a `?`, so the update statement's markers are exactly its placeholders. */
  lemma ColumnsHaveNoMarks()
    ensures forall i :: 0 <= i < |Columns| ==> NoMark(Columns[i])
  {
    FrontColumnsHaveNoMarks();
    BackColumnsHaveNoMarks();
  }

  lemma FrontColumnsHaveNoMarks()
    ensures forall i :: 0 <= i < 12 ==> NoMark(Columns[i])
  {
    forall i | 0 <= i < 6 ensures NoMark(Columns[i]) { }
    forall i | 6 <= i < 12 ensures NoMark(Columns[i]) { }
  }

  lemma BackColumnsHaveNoMarks()
    ensures forall i :: 12 <= i < 24 ==> NoMark(Columns[i])
  {
    forall i | 12 <= i < 18 ensures NoMark(Columns[i]) { }
    forall i | 18 <= i < 24 ensures NoMark(Columns[i]) { }
  }

  /** The update statement assigns every column, in table order, each to its own marker. */
  lemma UpdateAssignsColumns()
    ensures |UpdateAssignments| == |Columns|
    ensures forall i :: 0 <= i < |Columns| ==> UpdateAssignments[i] == Columns[i] + " = ?"
  {
    forall i | 0 <= i < 6 ensures UpdateAssignments[i] == Columns[i] + " = ?" { }
    forall i | 6 <= i < 12 ensures UpdateAssignments[i] == Columns[i] + " = ?" { }
    forall i | 12 <= i < 18 ensures UpdateAssignments[i] == Columns[i] + " = ?" { }
    forall i | 18 <= i < 24 ensures UpdateAssignments[i] == Columns[i] + " = ?" { }
  }

  /** The update statement binds one value per column, in table order, then the `url_hash` key. */
  lemma UpdateArity()
    ensures CountMarks(UpdateSet) == |Columns|
    ensures CountMarks(UpdateSet) + CountMarks(UpdateWhere) == 25
  {
    UpdateAssignsColumns();
    ColumnsHaveNoMarks();
    forall i | 0 <= i < |UpdateAssignments| ensures CountMarks(UpdateAssignments[i]) == 1 {
      AssignmentBinds(Columns[i]);
    }
    JoinBinds(UpdateAssignments, ", ");
    WhereBindsKey();
  }

  lemma WhereBindsKey()
    ensures CountMarks(UpdateWhere) == 1
  {
    NoMarkCount("url_hash=");
    CountMark();
    CountAppend("url_hash=", "?");
    assert UpdateWhere == "url_hash=" + "?";
  }

  /** `limit || 1000` and `offset || 0` with `undefined` as `None`. */
  function OrDefault(v: Option<int>, def: int): (r: int)
    ensures (v.None? || v == Some(0)) ==> r == def
    ensures v.Some? && v.value != 0 ==> r == v.value
  {
    if v.Some? && v.value != 0 then v.value else def
  }

  /** `SELECT * FROM website_data WHERE col=? LIMIT l OFFSET o`. */
  datatype Select = Select(column: string, limit: int, offset: int)

  function CreateSelectCode(column: string, limit: Option<int>, offset: Option<int>): (q: Select)
    ensures q.column == column
    ensures q.limit == (if limit.None? || limit == Some(0) then 1000 else limit.value)
    ensures q.offset == (if offset.None? || offset == Some(0) then 0 else offset.value)
  {
    Select(column, OrDefault(limit, 1000), OrDefault(offset, 0))
  }

  /** Split at every ',', the inverse of `Join` on names without commas. */
  function Split(s: string): (parts: seq<string>)
    ensures |parts| >= 1
    decreases |s|
  {
    if ',' in s then
      var i := FirstComma(s);
      [s[..i]] + Split(s[i + 1..])
    else [s]
  }

  function FirstComma(s: string): (i: nat)
    requires ',' in s
    ensures i < |s| && s[i] == ',' && ',' !in s[..i]
  {
    if s[0] == ',' then 0
    else
      assert ',' in s[1..] by {
        var k :| 0 <= k < |s| && s[k] == ',';
        assert s[1..][k - 1] == ',';
      }
      var j := FirstComma(s[1..]);
      assert s[..j + 1] == [s[0]] + s[1..][..j];
      j + 1
  }

  predicate NoComma(c: string) {
    ',' !in c
  }

  lemma {:induction false} SplitJoin(cols: seq<string>)
    requires |cols| >= 1
    requires forall i :: 0 <= i < |cols| ==> NoComma(cols[i])
    ensures Split(Join(cols, ",")) == cols
    decreases |cols|
  {
    assert NoComma(cols[0]);
    if |cols| == 1 {
    } else {
      var s := Join(cols, ",");
      var rest := Join(cols[1..], ",");
      assert s == cols[0] + "," + rest;
      assert s[|cols[0]|] == ',';
      assert ',' in s;
      var i := FirstComma(s);
      assert s[..|cols[0]|] == cols[0];
      assert i == |cols[0]|;
      assert s[i + 1..] == rest;
      SplitJoin(cols[1..]);
    }
  }

  /** The projection of `SELECT … FROM website_data LIMIT l OFFSET o`. */
  datatype SelectAll = SelectAll(projection: string, limit: int, offset: int)

  /**
   * `createSelectAllCode(limit, offset, columnNameArr)`: `*` unless a
   * non-empty column array is given (`None` for a non-array argument),
   * which is joined with `,`.
   */
  function CreateSelectAllCode(limit: Option<int>, offset: Option<int>, columns: Option<seq<string>>): (q: SelectAll)
    ensures columns.None? || columns.value == [] ==> q.projection == "*"
    ensures q.limit == OrDefault(limit, 1000) && q.offset == OrDefault(offset, 0)
  {
    var projection := if columns.Some? && columns.value != [] then Join(columns.value, ",") else "*";
    SelectAll(projection, OrDefault(limit, 1000), OrDefault(offset, 0))
  }

  /** A non-empty column array comes back out of the projection unchanged, name by name. */
  lemma SelectAllProjection(limit: Option<int>, offset: Option<int>, cols: seq<string>)
    requires cols != []
    requires forall i :: 0 <= i < |cols| ==> NoComma(cols[i])
    ensures Split(CreateSelectAllCode(limit, offset, Some(cols)).projection) == cols
  {
    SplitJoin(cols);
  }

  /** `CREATE [UNIQUE] INDEX IF NOT EXISTS col_index ON website_data (col)`. */
  datatype Index = Index(name: string, column: string, unique: bool)

  function CreateIndexCode(column: string, unique: Value): (ix: Index)
    ensures ix.unique <==> Truthy(unique)
    ensures ix.column == column && ix.name == column + "_index"
  {
    Index(column + "_index", column, Truthy(unique))
  }

  /** `DELETE FROM website_data WHERE url_hash = ?`: the one column a delete keys on. */
  const DeleteKey := "url_hash"
}

=== FILE: trim.dfy ===
/**
 * `trimResult(result, reservedCount, trimRule)` of the cache
 * (bin/sqlite3/websiteCache.js, and its twin in bin/sqlite3/index.js): pick
 * the redundant records of a result set and delete their urls.
 *
 * The default rule keeps, per `last_accessed` timestamp, the first record
 * seen (the `tmpObj` map), trims every later record with the same timestamp,
 * sorts the timestamps from newest to oldest and trims the representatives
 * past the first `reservedCount`.
 */
module Trim {
  import opened Js
  import opened CacheRow
  import opened CacheStore

  predicate Stamped(v: Value) {
    Get(v, "last_accessed").Num?
  }

  function Stamp(v: Value): int
    requires Stamped(v)
  {
    Get(v, "last_accessed").n
  }

  predicate AllStamped(s: seq<Value>) {
    forall i :: 0 <= i < |s| ==> Stamped(s[i])
  }

  function Stamps(s: seq<Value>): set<int>
    requires AllStamped(s)
  {
    set i | 0 <= i < |s| :: Stamp(s[i])
  }

  lemma StampsCons(s: seq<Value>)
    requires AllStamped(s) && |s| > 0
    ensures Stamps(s) == {Stamp(s[0])} + Stamps(s[1..])
  {
    forall x | x in Stamps(s) ensures x in {Stamp(s[0])} + Stamps(s[1..]) {
      var i :| 0 <= i < |s| && Stamp(s[i]) == x;
      if i > 0 { assert s[i] == s[1..][i - 1]; }
    }
    forall x | x in Stamps(s[1..]) ensures x in Stamps(s) {
      var i :| 0 <= i < |s[1..]| && Stamp(s[1..][i]) == x;
      assert s[1..][i] == s[i + 1];
    }
  }

  /** The state of the first loop: the records trimmed so far, and the first record seen per timestamp. */
  datatype Scan = Scan(dups: seq<Value>, firsts: map<int, Value>)

  /** One step of the first loop: trim a record whose timestamp is mapped, otherwise map it. */
  function Step(acc: Scan, v: Value): Scan
    requires Stamped(v)
  {
    var k := Stamp(v);
    if k in acc.firsts then acc.(dups := acc.dups + [v]) else acc.(firsts := acc.firsts[k := v])
  }

  /**
   * The first loop from some point on: a record whose timestamp is already
   * mapped is trimmed, any other becomes its timestamp's representative.
   */
  function ScanFrom(s: seq<Value>, acc: Scan): (r: Scan)
    requires AllStamped(s)
    ensures r.firsts.Keys == acc.firsts.Keys + Stamps(s)
    ensures forall k :: k in acc.firsts ==> k in r.firsts && r.firsts[k] == acc.firsts[k]
    ensures |acc.dups| <= |r.dups| && r.dups[..|acc.dups|] == acc.dups
    decreases |s|
  {
    if s == [] then acc
    else
      var acc' := Step(acc, s[0]);
      StampsCons(s);
      var r := ScanFrom(s[1..], acc');
      assert r.dups[..|acc.dups|] == r.dups[..|acc'.dups|][..|acc.dups|];
      r
  }

  /** A step puts its record in exactly one of the two places. */
  lemma StepCounts(acc: Scan, v: Value)
    requires Stamped(v)
    ensures |Step(acc, v).dups| + |Step(acc, v).firsts.Keys| == |acc.dups| + |acc.firsts.Keys| + 1
  {
    var k := Stamp(v);
    if k !in acc.firsts {
      assert Step(acc, v).firsts.Keys == acc.firsts.Keys + {k};
    }
  }

  /** Every record lands in exactly one of the two places. */
  lemma {:induction false} ScanFromCounts(s: seq<Value>, acc: Scan)
    requires AllStamped(s)
    ensures |ScanFrom(s, acc).dups| + |ScanFrom(s, acc).firsts.Keys| == |acc.dups| + |acc.firsts.Keys| + |s|
    decreases |s|
  {
    if s != [] {
      var acc' := Step(acc, s[0]);
      StepCounts(acc, s[0]);
      ScanFromCounts(s[1..], acc');
      assert ScanFrom(s, acc) == ScanFrom(s[1..], acc');
    }
  }

  /** The first loop only ever files records of its input. */
  lemma {:induction false} ScanFromDrawsFrom(s: seq<Value>, acc: Scan)
    requires AllStamped(s)
    ensures forall x :: x in ScanFrom(s, acc).dups ==> x in acc.dups || x in s
    ensures forall k :: k in ScanFrom(s, acc).firsts ==> ScanFrom(s, acc).firsts[k] in s || (k in acc.firsts && ScanFrom(s, acc).firsts[k] == acc.firsts[k])
    decreases |s|
  {
    if s != [] {
      var acc' := Step(acc, s[0]);
      ScanFromDrawsFrom(s[1..], acc');
      assert ScanFrom(s, acc) == ScanFrom(s[1..], acc');
      assert forall x :: x in s[1..] ==> x in s;
    }
  }

  function ScanAll(s: seq<Value>): Scan
    requires AllStamped(s)
  {
    ScanFrom(s, Scan([], map[]))
  }

  /** Every timestamp gets one representative; the rest of the records are duplicates. */
  lemma ScanCounts(s: seq<Value>)
    requires AllStamped(s)
    ensures ScanAll(s).firsts.Keys == Stamps(s)
    ensures |ScanAll(s).dups| == |s| - |Stamps(s)|
  {
    ScanFromCounts(s, Scan([], map[]));
  }

  /** The place of the earliest record with a timestamp. */
  function FirstWith(s: seq<Value>, k: int): (i: nat)
    requires AllStamped(s) && k in Stamps(s)
    ensures i < |s| && Stamp(s[i]) == k
    ensures forall j :: 0 <= j < i ==> Stamp(s[j]) != k
    decreases |s|
  {
    if Stamp(s[0]) == k then 0
    else
      StampsCons(s);
      var i' := FirstWith(s[1..], k);
      assert forall j :: 1 <= j <= i' + 1 ==> s[j] == s[1..][j - 1];
      i' + 1
  }

  /** Each representative is the earliest record with its timestamp. */
  lemma {:induction false} RepresentativeIsFirst(s: seq<Value>, acc: Scan, k: int)
    requires AllStamped(s) && k in Stamps(s) && k !in acc.firsts
    ensures k in ScanFrom(s, acc).firsts && ScanFrom(s, acc).firsts[k] == s[FirstWith(s, k)]
    decreases |s|
  {
    var acc1 := Step(acc, s[0]);
    assert ScanFrom(s, acc) == ScanFrom(s[1..], acc1);
    if Stamp(s[0]) == k {
      assert acc1.firsts[k] == s[0];
    } else {
      StampsCons(s);
      assert k in Stamps(s[1..]) && k !in acc1.firsts;
      RepresentativeIsFirst(s[1..], acc1, k);
      assert FirstWith(s, k) == FirstWith(s[1..], k) + 1;
    }
  }

  lemma Element(ks: set<int>)
    requires |ks| != 0
    ensures exists x :: x in ks
  {
    if forall x :: x !in ks {
      assert false;
    }
  }

  lemma MaxExists(ks: set<int>)
    requires |ks| != 0
    ensures exists m :: m in ks && forall k :: k in ks ==> k <= m
    decreases |ks|
  {
    Element(ks);
    var x :| x in ks;
    var rest := ks - {x};
    if |rest| != 0 {
      MaxExists(rest);
      var m :| m in rest && forall k :: k in rest ==> k <= m;
      var top := if x > m then x else m;
      forall k | k in ks ensures k <= top {
        if k != x { assert k in rest; }
      }
    } else {
      forall k | k in ks ensures k <= x {
        if k != x { assert false; }
      }
    }
  }

  function Max(ks: set<int>): (m: int)
    requires |ks| != 0
    ensures m in ks && forall k :: k in ks ==> k <= m
  {
    MaxExists(ks);
    var m :| m in ks && forall k :: k in ks ==> k <= m;
    m
  }

  /** `Object.keys(tmpObj).sort((a, b) => b - a)`: the timestamps from newest to oldest. */
  function Desc(ks: set<int>): (r: seq<int>)
    ensures |r| == |ks|
    ensures forall i :: 0 <= i < |r| ==> r[i] in ks
    ensures forall i :: 0 < i < |r| ==> r[i - 1] > r[i]
    decreases |ks|
  {
    if |ks| == 0 then []
    else
      var m := Max(ks);
      [m] + Desc(ks - {m})
  }

  /** The sorted keys are strictly decreasing, so no timestamp appears twice. */
  lemma {:induction false} DescStrict(ks: set<int>, i: nat, j: nat)
    requires i < j < |ks|
    ensures Desc(ks)[i] > Desc(ks)[j]
    decreases j - i
  {
    if i + 1 < j {
      DescStrict(ks, i + 1, j);
    }
  }

  /** Every stored timestamp has a place in the sorted keys. */
  lemma {:induction false} DescHas(ks: set<int>, k: int)
    requires k in ks
    ensures exists i :: 0 <= i < |Desc(ks)| && Desc(ks)[i] == k
    decreases |ks|
  {
    var m := Max(ks);
    var rest := Desc(ks - {m});
    assert Desc(ks) == [m] + rest;
    if k == m {
      assert Desc(ks)[0] == k;
    } else {
      DescHas(ks - {m}, k);
      var i :| 0 <= i < |rest| && rest[i] == k;
      assert Desc(ks)[i + 1] == k;
    }
  }

  /** How many stored timestamps are newer than `k`. */
  function Newer(ks: set<int>, k: int): nat {
    |set x | x in ks && x > k|
  }

  /** The timestamp at place `i` of the sorted keys has exactly `i` newer ones. */
  lemma {:induction false} DescRank(ks: set<int>, i: nat)
    requires i < |ks|
    ensures Newer(ks, Desc(ks)[i]) == i
    decreases |ks|
  {
    var m := Max(ks);
    var rest := Desc(ks - {m});
    assert Desc(ks) == [m] + rest;
    if i == 0 {
      assert (set x | x in ks && x > m) == {};
    } else {
      var k := Desc(ks)[i];
      assert k == rest[i - 1];
      DescRank(ks - {m}, i - 1);
      var above := set x | x in ks - {m} && x > k;
      assert (set x | x in ks && x > k) == above + {m};
      assert m !in above;
    }
  }

  /** `j + 1 > reservedCount` for every place `j` of the sorted keys; with no count, none. */
  function Skip(keys: seq<int>, reserved: Option<int>): (r: seq<int>)
    ensures reserved.None? ==> r == []
    ensures reserved.Some? ==> r == keys[(if reserved.value < 0 then 0 else if reserved.value > |keys| then |keys| else reserved.value)..]
  {
    if reserved.None? then []
    else
      var c := reserved.value;
      var j := if c < 0 then 0 else if c > |keys| then |keys| else c;
      keys[j..]
  }

  /** A timestamp's representative is trimmed exactly when `reservedCount` or more timestamps are newer. */
  lemma TrimmedIffNewer(ks: set<int>, c: int, k: int)
    requires k in ks
    ensures k in Skip(Desc(ks), Some(c)) <==> Newer(ks, k) >= c
  {
    var d := Desc(ks);
    DescHas(ks, k);
    var i :| 0 <= i < |d| && d[i] == k;
    DescRank(ks, i);
    var j := if c < 0 then 0 else if c > |d| then |d| else c;
    if k in d[j..] {
      var p :| j <= p < |d| && d[p] == k;
      if p < i { DescStrict(ks, p, i); } else if p > i { DescStrict(ks, i, p); }
    } else {
      assert i < j;
    }
  }

  /** The trim rule a caller may pass: a function whose result is compared with `=== true`. */
  type Rule = Value -> Value

  function Filter(s: seq<Value>, rule: Rule): (r: seq<Value>)
    ensures |r| <= |s|
    ensures forall x :: x in r <==> x in s && rule(x) == Bool(true)
  {
    if s == [] then []
    else
      var rest := Filter(s[1..], rule);
      assert forall x :: x in s <==> x == s[0] || x in s[1..];
      if rule(s[0]) == Bool(true) then [s[0]] + rest else rest
  }

  /** The representatives of the dropped timestamps, in the sorted order. */
  function Dropped(scan: Scan, drop: seq<int>): (r: seq<Value>)
    requires forall i :: 0 <= i < |drop| ==> drop[i] in scan.firsts
    ensures |r| == |drop| && forall i :: 0 <= i < |drop| ==> r[i] == scan.firsts[drop[i]]
  {
    seq(|drop|, i requires 0 <= i < |drop| => scan.firsts[drop[i]])
  }

  /**
   * `trimResult` without its deletion: `None` stands for the `false` it
   * returns on a non-array or a result shorter than the count; otherwise the
   * records to trim.
   */
  function Pick(result: Value, reserved: Option<int>, rule: Option<Rule>): (r: Option<seq<Value>>)
    requires result.Arr? && rule.None? ==> AllStamped(result.items)
    ensures r.None? <==> !result.Arr? || (reserved.Some? && |result.items| < reserved.value)
    ensures r.Some? && rule.Some? ==> forall x :: x in r.value <==> x in result.items && rule.value(x) == Bool(true)
    ensures r.Some? ==> forall x :: x in r.value ==> x in result.items
  {
    if !result.Arr? || (reserved.Some? && |result.items| < reserved.value) then None
    else if rule.Some? then Some(Filter(result.items, rule.value))
    else
      var scan := ScanAll(result.items);
      var drop := Skip(Desc(scan.firsts.Keys), reserved);
      ScanFromDrawsFrom(result.items, Scan([], map[]));
      ScanCounts(result.items);
      assert forall i :: 0 <= i < |drop| ==> drop[i] in scan.firsts;
      Some(scan.dups + Dropped(scan, drop))
  }

  /**
   * The default rule keeps one record per timestamp for the `reservedCount`
   * newest timestamps and trims everything else: as many records stay as
   * there are such timestamps.
   */
  lemma DefaultKeepsNewest(items: seq<Value>, c: int)
    requires AllStamped(items) && c <= |items|
    ensures var r := Pick(Arr(items), Some(c), None);
            var n := |Stamps(items)|;
            r.Some? && |items| - |r.value| == (if c < 0 then 0 else if c > n then n else c)
  {
    ScanCounts(items);
  }

  /**
   * Which representatives go: the trimmed records are the duplicates and the
   * representatives of the timestamps that have `c` or more newer ones.
   */
  lemma DefaultTrimsByRank(items: seq<Value>, c: int)
    requires AllStamped(items) && c <= |items|
    ensures var scan := ScanAll(items);
            var drop := Skip(Desc(Stamps(items)), Some(c));
            scan.firsts.Keys == Stamps(items)
            && Pick(Arr(items), Some(c), None) == Some(scan.dups + Dropped(scan, drop))
            && forall k :: k in Stamps(items) ==> (k in drop <==> Newer(Stamps(items), k) >= c)
  {
    ScanCounts(items);
    forall k | k in Stamps(items) ensures k in Skip(Desc(Stamps(items)), Some(c)) <==> Newer(Stamps(items), k) >= c {
      TrimmedIffNewer(Stamps(items), c, k);
    }
  }

  /** With no count the default rule trims only the duplicates of a timestamp. */
  lemma NoCountTrimsDuplicatesOnly(items: seq<Value>)
    requires AllStamped(items)
    ensures Pick(Arr(items), None, None) == Some(ScanAll(items).dups)
    ensures |ScanAll(items).dups| == |items| - |Stamps(items)|
  {
    ScanCounts(items);
    var scan := ScanAll(items);
    assert Dropped(scan, []) == [];
    assert scan.dups + [] == scan.dups;
  }

  function UrlsOf(s: seq<Value>): (r: seq<Value>)
    ensures |r| == |s| && forall i :: 0 <= i < |s| ==> r[i] == Get(s[i], "url")
  {
    seq(|s|, i requires 0 <= i < |s| => Get(s[i], "url"))
  }

  /** `trimResult` with its deletion: the trimmed records' urls go through `deleteByUrls`. */
  function TrimResult(t: Table, result: Value, reserved: Option<int>, rule: Option<Rule>, fp: string -> string): (r: (Table, Option<seq<Value>>))
    requires result.Arr? && rule.None? ==> AllStamped(result.items)
    ensures r.1 == Pick(result, reserved, rule)
    ensures r.1.None? ==> r.0 == t
    ensures r.1.Some? ==> forall row, i :: row in r.0 && 0 <= i < |r.1.value| ==> Lookup(row, "url_hash") != UrlKey(Get(r.1.value[i], "url"), fp)
    ensures r.1.Some? ==> DeletedExactly(t, r.0, UrlsOf(r.1.value), fp)
    ensures forall row :: row in r.0 ==> row in t
  {
    match Pick(result, reserved, rule)
    case None => (t, None)
    case Some(trimmed) =>
      TrimDeletes(t, trimmed, fp);
      (DeleteByUrls(t, Arr(UrlsOf(trimmed)), fp).0, Some(trimmed))
  }

  /** Deleting the trimmed records' urls removes exactly the rows under their keys. */
  lemma TrimDeletes(t: Table, trimmed: seq<Value>, fp: string -> string)
    ensures var d := DeleteByUrls(t, Arr(UrlsOf(trimmed)), fp).0;
            (forall row :: row in d ==> row in t)
            && (forall row, i :: row in d && 0 <= i < |trimmed| ==> Lookup(row, "url_hash") != UrlKey(Get(trimmed[i], "url"), fp))
            && DeletedExactly(t, d, UrlsOf(trimmed), fp)
  {
    var urls := UrlsOf(trimmed);
    assert UrlList(Arr(urls)) == urls;
  }
}

=== FILE: upsert_laws.dfy ===
/**
 * What the class's `insert` keeps: a table in which every row sits under the
 * fingerprint of its own url, once, stays that way when records that leave
 * the hash to the store are written; a repeated url updates its one row and
 * counts the update.
 */
module UpsertLaws {
  import opened Js
  import opened CacheRow
  import opened CacheStore
  import SqlFragment

  /** Every row is stored under its own url's fingerprint, and no key is stored twice. */
  predicate Keyed(t: Table, fp: string -> string) {
    (forall i :: 0 <= i < |t| ==> Lookup(t[i], "url_hash") == UrlKey(Lookup(t[i], "url"), fp))
    && (forall i, j :: 0 <= i < j < |t| ==> Lookup(t[i], "url_hash") != Lookup(t[j], "url_hash"))
  }

  /**
   * A record with a text url whose `url_hash`, if any, is that url's
   * fingerprint or falsy. The fingerprint (an MD5 digest in hex) is never
   * empty; an empty one would be falsy and `select` would not look it up.
   */
  predicate WellFormed(item: Value, fp: string -> string) {
    item.Obj? && Lookup(item.fields, "url").Str? && fp(item.fields["url"].s) != ""
    && ("url_hash" in item.fields ==>
          item.fields["url_hash"] == Str(fp(item.fields["url"].s))
          || (!Truthy(item.fields["url_hash"]) && !item.fields["url_hash"].Obj?))
  }

  predicate HasKey(t: Table, k: Value) {
    exists i :: 0 <= i < |t| && Lookup(t[i], "url_hash") == k
  }

  /** A schema over the table's own columns, in table order: its records fill the insert statement column by column. */
  predicate Sound(sch: Schema) {
    ValidSchema(sch) && sch.defaults == SqlFragment.Columns
  }

  /** Every value the table holds is one SQLite stores: a number, text, or NULL. */
  predicate Stored(t: Table) {
    forall i, c :: 0 <= i < |t| && c in t[i] ==> Scalar(t[i][c])
  }

  /**
   * A supplied value that column `c` of the record can carry: a number or
   * text; an object when the schema turns objects into JSON text; `null` or
   * `undefined` where the column may be NULL; and for `url_hash` any falsy
   * value, which the fingerprint replaces.
   */
  predicate Fits(sch: Schema, c: string, v: Value) {
    v.Num? || v.Str? || (sch.sanitises && v.Obj?)
    || (Nullish(v) && c !in SqlFragment.NotNull)
    || (c == "url_hash" && !Truthy(v) && !v.Obj?)
  }

  /** Every supplied value of an object that reaches the record fits its column. */
  predicate Binding(sch: Schema, item: Value) {
    item.Obj? ==> forall c :: c in item.fields && c in sch.defaults ==> Fits(sch, c, item.fields[c])
  }

  /** A default is a number or text, or the prior row's truthy creation time. */
  lemma DefaultBinds(c: string, data: map<string, Value>, prev: Option<Row>, now: int)
    requires prev.Some? ==> forall k :: k in prev.value ==> Scalar(prev.value[k])
    requires c == "server_time" ==> "server_time" !in data
    ensures Scalar(DefaultValue(c, data, prev, now)) && !Nullish(DefaultValue(c, data, prev, now))
  {
  }

  /** The row an upsert finds is one of the table's, so its values are stored ones. */
  lemma PriorStored(t: Table, fields: map<string, Value>, fp: string -> string)
    requires Stored(t) && Prior(t, fields, fp).Some?
    ensures var prev := Prior(t, fields, fp).value;
            forall k :: k in prev ==> Scalar(prev[k])
  {
    var prev := Prior(t, fields, fp).value;
    var i :| 0 <= i < |t| && t[i] == prev;
  }

  /** A column of the normalised record binds, and is not null when the column is `NOT NULL`. */
  lemma NormalizedColumnBinds(sch: Schema, fields: map<string, Value>, prev: Option<Row>, env: Env, c: string)
    requires ValidSchema(sch) && Binding(sch, Obj(fields)) && c in sch.defaults
    requires prev.Some? ==> forall k :: k in prev.value ==> Scalar(prev.value[k])
    ensures var r := Normalize(sch, fields, prev, env);
            Scalar(r[c]) && (c in SqlFragment.NotNull ==> !Nullish(r[c]))
  {
    if c != "url_hash" {
      if c !in fields {
        DefaultBinds(c, fields, prev, env.now);
      }
    }
  }

  /** Each column of the record an upsert writes binds, and a `NOT NULL` one is not null. */
  lemma ColumnBinds(sch: Schema, t: Table, fields: map<string, Value>, env: Env, c: string)
    requires ValidSchema(sch) && Stored(t) && Binding(sch, Obj(fields)) && c in sch.defaults
    ensures var rec := Record(sch, t, fields, env);
            Scalar(rec[c]) && (c in SqlFragment.NotNull ==> !Nullish(rec[c]))
  {
    var prev := Prior(t, fields, env.fp);
    if prev.Some? {
      PriorStored(t, fields, env.fp);
    }
    RecordColumn(sch, t, fields, env, c);
    if prev.Some? && c == "update_count" {
      CountNullable(Lookup(prev.value, "update_count"));
    } else {
      NormalizedColumnBinds(sch, fields, prev, env, c);
    }
  }

  /** The bumped update count binds, and its column may be NULL. */
  lemma CountNullable(v: Value)
    ensures Scalar(NextCount(v)) && "update_count" !in SqlFragment.NotNull
  {
  }

  /** A column of the upsert's record is the normalised one, except a bumped update count on an update. */
  lemma RecordColumn(sch: Schema, t: Table, fields: map<string, Value>, env: Env, c: string)
    requires ValidSchema(sch) && c in sch.defaults
    ensures var prev := Prior(t, fields, env.fp);
            Record(sch, t, fields, env)[c]
            == if prev.Some? && c == "update_count" then NextCount(Lookup(prev.value, "update_count"))
               else Normalize(sch, fields, prev, env)[c]
  {
  }

  /** The record an upsert writes from a binding object binds, and keeps the `NOT NULL` columns non-null. */
  lemma RecordBinds(sch: Schema, t: Table, fields: map<string, Value>, env: Env)
    requires Sound(sch) && Stored(t) && Binding(sch, Obj(fields))
    ensures var rec := Record(sch, t, fields, env);
            (forall c :: c in rec ==> Scalar(rec[c])) && NotNullHolds(Values(sch, rec))
  {
    var rec := Record(sch, t, fields, env);
    forall c | c in rec ensures Scalar(rec[c]) {
      ColumnBinds(sch, t, fields, env, c);
    }
    var vs := Values(sch, rec);
    forall i | 0 <= i < |vs| && i < |SqlFragment.Columns| && SqlFragment.Columns[i] in SqlFragment.NotNull
      ensures !Nullish(vs[i])
    {
      ColumnBinds(sch, t, fields, env, SqlFragment.Columns[i]);
    }
  }

  /** An upsert of a binding object into a stored table commits, and the table it leaves holds stored values only. */
  lemma UpsertCommits(sch: Schema, t: Table, item: Value, env: Env)
    requires Sound(sch) && Stored(t) && item.Obj? && Binding(sch, item)
    ensures InsertOne(sch, t, item, env).Ok?
    ensures Stored(InsertOne(sch, t, item, env).value)
  {
    RecordBinds(sch, t, item.fields, env);
    var rec := Record(sch, t, item.fields, env);
    if Prior(t, item.fields, env.fp).Some? {
      StoredUpdate(t, UrlKey(rec["url"], env.fp), rec);
    } else {
      StoredAppend(t, rec);
    }
  }

  lemma StoredUpdate(t: Table, key: Value, rec: Row)
    requires Stored(t) && forall c :: c in rec ==> Scalar(rec[c])
    ensures Stored(UpdateWhere(t, key, rec))
  {
  }

  lemma StoredAppend(t: Table, rec: Row)
    requires Stored(t) && forall c :: c in rec ==> Scalar(rec[c])
    ensures Stored(t + [rec])
  {
    assert forall i :: 0 <= i < |t| ==> (t + [rec])[i] == t[i];
  }

  /** Any schema over the 24 columns of `sqlFragment` names every column the upsert relies on. */
  lemma ColumnsSound(sch: Schema)
    requires sch.defaults == SqlFragment.Columns
    ensures Sound(sch)
  {
    assert SqlFragment.Columns[1] == "path";
    assert SqlFragment.Columns[2] == "url";
    assert SqlFragment.Columns[3] == "url_hash";
    assert SqlFragment.Columns[7] == "create_time";
    assert SqlFragment.Columns[8] == "last_accessed";
    assert SqlFragment.Columns[23] == "update_count";
  }

  lemma InstanceValid()
    ensures Sound(Instance) && Sound(LegacyCorrected)
  {
    ColumnsSound(Instance);
    ColumnsSound(LegacyCorrected);
  }

  /** The record an upsert writes is stored under its url's fingerprint. */
  lemma NormalizedKey(sch: Schema, item: Value, prev: Option<Row>, env: Env)
    requires WellFormed(item, env.fp)
    requires ValidSchema(sch)
    ensures var r := Normalize(sch, item.fields, prev, env);
            var u := item.fields["url"];
            r["url"] == u && r["url_hash"] == Str(env.fp(u.s)) && UrlKey(u, env.fp) == Str(env.fp(u.s))
  {
    var r := Normalize(sch, item.fields, prev, env);
    var u := item.fields["url"];
    assert r["url"] == Conv(sch, u, env.json) == u;
    assert JsString(u) == u.s;
  }

  /** The record an upsert writes keeps the item's url and is stored under its fingerprint. */
  lemma RecordKey(sch: Schema, t: Table, item: Value, env: Env)
    requires WellFormed(item, env.fp) && ValidSchema(sch)
    ensures var r := Record(sch, t, item.fields, env);
            r["url"] == item.fields["url"] && r["url_hash"] == UrlKey(item.fields["url"], env.fp)
  {
    NormalizedKey(sch, item, Prior(t, item.fields, env.fp), env);
  }

  /**
   * One upsert on a keyed table: it succeeds, keeps the table keyed, stores
   * the url's key, leaves rows under other keys where they were, and adds a
   * row exactly when the key was new.
   */
  lemma UpsertKeepsKeyed(sch: Schema, t: Table, item: Value, env: Env)
    requires Sound(sch) && Keyed(t, env.fp) && Stored(t) && WellFormed(item, env.fp) && Binding(sch, item)
    ensures InsertOne(sch, t, item, env).Ok?
    ensures var t' := InsertOne(sch, t, item, env).value;
            var k := UrlKey(item.fields["url"], env.fp);
            Keyed(t', env.fp) && Stored(t') && HasKey(t', k)
            && |t'| == (if HasKey(t, k) then |t| else |t| + 1)
            && (forall i :: 0 <= i < |t| && Lookup(t[i], "url_hash") != k ==> t'[i] == t[i])
  {
    UpsertCommits(sch, t, item, env);
    WrittenKeyed(sch, t, item, env);
  }

  /** The table the upsert's statement leaves, as `UpsertKeepsKeyed` describes it. */
  lemma WrittenKeyed(sch: Schema, t: Table, item: Value, env: Env)
    requires ValidSchema(sch) && Keyed(t, env.fp) && WellFormed(item, env.fp)
    ensures var t' := Written(sch, t, item.fields, env);
            var k := UrlKey(item.fields["url"], env.fp);
            Keyed(t', env.fp) && HasKey(t', k)
            && |t'| == (if HasKey(t, k) then |t| else |t| + 1)
            && (forall i :: 0 <= i < |t| && Lookup(t[i], "url_hash") != k ==> t'[i] == t[i])
  {
    var u := item.fields["url"];
    var k := UrlKey(u, env.fp);
    var r := Record(sch, t, item.fields, env);
    RecordKey(sch, t, item, env);
    var t' := Written(sch, t, item.fields, env);
    var prev := Prior(t, item.fields, env.fp);
    assert Lookup(item.fields, "url") == u;
    if prev.Some? {
      assert t' == UpdateWhere(t, k, r);
      UpdateKeepsKeyed(t, k, r, env.fp);
    } else {
      assert !HasKey(t, k);
      assert t' == t + [r];
      AppendKeepsKeyed(t, k, r, env.fp);
    }
  }

  /** Rewriting the rows under a stored key with a row keyed the same keeps the table keyed. */
  lemma UpdateKeepsKeyed(t: Table, k: Value, r: Row, fp: string -> string)
    requires Keyed(t, fp) && HasKey(t, k)
    requires Lookup(r, "url_hash") == k == UrlKey(Lookup(r, "url"), fp)
    ensures var t' := UpdateWhere(t, k, r);
            Keyed(t', fp) && HasKey(t', k) && |t'| == |t|
            && (forall i :: 0 <= i < |t| && Lookup(t[i], "url_hash") != k ==> t'[i] == t[i])
  {
    var t' := UpdateWhere(t, k, r);
    var i0 :| 0 <= i0 < |t| && Lookup(t[i0], "url_hash") == k;
    assert Lookup(t'[i0], "url_hash") == k;
    forall i, j | 0 <= i < j < |t'| ensures Lookup(t'[i], "url_hash") != Lookup(t'[j], "url_hash") {
      if Lookup(t[i], "url_hash") == k && Lookup(t[j], "url_hash") == k {
        assert false;
      }
    }
  }

  /** Appending a row under a key the table does not hold keeps it keyed. */
  lemma AppendKeepsKeyed(t: Table, k: Value, r: Row, fp: string -> string)
    requires Keyed(t, fp) && !HasKey(t, k)
    requires Lookup(r, "url_hash") == k == UrlKey(Lookup(r, "url"), fp)
    ensures Keyed(t + [r], fp) && HasKey(t + [r], k)
  {
    assert (t + [r])[|t|] == r;
  }

  /** On an update the record counts one more update than the prior row and keeps its creation time. */
  lemma RecordOnUpdate(sch: Schema, t: Table, fields: map<string, Value>, env: Env)
    requires ValidSchema(sch) && Prior(t, fields, env.fp).Some?
    requires "create_time" !in fields
    ensures var prev := Prior(t, fields, env.fp).value;
            var r := Record(sch, t, fields, env);
            r["update_count"] == NextCount(Lookup(prev, "update_count"))
            && (Truthy(Lookup(prev, "create_time")) ==> r["create_time"] == prev["create_time"])
            && r["last_accessed"] == (if "last_accessed" in fields then Conv(sch, fields["last_accessed"], env.json) else Num(env.now))
  {
    var prev := Prior(t, fields, env.fp);
    var r0 := Normalize(sch, fields, prev, env);
    assert Record(sch, t, fields, env) == r0["update_count" := NextCount(Lookup(prev.value, "update_count"))];
  }

  /** The rewritten row keeps its place, counts one more update, and keeps its creation time. */
  lemma UpsertUpdatesInPlace(sch: Schema, t: Table, item: Value, env: Env, i: nat)
    requires Sound(sch) && Keyed(t, env.fp) && Stored(t) && WellFormed(item, env.fp) && Binding(sch, item)
    requires i < |t| && Lookup(t[i], "url_hash") == UrlKey(item.fields["url"], env.fp)
    requires "create_time" !in item.fields
    ensures InsertOne(sch, t, item, env).Ok?
    ensures var t' := InsertOne(sch, t, item, env).value;
            |t'| == |t| && t'[i]["update_count"] == NextCount(Lookup(t[i], "update_count"))
            && (Truthy(Lookup(t[i], "create_time")) ==> t'[i]["create_time"] == t[i]["create_time"])
            && t'[i]["last_accessed"] == (if "last_accessed" in item.fields then Conv(sch, item.fields["last_accessed"], env.json) else Num(env.now))
  {
    UpsertKeepsKeyed(sch, t, item, env);
    var u := item.fields["url"];
    var k := UrlKey(u, env.fp);
    var prev := Prior(t, item.fields, env.fp);
    assert Lookup(item.fields, "url") == u;
    assert prev.Some?;
    var j :| 0 <= j < |t| && t[j] == prev.value;
    assert i == j;
    var r := Record(sch, t, item.fields, env);
    RecordOnUpdate(sch, t, item.fields, env);
    RecordKey(sch, t, item, env);
    assert Written(sch, t, item.fields, env) == UpdateWhere(t, k, r);
  }

  /** The update-count part of `UpsertUpdatesInPlace`. */
  lemma UpsertCountsUpdate(sch: Schema, t: Table, item: Value, env: Env, i: nat)
    requires Sound(sch) && Keyed(t, env.fp) && Stored(t) && WellFormed(item, env.fp) && Binding(sch, item)
    requires i < |t| && Lookup(t[i], "url_hash") == UrlKey(item.fields["url"], env.fp)
    requires "create_time" !in item.fields
    ensures InsertOne(sch, t, item, env).Ok?
    ensures var t' := InsertOne(sch, t, item, env).value;
            |t'| == |t| && Lookup(t'[i], "update_count") == NextCount(Lookup(t[i], "update_count"))
  {
    UpsertUpdatesInPlace(sch, t, item, env, i);
  }

  /** A batch of well-formed records keeps a keyed table keyed and never throws. */
  lemma {:induction false} BatchKeepsKeyed(sch: Schema, t: Table, items: seq<Value>, env: Env)
    requires Sound(sch) && Keyed(t, env.fp) && Stored(t)
    requires forall i :: 0 <= i < |items| ==> WellFormed(items[i], env.fp) && Binding(sch, items[i])
    ensures InsertItems(sch, t, items, env).Ok?
    ensures Keyed(InsertItems(sch, t, items, env).value, env.fp) && Stored(InsertItems(sch, t, items, env).value)
    decreases |items|
  {
    if items != [] {
      BindingTail(sch, items, env.fp);
      UpsertKeepsKeyed(sch, t, items[0], env);
      var t1 := InsertOne(sch, t, items[0], env).value;
      InsertItemsCons(sch, t, items, env);
      BatchKeepsKeyed(sch, t1, items[1..], env);
    }
  }

  /** The rest of a batch of well-formed, binding records is one too. */
  lemma BindingTail(sch: Schema, items: seq<Value>, fp: string -> string)
    requires |items| > 0 && forall i :: 0 <= i < |items| ==> WellFormed(items[i], fp) && Binding(sch, items[i])
    ensures WellFormed(items[0], fp) && Binding(sch, items[0])
    ensures forall i :: 0 <= i < |items[1..]| ==> WellFormed(items[1..][i], fp) && Binding(sch, items[1..][i])
  {
  }

  /** The class's insert, from an empty table: a batch of well-formed records commits and leaves it keyed. */
  lemma InstanceBatchKeyed(items: seq<Value>, env: Env)
    requires forall i :: 0 <= i < |items| ==> WellFormed(items[i], env.fp) && Binding(Instance, items[i])
    ensures Insert(Instance, [], Arr(items), env).Applied?
    ensures Keyed(Insert(Instance, [], Arr(items), env).table, env.fp)
  {
    InstanceValid();
    BatchKeepsKeyed(Instance, [], items, env);
  }

  /** A batch whose first element commits continues from the table that element left. */
  lemma InsertItemsCons(sch: Schema, t: Table, xs: seq<Value>, env: Env)
    requires ValidSchema(sch) && |xs| > 0 && InsertOne(sch, t, xs[0], env).Ok?
    ensures InsertItems(sch, t, xs, env) == InsertItems(sch, InsertOne(sch, t, xs[0], env).value, xs[1..], env)
  {
  }

  /** A capture into an empty table stores one row that has not been updated yet. */
  lemma FirstCapture(sch: Schema, item: Value, env: Env)
    requires Sound(sch) && WellFormed(item, env.fp) && Binding(sch, item) && "update_count" !in item.fields
    ensures InsertOne(sch, [], item, env).Ok?
    ensures var t := InsertOne(sch, [], item, env).value;
            |t| == 1 && Lookup(t[0], "update_count") == Num(0) && Keyed(t, env.fp) && Stored(t)
            && Lookup(t[0], "url_hash") == UrlKey(item.fields["url"], env.fp)
  {
    UpsertKeepsKeyed(sch, [], item, env);
    FreshInsert(sch, item, env);
    FreshCount(sch, item.fields, env);
  }

  /** Into an empty table the upsert inserts its record, normalised with no prior row. */
  lemma FreshInsert(sch: Schema, item: Value, env: Env)
    requires Sound(sch) && item.Obj? && Binding(sch, item)
    ensures InsertOne(sch, [], item, env) == Ok([Normalize(sch, item.fields, None, env)])
  {
    UpsertCommits(sch, [], item, env);
    assert Prior([], item.fields, env.fp) == None;
    var r := Record(sch, [], item.fields, env);
    assert Written(sch, [], item.fields, env) == [] + [r];
    EmptyAppend(r);
  }

  lemma EmptyAppend<T>(x: T)
    ensures [] + [x] == [x]
  {
  }

  /** A record with no prior row and no supplied update count has not been updated yet. */
  lemma FreshCount(sch: Schema, fields: map<string, Value>, env: Env)
    requires ValidSchema(sch) && "update_count" !in fields
    ensures Lookup(Normalize(sch, fields, None, env), "update_count") == Num(0)
  {
    assert DefaultValue("update_count", fields, None, env.now) == Num(0);
  }

  /** Capturing again the one page a table holds keeps one row, keyed under that page. */
  lemma NextCapture(sch: Schema, t: Table, item: Value, env: Env)
    requires Sound(sch) && WellFormed(item, env.fp) && Binding(sch, item)
    requires |t| == 1 && Keyed(t, env.fp) && Stored(t)
    requires Lookup(t[0], "url_hash") == UrlKey(item.fields["url"], env.fp)
    ensures InsertOne(sch, t, item, env).Ok?
    ensures var t' := InsertOne(sch, t, item, env).value;
            |t'| == 1 && Keyed(t', env.fp) && Stored(t')
            && Lookup(t'[0], "url_hash") == UrlKey(item.fields["url"], env.fp)
  {
    UpsertKeepsKeyed(sch, t, item, env);
    var t' := InsertOne(sch, t, item, env).value;
    var k := UrlKey(item.fields["url"], env.fp);
    assert HasKey(t, k);
    var w :| 0 <= w < |t'| && Lookup(t'[w], "url_hash") == k;
    assert w == 0;
  }

  lemma NextCountNum(v: Value, c: int)
    requires v == Num(c)
    ensures NextCount(v) == Num(c + 1)
  {
  }

  /** Capturing again the one page a table holds keeps one row, keyed under that page, and bumps its update count. */
  lemma Recapture(sch: Schema, t: Table, item: Value, env: Env, c: int) returns (t': Table)
    requires Sound(sch) && WellFormed(item, env.fp) && Binding(sch, item) && "create_time" !in item.fields
    requires |t| == 1 && Keyed(t, env.fp) && Stored(t)
    requires Lookup(t[0], "url_hash") == UrlKey(item.fields["url"], env.fp) && Lookup(t[0], "update_count") == Num(c)
    ensures InsertOne(sch, t, item, env).Ok? && t' == InsertOne(sch, t, item, env).value
    ensures |t'| == 1 && Keyed(t', env.fp) && Stored(t')
    ensures Lookup(t'[0], "url_hash") == UrlKey(item.fields["url"], env.fp) && Lookup(t'[0], "update_count") == Num(c + 1)
  {
    NextCountNum(Lookup(t[0], "update_count"), c);
    NextCapture(sch, t, item, env);
    UpsertCountsUpdate(sch, t, item, env, 0);
    t' := InsertOne(sch, t, item, env).value;
  }

  /** A batch of three items that each commit ends where the third leaves the table. */
  lemma InsertThree(sch: Schema, t0: Table, a: Value, t1: Table, t2: Table, t3: Table, env: Env)
    requires ValidSchema(sch)
    requires InsertOne(sch, t0, a, env).Ok? && InsertOne(sch, t0, a, env).value == t1
    requires InsertOne(sch, t1, a, env).Ok? && InsertOne(sch, t1, a, env).value == t2
    requires InsertOne(sch, t2, a, env).Ok? && InsertOne(sch, t2, a, env).value == t3
    ensures InsertItems(sch, t0, [a, a, a], env) == Ok(t3)
  {
    var xs3 := [a, a, a];
    var xs2 := xs3[1..];
    var xs1 := xs2[1..];
    assert xs2[0] == a && xs1 == [a] && xs1[1..] == [];
    InsertItemsCons(sch, t0, xs3, env);
    InsertItemsCons(sch, t1, xs2, env);
    InsertItemsCons(sch, t2, xs1, env);
    assert InsertItems(sch, t3, [], env) == Ok(t3);
  }

  /** The same page captured three times into an empty table leaves one row whose update count is 2. */
  lemma ThreeCapturesOneRow(sch: Schema, item: Value, env: Env)
    requires Sound(sch) && WellFormed(item, env.fp) && Binding(sch, item) && "update_count" !in item.fields && "create_time" !in item.fields
    ensures var r := InsertItems(sch, [], [item, item, item], env);
            r.Ok? && |r.value| == 1 && Lookup(r.value[0], "update_count") == Num(2)
  {
    FirstCapture(sch, item, env);
    var t1 := InsertOne(sch, [], item, env).value;
    var t2 := Recapture(sch, t1, item, env, 0);
    var t3 := Recapture(sch, t2, item, env, 1);
    InsertThree(sch, [], item, t1, t2, t3, env);
  }

  /** The module-level twin binds 23 values into 24 placeholders, so every object it is given throws. */
  lemma LegacyInsertThrows(t: Table, fields: map<string, Value>, env: Env)
    ensures ValidSchema(Legacy) && Insert(Legacy, t, Obj(fields), env).Threw?
  {
    LegacyValid();
    assert InsertOne(Legacy, t, Obj(fields), env).Err?;
    assert ArgToArr(Obj(fields)) == [Obj(fields)];
  }

  /** The twin names every column the upsert relies on, but holds only 23 defaults. */
  lemma LegacyValid()
    ensures ValidSchema(Legacy) && |Legacy.defaults| == 23
  {
    assert LegacyColumns[1] == "path" && LegacyColumns[2] == "url" && LegacyColumns[3] == "url_hash";
    assert LegacyColumns[7] == "create_time" && LegacyColumns[8] == "last_accessed";
    assert LegacyColumns[22] == "update_count";
  }

  /**
   * Under a schema whose records fill the insert statement, a batch of
   * binding elements commits on a stored table and leaves it stored.
   */
  lemma {:induction false} SoundBatchCommits(sch: Schema, t: Table, items: seq<Value>, env: Env)
    requires Sound(sch) && Stored(t)
    requires forall i :: 0 <= i < |items| ==> Binding(sch, items[i])
    ensures InsertItems(sch, t, items, env).Ok? && Stored(InsertItems(sch, t, items, env).value)
    decreases |items|
  {
    if items != [] {
      if items[0].Obj? {
        UpsertCommits(sch, t, items[0], env);
      }
      var t1 := InsertOne(sch, t, items[0], env);
      SoundBatchCommits(sch, t1.value, items[1..], env);
    }
  }

  /**
   * With `info` among its defaults the twin binds all 24 values: on a stored
   * table, an object or array whose elements bind never throws.
   */
  lemma LegacyCorrectedNeverThrows(t: Table, data: Value, env: Env)
    requires Stored(t)
    requires forall i :: 0 <= i < |ArgToArr(data)| ==> Binding(LegacyCorrected, ArgToArr(data)[i])
    ensures ValidSchema(LegacyCorrected)
    ensures data.Obj? || data.Arr? ==> Insert(LegacyCorrected, t, data, env).Applied?
  {
    InstanceValid();
    SoundBatchCommits(LegacyCorrected, t, ArgToArr(data), env);
  }

  /** Deleting the rows under one key keeps a keyed table keyed. */
  lemma {:induction false} WithoutKeepsKeyed(t: Table, key: Value, fp: string -> string)
    requires Keyed(t, fp)
    ensures Keyed(Without(t, key), fp)
    decreases |t|
  {
    if t != [] {
      TailKeyed(t, fp);
      WithoutKeepsKeyed(t[1..], key, fp);
      var rest := Without(t[1..], key);
      if Lookup(t[0], "url_hash") != key {
        forall row | row in rest
          ensures Lookup(row, "url_hash") != Lookup(t[0], "url_hash")
        {
          var k :| 0 <= k < |t[1..]| && t[1..][k] == row;
          assert t[k + 1] == row;
        }
        ConsKeyed(t[0], rest, fp);
        assert Without(t, key) == [t[0]] + rest;
      } else {
        assert Without(t, key) == rest;
      }
    }
  }

  lemma TailKeyed(t: Table, fp: string -> string)
    requires Keyed(t, fp) && t != []
    ensures Keyed(t[1..], fp)
  {
    assert forall i :: 0 <= i < |t| - 1 ==> t[1..][i] == t[i + 1];
  }

  /** A row keyed by its own url whose key no row of a keyed table has, put in front, keeps the table keyed. */
  lemma ConsKeyed(x: Row, rest: Table, fp: string -> string)
    requires Keyed(rest, fp)
    requires Lookup(x, "url_hash") == UrlKey(Lookup(x, "url"), fp)
    requires forall row :: row in rest ==> Lookup(row, "url_hash") != Lookup(x, "url_hash")
    ensures Keyed([x] + rest, fp)
  {
    var r := [x] + rest;
    assert forall i :: 1 <= i < |r| ==> r[i] == rest[i - 1];
  }

  /** `deleteByUrls` keeps a keyed table keyed. */
  lemma {:induction false} DeleteEachKeepsKeyed(t: Table, us: seq<Value>, fp: string -> string)
    requires Keyed(t, fp)
    ensures Keyed(DeleteEach(t, us, fp).0, fp)
    decreases |us|
  {
    if us != [] {
      var t1 := Without(t, UrlKey(us[0], fp));
      WithoutKeepsKeyed(t, UrlKey(us[0], fp), fp);
      DeleteEachKeepsKeyed(t1, us[1..], fp);
    }
  }
}

=== FILE: write_buffer.dfy ===
/**
 * Deferred writes: `delayInsert(data, writNow)` of the cache
 * (bin/sqlite3/websiteCache.js and its twin in bin/sqlite3/index.js), the
 * three-second timer it arms, the flush on process exit, and the registry
 * that hands out one cache per directory.
 *
 * The timer is a flag: `armed` means a callback is pending. Its firing and
 * the exit hook are events a caller applies.
 */
module WriteBuffer {
  import opened Js
  import opened CacheRow
  import opened CacheStore
  import UpsertLaws

  /** More buffered records than this are written at once. */
  const FlushAbove: nat := 100

  datatype State = State(sch: Schema, table: Table, buffer: seq<Value>, armed: bool)

  datatype Outcome =
    | EmptyTrue                    // nothing buffered: returns true, the timer untouched
    | Flushed                      // the whole buffer went through `insert`
    | Deferred                     // buffered, the timer re-armed
    | Threw(error: InsertError)    // `insert` threw: the buffer stays, the timer is cleared

  /** `delayInsert(data, writNow)`. */
  function DelayInsert(s: State, data: Value, writeNow: bool, env: Env): (r: (State, Outcome))
    requires ValidSchema(s.sch)
    ensures r.0.sch == s.sch
    ensures r.1 == EmptyTrue <==> s.buffer + ArgToArr(data) == []
    ensures r.1 == EmptyTrue ==> r.0 == s
    ensures r.1 == Deferred <==> s.buffer + ArgToArr(data) != [] && !writeNow && |s.buffer + ArgToArr(data)| <= FlushAbove
    ensures r.1 == Deferred ==> r.0 == s.(buffer := s.buffer + ArgToArr(data), armed := true)
    ensures r.1 == Flushed ==> r.0 == s.(table := r.0.table, buffer := [], armed := false)
                                 && InsertItems(s.sch, s.table, s.buffer + ArgToArr(data), env) == Ok(r.0.table)
    ensures r.1.Threw? ==> r.0 == s.(buffer := s.buffer + ArgToArr(data), armed := false)
  {
    var buf := s.buffer + ArgToArr(data);
    assert ArgToArr(Arr(buf)) == buf;
    if |buf| == 0 then (s, EmptyTrue)
    else if writeNow || |buf| > FlushAbove then
      match Insert(s.sch, s.table, Arr(buf), env)
      case Applied(t') => (State(s.sch, t', [], false), Flushed)
      case Threw(e) => (s.(buffer := buf, armed := false), Outcome.Threw(e))
      case Rejected => (s, EmptyTrue)
    else (s.(buffer := buf, armed := true), Deferred)
  }

  /**
   * The armed timer fires, three seconds after it was last armed:
   * `delayInsert([], true)`. It writes the whole buffer, or throws and
   * keeps it; either way no timer is pending afterwards.
   */
  function Fire(s: State, env: Env): (r: (State, Outcome))
    requires ValidSchema(s.sch)
    ensures r.0.sch == s.sch && !r.0.armed && r.1 != Deferred
    ensures !s.armed ==> r == (s, EmptyTrue)
    ensures s.armed && s.buffer == [] ==> r == (s.(armed := false), EmptyTrue)
    ensures s.armed && s.buffer != [] ==> (r.0.buffer == [] <==> !r.1.Threw?)
    ensures r.1 == Flushed ==> InsertItems(s.sch, s.table, s.buffer, env) == Ok(r.0.table)
    ensures r.1.Threw? ==> r.0 == s.(armed := false)
  {
    assert s.buffer + ArgToArr(Arr([])) == s.buffer;
    if s.armed then DelayInsert(s.(armed := false), Arr([]), true, env) else (s, EmptyTrue)
  }

  /**
   * The `exit` hook: `delayInsert([], true)`. An empty buffer leaves the
   * state alone, timer included; otherwise the buffer is written, or the
   * insert throws and it stays, and the timer is cleared.
   */
  function Exit(s: State, env: Env): (r: (State, Outcome))
    requires ValidSchema(s.sch)
    ensures r.0.sch == s.sch && r.1 != Deferred
    ensures s.buffer == [] <==> r == (s, EmptyTrue)
    ensures s.buffer != [] ==> !r.0.armed && (r.0.buffer == [] <==> !r.1.Threw?)
    ensures r.1 == Flushed ==> InsertItems(s.sch, s.table, s.buffer, env) == Ok(r.0.table)
    ensures r.1.Threw? ==> r.0 == s.(armed := false)
  {
    assert s.buffer + ArgToArr(Arr([])) == s.buffer;
    DelayInsert(s, Arr([]), true, env)
  }

  /** A timer is pending exactly while records wait, and the buffer never holds more than the flush threshold. */
  predicate Inv(s: State) {
    |s.buffer| <= FlushAbove && (s.buffer != [] <==> s.armed)
  }

  /** Every value of a batch binds under the schema. */
  predicate AllBinding(sch: Schema, xs: seq<Value>) {
    forall i :: 0 <= i < |xs| ==> UpsertLaws.Binding(sch, xs[i])
  }

  /** A state whose buffer can be written: a sound schema, a stored table, and binding records waiting. */
  predicate Flushable(s: State) {
    UpsertLaws.Sound(s.sch) && UpsertLaws.Stored(s.table) && AllBinding(s.sch, s.buffer)
  }

  lemma AllBindingAppend(sch: Schema, xs: seq<Value>, ys: seq<Value>)
    requires AllBinding(sch, xs) && AllBinding(sch, ys)
    ensures AllBinding(sch, xs + ys)
  {
    assert forall i :: 0 <= i < |xs + ys| ==> (xs + ys)[i] == if i < |xs| then xs[i] else ys[i - |xs|];
  }

  /** The table once everything buffered has been written. */
  function Eventual(s: State, env: Env): (t: Table)
    requires Flushable(s)
    ensures UpsertLaws.Stored(t)
  {
    UpsertLaws.SoundBatchCommits(s.sch, s.table, s.buffer, env);
    InsertItems(s.sch, s.table, s.buffer, env).value
  }

  /** With binding records `delayInsert` never throws, keeps the invariant, and leaves a flushable state. */
  lemma DelayInsertKeepsInv(s: State, data: Value, writeNow: bool, env: Env)
    requires Flushable(s) && Inv(s) && AllBinding(s.sch, ArgToArr(data))
    ensures !DelayInsert(s, data, writeNow, env).1.Threw?
    ensures Inv(DelayInsert(s, data, writeNow, env).0) && Flushable(DelayInsert(s, data, writeNow, env).0)
  {
    DelayInsertCommits(s, data, writeNow, env);
    DelayInsertArms(s, data, writeNow, env);
    DelayInsertFlushable(s, data, writeNow, env);
  }

  lemma DelayInsertCommits(s: State, data: Value, writeNow: bool, env: Env)
    requires Flushable(s) && AllBinding(s.sch, ArgToArr(data))
    ensures !DelayInsert(s, data, writeNow, env).1.Threw?
  {
    AllBindingAppend(s.sch, s.buffer, ArgToArr(data));
    UpsertLaws.SoundBatchCommits(s.sch, s.table, s.buffer + ArgToArr(data), env);
  }

  lemma DelayInsertArms(s: State, data: Value, writeNow: bool, env: Env)
    requires Flushable(s) && Inv(s) && AllBinding(s.sch, ArgToArr(data))
    ensures Inv(DelayInsert(s, data, writeNow, env).0)
  {
    DelayInsertCommits(s, data, writeNow, env);
  }

  lemma DelayInsertFlushable(s: State, data: Value, writeNow: bool, env: Env)
    requires Flushable(s) && AllBinding(s.sch, ArgToArr(data))
    ensures Flushable(DelayInsert(s, data, writeNow, env).0)
  {
    AllBindingAppend(s.sch, s.buffer, ArgToArr(data));
    UpsertLaws.SoundBatchCommits(s.sch, s.table, s.buffer + ArgToArr(data), env);
  }

  /**
   * Deferring is invisible in the end: after `delayInsert`, flushing what is
   * buffered gives the table that inserting the new records after everything
   * already buffered would.
   */
  lemma DeferralTransparent(s: State, data: Value, writeNow: bool, env: Env)
    requires Flushable(s) && AllBinding(s.sch, ArgToArr(data))
    ensures var s' := DelayInsert(s, data, writeNow, env).0;
            Flushable(s')
            && InsertItems(s.sch, Eventual(s, env), ArgToArr(data), env) == Ok(Eventual(s', env))
  {
    var buf := s.buffer + ArgToArr(data);
    AllBindingAppend(s.sch, s.buffer, ArgToArr(data));
    UpsertLaws.SoundBatchCommits(s.sch, s.table, buf, env);
    UpsertLaws.SoundBatchCommits(s.sch, s.table, s.buffer, env);
    UpsertLaws.SoundBatchCommits(s.sch, Eventual(s, env), ArgToArr(data), env);
    InsertItemsAppend(s.sch, s.table, s.buffer, ArgToArr(data), env);
    var r := DelayInsert(s, data, writeNow, env);
    if r.1 == Flushed {
      assert InsertItems(s.sch, r.0.table, [], env) == Ok(r.0.table);
    }
  }

  /** Every stored row is keyed by its url and holds stored values, and every buffered record is well formed and binds. */
  predicate KeyedStore(s: State, fp: string -> string) {
    UpsertLaws.Keyed(s.table, fp) && UpsertLaws.Stored(s.table) && Pending(s.sch, s.buffer, fp)
  }

  /** Records waiting to be written: each well formed and binding. */
  predicate Pending(sch: Schema, xs: seq<Value>, fp: string -> string) {
    forall i :: 0 <= i < |xs| ==> UpsertLaws.WellFormed(xs[i], fp) && UpsertLaws.Binding(sch, xs[i])
  }

  /** Dropping records from the buffer keeps the rest pending. */
  lemma PendingSubset(sch: Schema, xs: seq<Value>, ys: seq<Value>, fp: string -> string)
    requires Pending(sch, xs, fp) && forall y :: y in ys ==> y in xs
    ensures Pending(sch, ys, fp)
  {
    forall i | 0 <= i < |ys|
      ensures UpsertLaws.WellFormed(ys[i], fp) && UpsertLaws.Binding(sch, ys[i])
    {
      assert ys[i] in ys;
    }
  }

  lemma PendingPush(sch: Schema, xs: seq<Value>, x: Value, fp: string -> string)
    requires Pending(sch, xs, fp) && UpsertLaws.WellFormed(x, fp) && UpsertLaws.Binding(sch, x)
    ensures Pending(sch, xs + [x], fp) && AllBinding(sch, xs) && AllBinding(sch, [x])
  {
    assert forall i :: 0 <= i < |xs + [x]| ==> (xs + [x])[i] == if i < |xs| then xs[i] else x;
  }

  /** `delayInsert` of a well-formed record keeps the store keyed. */
  lemma DelayInsertKeepsKeyed(s: State, rec: Value, writeNow: bool, env: Env)
    requires UpsertLaws.Sound(s.sch) && KeyedStore(s, env.fp) && UpsertLaws.WellFormed(rec, env.fp) && UpsertLaws.Binding(s.sch, rec)
    ensures KeyedStore(DelayInsert(s, rec, writeNow, env).0, env.fp)
  {
    assert ArgToArr(rec) == [rec];
    var buf := s.buffer + [rec];
    PendingPush(s.sch, s.buffer, rec, env.fp);
    var r := DelayInsert(s, rec, writeNow, env);
    if r.1 == Flushed {
      FlushKeepsKeyed(s.sch, s.table, buf, env);
    } else if r.1 == Deferred {
      assert r.0 == s.(buffer := buf, armed := true);
    } else if r.1.Threw? {
      assert r.0 == s.(buffer := buf, armed := false);
    } else {
      assert false;
    }
  }

  /** Writing pending records into a keyed table of stored values leaves it so. */
  lemma FlushKeepsKeyed(sch: Schema, t: Table, buf: seq<Value>, env: Env)
    requires UpsertLaws.Sound(sch) && UpsertLaws.Keyed(t, env.fp) && UpsertLaws.Stored(t) && Pending(sch, buf, env.fp)
    ensures InsertItems(sch, t, buf, env).Ok?
    ensures UpsertLaws.Keyed(InsertItems(sch, t, buf, env).value, env.fp) && UpsertLaws.Stored(InsertItems(sch, t, buf, env).value)
  {
    UpsertLaws.BatchKeepsKeyed(sch, t, buf, env);
  }

  /** Once the buffer is written, a well-formed record handed to `delayInsert` is stored under its url's fingerprint. */
  lemma DelayInsertStores(s: State, rec: Value, writeNow: bool, env: Env)
    requires UpsertLaws.Sound(s.sch) && KeyedStore(s, env.fp) && UpsertLaws.WellFormed(rec, env.fp) && UpsertLaws.Binding(s.sch, rec)
    ensures Flushable(DelayInsert(s, rec, writeNow, env).0)
    ensures UpsertLaws.HasKey(Eventual(DelayInsert(s, rec, writeNow, env).0, env), UrlKey(rec.fields["url"], env.fp))
  {
    assert ArgToArr(rec) == [rec];
    PendingPush(s.sch, s.buffer, rec, env.fp);
    DeferralTransparent(s, rec, writeNow, env);
    FlushKeepsKeyed(s.sch, s.table, s.buffer, env);
    UpsertOneStores(s.sch, Eventual(s, env), rec, env);
  }

  /** Inserting one well-formed, binding record into a keyed table stores its url's key. */
  lemma UpsertOneStores(sch: Schema, t: Table, rec: Value, env: Env)
    requires UpsertLaws.Sound(sch) && UpsertLaws.Keyed(t, env.fp) && UpsertLaws.Stored(t)
    requires UpsertLaws.WellFormed(rec, env.fp) && UpsertLaws.Binding(sch, rec)
    ensures InsertItems(sch, t, [rec], env).Ok?
    ensures UpsertLaws.HasKey(InsertItems(sch, t, [rec], env).value, UrlKey(rec.fields["url"], env.fp))
  {
    UpsertLaws.UpsertKeepsKeyed(sch, t, rec, env);
    UpsertLaws.InsertItemsCons(sch, t, [rec], env);
    assert [rec][1..] == [];
  }

  /** On exit, with binding records, the buffer is empty and the table holds everything. */
  lemma ExitDrains(s: State, env: Env)
    requires Flushable(s)
    ensures var s' := Exit(s, env).0;
            s'.buffer == [] && s'.table == Eventual(s, env)
  {
    UpsertLaws.SoundBatchCommits(s.sch, s.table, s.buffer, env);
    assert s.buffer + ArgToArr(Arr([])) == s.buffer;
  }

  /** The armed timer's firing writes the whole buffer too. */
  lemma FireDrains(s: State, env: Env)
    requires Flushable(s) && s.armed
    ensures var s' := Fire(s, env).0;
            s'.buffer == [] && !s'.armed && s'.table == Eventual(s, env)
  {
    UpsertLaws.SoundBatchCommits(s.sch, s.table, s.buffer, env);
    assert s.buffer + ArgToArr(Arr([])) == s.buffer;
  }

  /**
   * The module-level twin throws on every flush of an object, so a record
   * handed to it stays buffered with no timer pending.
   */
  lemma LegacyFlushStrands(t: Table, fields: map<string, Value>, env: Env)
    ensures ValidSchema(Legacy)
    ensures var s' := DelayInsert(State(Legacy, t, [], false), Obj(fields), true, env);
            s'.1.Threw? && s'.0.buffer == [Obj(fields)] && !s'.0.armed && s'.0.table == t
  {
    UpsertLaws.LegacyInsertThrows(t, fields, env);
    var ins := Insert(Legacy, t, Arr([Obj(fields)]), env);
    assert InsertItems(Legacy, t, [Obj(fields)], env) == InsertItems(Legacy, t, ArgToArr(Obj(fields)), env);
  }

  /** The registry of caches: one per directory, keyed by the MD5 digest of the directory's text. */
  type Registry<I> = map<string, I>

  /**
   * `new WebsiteCache(cacheDir)`: a falsy directory means the configured
   * one; an instance already registered under the key is returned and the
   * new one is dropped.
   */
  function Construct<I>(reg: Registry<I>, cacheDir: Value, configured: Value, md5: string -> string, created: I): (r: (Registry<I>, I))
    ensures var key := md5(JsString(if Truthy(cacheDir) then cacheDir else configured));
            key in r.0 && r.1 == r.0[key]
            && (key in reg ==> r == (reg, reg[key]))
            && (key !in reg ==> r.0 == reg[key := created] && r.1 == created)
  {
    var dir := if Truthy(cacheDir) then cacheDir else configured;
    var key := md5(JsString(dir));
    if key in reg then (reg, reg[key]) else (reg[key := created], created)
  }

  /** Constructing twice for one directory yields the same instance, whatever the second new one was. */
  lemma ConstructOncePerDirectory<I>(reg: Registry<I>, dir: Value, configured: Value, md5: string -> string, a: I, b: I)
    ensures var (reg1, i1) := Construct(reg, dir, configured, md5, a);
            var (reg2, i2) := Construct(reg1, dir, configured, md5, b);
            i2 == i1 && reg2 == reg1
  {
  }
}
